=== FILE: README.md ===
# squid-monitor core in Dafny

A model of the pure logic inside squid-monitor, a small Django/Celery dashboard for the Squid proxy access log. The model covers:

- **The log reader** (`SquidLogReader` in `squidweb/monitor/utils.py`). This is the anchored line pattern of `_parse_line`, and the backward block scan of `get_last_lines` with its one-character stitch lookback, truncation to `n`, parsing and sort. It also covers the three whole-log queries `get_traffic_stats`, `get_active_users` and `get_user_connections`.
- **The periodic tasks** (`squidweb/monitor/tasks.py`):
  - `update_log_cache`, which writes the whole log and its day and month windows to the cache;
  - the data behind the traffic and domain charts, meaning hour and day buckets and the ten busiest domains;
  - the per-client table of `update_users_cache`.
- **The pages** (`squidweb/monitor/views.py`):
  - the cache hit/miss logic of `_get_cached_entries` and the dashboard's aggregation;
  - the users-list fallback fold and its busiest-first sort;
  - the per-client filtering and statistics of the user detail page.
- **The importer** (`import_squid_logs` command), a line-by-line fold. It skips blank, short, unconvertible and already-stored lines, counts what it sees, and writes records in batches of a thousand.

Modules:

- **Data and text:**
  - `Wrappers`: `Option`.
  - `Text`: whitespace, `strip`, `split`, `splitlines` on `'\n'`, and joins.
  - `Seqs`: order-preserving filters, sums and prefixes.
  - `Entries`: the `Entry` record, the time keys and the time windows.
- **Log reader:**
  - `Parser`: `_parse_line`.
  - `TailReader`: `get_last_lines`.
  - `Urls`: `urlparse(...).netloc` and the four domain rules.
- **Folds:**
  - `Sorting`: stable key sorts and top-`k` selection.
  - `Tally`: the recurring "count and sum per key, in order of first appearance" loop.
  - `Clients`: the per-client folds.
  - `Queries`: the `utils.py` queries.
- **Cache, tasks and pages:**
  - `Cache`: a key/value store with expiry.
  - `Tasks`.
  - `Views`.
- **`Importer`.**

How the program's surroundings are represented:

- **Time:** a timestamp is an integer count of local Moscow seconds, that is, Unix seconds plus three hours.
- **Truncated time keys:**
  - the hour key is `t - t % 3600`;
  - the day key is `t / 86400`;
  - the month key is derived from the proleptic Gregorian calendar.
- **Clock:** the clock reading `now` is a parameter.
- **Log file:** the log file is a `LogFile`, either its text or `Unreadable` for an error from `open`/`read`.
- **Cache:** the cache is a pair of typed keyspaces whose values expire a fixed number of seconds after they are set.
- **Enqueued refresh:** a refresh a page or task enqueues with `.delay()` becomes a returned flag, or the `None` result of a chart task.

## Model

| member | source | states |
|---|---|---|
| Text.Strip | squidweb/monitor/utils.py:18 | `strip()` gives a text no longer than the input that neither starts nor ends with whitespace, empty exactly when the input is all whitespace (`Text.StripMiddle` places it in the input) |
| Text.Words | squidweb/monitor/management/commands/import_squid_logs.py:53 | `split()` gives non-empty, whitespace-free words (`Text.WordsSpaced` finds them back in a text however wide its gaps; `Text.WordsNone`: none exactly for an all-whitespace text) |
| Text.StripMiddle | squidweb/monitor/utils.py:18 | the strip is the slice of the input that starts right after its leading whitespace, and only whitespace follows that slice |
| Text.WordsNone | squidweb/monitor/management/commands/import_squid_logs.py:50-53 | `split()` of a line gives no fields exactly when the line is all whitespace |
| Text.WordsSpaced | squidweb/monitor/management/commands/import_squid_logs.py:53 | `split()` of words separated by any non-empty runs of whitespace, with any whitespace before and after, gives exactly those words |
| Text.StripStripped | squidweb/monitor/utils.py:18 | `strip()` leaves a text that neither starts nor ends with whitespace unchanged |
| Text.ConcatSplitLines | squidweb/monitor/utils.py:72 | the lines of a block, joined, are the block with its line breaks removed: splitting loses and repeats no character |
| Text.SplitLinesShape | squidweb/monitor/utils.py:72 | no line of a split holds a line break, and a block has lines exactly when it is non-empty |
| Text.WordsJoin | squidweb/monitor/management/commands/import_squid_logs.py:53 | `split()` of non-empty whitespace-free words joined by single spaces gives the words back |
| Text.JoinSplit | squidweb/monitor/management/commands/import_squid_logs.py:68-71 | joining the pieces of `split('/')` with `/` gives the text back |
| Text.SplitJoin | squidweb/monitor/management/commands/import_squid_logs.py:68 | `split` of a join of separator-free pieces gives the pieces back |
| Entries.HourKey | squidweb/monitor/utils.py:162 | the hour key is the start of the hour holding the time: a multiple of 3600 at most one hour before it |
| Entries.DayKey | squidweb/monitor/utils.py:188 | the day key is the day whose 86400 seconds hold the time |
| Entries.MonthKey | squidweb/monitor/utils.py:194 | the month key is 12 × year + month − 1 for the proleptic Gregorian year and month (1 to 12) of the time's day, i.e. `replace(day=1, hour=0, ...)` as a month count; `Entries.MonthKeyMonotone`, `Entries.MonthKeyStep` and the date pins relate it to time |
| Entries.MonthIndexCivil | squidweb/monitor/utils.py:194 | the month index of a day is 12 times its proleptic Gregorian year plus its month (1 to 12) less one |
| Entries.MonthIndexStep | squidweb/monitor/utils.py:194 | from one day to the next the month stays or moves on by exactly one, also across the end of a 400-year cycle |
| Entries.MonthKeyMonotone | squidweb/monitor/utils.py:194 | a later time never has an earlier month key, so month buckets follow time order |
| Entries.MonthKeyStep | squidweb/monitor/utils.py:194 | the month keys of consecutive days are equal or one apart: no month is skipped |
| Entries.EpochMonth | squidweb/monitor/utils.py:194 | 1970-01-01 falls in January 1970 |
| Entries.LeapDayMonth | squidweb/monitor/utils.py:194 | 2000-02-29, to its last second, falls in February 2000 |
| Entries.MarchMonth | squidweb/monitor/utils.py:194 | 2000-03-01 falls in March 2000 |
| Entries.Since | squidweb/monitor/tasks.py:25-26 | every entry of the window is an entry of the list at or after the limit, and every such entry is in the window |
| Entries.SinceNarrow | squidweb/monitor/tasks.py:21-26 | cutting a window again at a later limit gives the later window |
| Entries.SinceTwice | squidweb/monitor/views.py:46-54 | cutting a window at two limits, in either order, keeps the entries at or after the later limit |
| Entries.SinceWithin | squidweb/monitor/tasks.py:25-26 | the window of a later limit is an in-order subsequence of the window of an earlier one |
| Parser.Decompose | squidweb/monitor/utils.py:11-20 | the groups of a matched line satisfy every constraint of the pattern |
| Parser.SplitDecimal | squidweb/monitor/utils.py:11 | `(\d+\.\d+)` as a whole field: two digit runs that, joined by the point, are the field |
| Parser.SplitStatus | squidweb/monitor/utils.py:11 | `(\S+)/(\d+)` splits at the last `/`: a non-empty result tag, then digits that are all the text after the last slash |
| Parser.SplitStatusOf | squidweb/monitor/utils.py:11 | a tag, `/` and digits split back into that tag and those digits |
| Parser.SplitServer | squidweb/monitor/utils.py:11 | `(\S+)/(\S+)` splits into two non-empty parts at the last `/` that leaves a non-empty second part |
| Parser.SplitServerOf | squidweb/monitor/utils.py:11 | a hierarchy, `/` and a server with no slash before its last character split back into those two |
| Parser.ParseLine | squidweb/monitor/utils.py:15-44 | an entry comes only from a line whose nine leading fields pass the pattern; client, method, status and bytes come from fields 3, 6, 4 and 5; the status is the digits after the last `/`; the URL is field 7, behind `https://` exactly for `CONNECT`; the time is in range |
| Parser.ParseLineAccepts | squidweb/monitor/utils.py:15-44 | a line is accepted exactly when its stripped text has nine fields separated by whitespace runs of any length and followed by more text, the fields pass the shape checks, and the local time is before the year 10000 |
| Parser.ParseLineFields | squidweb/monitor/utils.py:20-41 | every field of the entry: time, elapsed time, client, cache result and status (field 4 split at its last `/`), bytes, method, URL, server (field 9 after the last `/` that leaves one) and the MIME type (the rest up to a line break) |
| Parser.RequestUrl | squidweb/monitor/utils.py:25-28 | `https://` is put in front of the target exactly for `CONNECT` |
| Parser.ToEntry | squidweb/monitor/utils.py:23-41 | the groups become an entry exactly when the local time is before the year 10000 |
| Parser.ParsePadded | squidweb/monitor/utils.py:11-20 | a line whose columns are separated by runs of whitespace of any length, as Squid pads them, parses to the entry of the single-spaced line |
| Parser.FormatRoundTrip | squidweb/monitor/utils.py:10-20 | the pattern accepts every line built to its shape and recovers the groups it was built from |
| Parser.ParseFormatted | squidweb/monitor/utils.py:20-41 | the entry of a well-formed line carries its client, method, cache result, status, bytes, server and MIME type; a `CONNECT` target gains `https://`; the time is the whole seconds shifted to local time |
| Parser.IntegerTimestampRejected | squidweb/monitor/utils.py:11-44 | a line whose first field has no fractional part is rejected |
| Parser.IdentFieldMustBeDash | squidweb/monitor/utils.py:11-44 | a line whose eighth field is not the literal `-` is rejected |
| TailReader.Step | squidweb/monitor/utils.py:64-65 | each turn moves the position strictly down, by at most one block |
| TailReader.Scan | squidweb/monitor/utils.py:62 | the loop stops only at the start of the file or once `n` lines are held |
| TailReader.Stitch | squidweb/monitor/utils.py:80-83 | gluing gives one line fewer than the two lists and loses no character |
| TailReader.ScanBackward | squidweb/monitor/utils.py:57-83 | the block loop ends at the position and lines of the scan; the lines, joined, are the text read with its line breaks removed, and none holds a break; `n = 0` reads to the start; the loop stops early only with `n` lines; the blocks tile `[start, size)`; there are ceil((size - start) / 8192) blocks |
| TailReader.StepKeeps | squidweb/monitor/utils.py:64-83 | every turn keeps the lines free of breaks and equal, joined, to the text read so far without its breaks |
| TailReader.StepStitches | squidweb/monitor/utils.py:76-83 | under the stitch condition the block's last line is glued onto the first line held, in its place, and one line fewer results |
| TailReader.StepPrepends | squidweb/monitor/utils.py:76-83 | otherwise the block's lines go in front of those held |
| TailReader.StitchAcrossLineBreak | squidweb/monitor/utils.py:76-81 | a block that ends with a line break is still stitched when the character before the block is not a break |
| TailReader.NoStitchInsideLine | squidweb/monitor/utils.py:76-81 | a block that ends inside a line is not stitched when the character before the block is a break |
| TailReader.OneLineSplitAtFirstBlock | squidweb/monitor/utils.py:62-83 | a single unbroken line longer than one block, but not longer than two, comes back as two lines |
| TailReader.ScanLossless | squidweb/monitor/utils.py:62-83 | the whole loop loses and repeats no character: its lines, joined, are the text from where it stopped without its line breaks, and none holds a break |
| TailReader.KeptLines | squidweb/monitor/utils.py:86-87 | the kept lines are the last `min(n, lines)` lines scanned, or all of them for `n = 0`; joined they are a tail of the file's text without its line breaks, the whole of it for `n = 0` |
| TailReader.ParseLines | squidweb/monitor/utils.py:90-94 | the entries are exactly those of the lines that parse, in line order (the blank test drops nothing else); each comes from some line and has its time in range |
| TailReader.BlankUnparsed | squidweb/monitor/utils.py:92-93 | a blank line never parses, so the `line.strip()` test changes nothing |
| Seqs.SomesAppend | squidweb/monitor/utils.py:91-94 | lines are parsed one at a time and in order: the entries of two runs of lines are those of the first, then those of the second |
| Seqs.SomesOne | squidweb/monitor/utils.py:93-94 | a single line contributes the entry it parses to, or nothing |
| TailReader.GetLastLines | squidweb/monitor/utils.py:46-103 | an unreadable log gives no entries; for `n > 0` at most `n`; the entries ascend by time and are exactly, as a multiset, the parsed kept lines |
| Sorting.SortBySorted | squidweb/monitor/utils.py:102 | the key sort is ascending |
| Sorting.SortByPermutation | squidweb/monitor/utils.py:102 | the key sort is a permutation |
| Sorting.SortByStable | squidweb/monitor/utils.py:102 | elements with equal keys keep their relative order |
| Sorting.SortDescending | squidweb/monitor/views.py:424 | `sort(..., reverse=True)` keeps the number of elements; its order and contents are stated by `Sorting.SortDescendingOrdered` |
| Sorting.SortDescendingOrdered | squidweb/monitor/views.py:424 | the reverse key sort is descending and a permutation |
| Sorting.TopSelectsLargest | squidweb/monitor/tasks.py:143 | `sort_values(...).tail(k)` keeps `min(k, n)` rows in ascending order, together with the rest they are the table, and none of the rest is larger than a kept row |
| Tally.GroupKeys | squidweb/monitor/tasks.py:133-136 | the rows name each key once, in order of first appearance |
| Tally.GroupCounts | squidweb/monitor/tasks.py:133-136 | the row of a key holds the number and summed size of the elements with that key |
| Tally.GroupTotals | squidweb/monitor/tasks.py:121-136 | the row counts add up to the number of elements and the row sizes to the total size |
| Tally.GroupRows | squidweb/monitor/tasks.py:133-136 | every row's count is positive and both its numbers are those of its key |
| Cache.Get | squidweb/monitor/views.py:35 | `cache.get`: the value while its time to live runs, otherwise nothing; stated by Cache.PutThenGet and Cache.PutOther |
| Cache.Put | squidweb/monitor/tasks.py:18 | `cache.set(key, value, ttl)`; stated by Cache.PutThenGet and Cache.PutOther |
| Cache.PutThenGet | squidweb/monitor/tasks.py:18 | a value set is read back until its time to live runs out, and not after |
| Cache.PutOther | squidweb/monitor/tasks.py:28-29 | setting one key leaves every other key as it was |
| Queries.Collect | squidweb/monitor/utils.py:157-198 | the single pass of `get_traffic_stats` over the log with its two window tests; stated by Queries.CollectIsGrouped and the Collect lemmas below |
| Queries.TrafficStats | squidweb/monitor/utils.py:139-205 | `get_traffic_stats`: the whole log read, the tables tallied and the time tables sorted; stated by Queries.StatsTotals, StatsSorted, StatsHourly and StatsDomains |
| Queries.GetActiveUsers | squidweb/monitor/utils.py:118-137 | `get_active_users`: the whole log read and tallied per client within the window; stated by Clients.ActiveUsersExpected |
| Queries.CollectIsGrouped | squidweb/monitor/utils.py:157-198 | the single pass with its two window tests equals every table grouped from its own window |
| Queries.CollectWindow | squidweb/monitor/utils.py:158-175 | totals, hours, status codes and users come from the hours window |
| Queries.CollectTotals | squidweb/monitor/utils.py:158-160 | the totals are the number and the bytes of the entries in the hours window |
| Queries.CollectTables | squidweb/monitor/utils.py:162-175 | the hour, status-code and user tables are the groupings of the hours window |
| Queries.CollectDomains | squidweb/monitor/utils.py:177-185 | the domain table groups the entries of the window that have a non-empty domain |
| Queries.CollectMonth | squidweb/monitor/utils.py:187-198 | the day and month tables group the thirty-day window |
| Queries.StatsTotals | squidweb/monitor/utils.py:157-203 | `total_requests` is the sum of the hourly, status-code and user counts; `total_bytes` is the sum of the hourly and user bytes; domains count at most every request; days and months both add up to the month window |
| Queries.StatsSorted | squidweb/monitor/utils.py:200-203 | the hour, day and month tables come out in ascending key order |
| Queries.StatsHourly | squidweb/monitor/utils.py:162-166 | each hourly row counts the requests and bytes of its hour in the window |
| Queries.StatsDomains | squidweb/monitor/utils.py:177-185 | each domain row names a non-empty domain and counts the requests in the window that name it |
| Queries.UserConnections | squidweb/monitor/utils.py:108-116 | the loop returns the first `limit` entries of the client (at least one when it has one, as the limit test follows the append), in log order |
| Queries.GetUserConnections | squidweb/monitor/utils.py:105-116 | the connections are the client's first entries of the whole log, all of that client, in time order |
| Clients.ClientsOf | squidweb/monitor/tasks.py:253-279 | the per-client loop of `update_users_cache`; stated by Clients.ClientsOfExpected, ClientsOfAddresses and LastActivityIsLatest |
| Clients.ActiveUsers | squidweb/monitor/utils.py:125-137 | the per-client loop of `get_active_users`; stated by Clients.ActiveUsersExpected |
| Clients.Latest | squidweb/monitor/tasks.py:268-269 | the latest timestamp is at least every timestamp and is one of them |
| Clients.RecordFind | squidweb/monitor/tasks.py:258-279 | one entry opens its client's row or updates it, and leaves every other client's row alone |
| Clients.ClientsOfExpected | squidweb/monitor/tasks.py:253-279 | the row of every non-empty address is the reference row from that client's own entries; the empty address has none |
| Clients.ClientsOfAddresses | squidweb/monitor/tasks.py:253-265 | the rows name each non-empty address once, in order of first appearance |
| Clients.UsersCacheRows | squidweb/monitor/tasks.py:250-284 | the table has one reference row per distinct non-empty address, and their number is the task's result |
| Clients.ExpectedDayWithinMonth | squidweb/monitor/tasks.py:271-279 | no client has more day requests or day traffic than month requests or month traffic |
| Clients.LastActivityIsLatest | squidweb/monitor/tasks.py:267-269 | `last_activity` is the latest timestamp among all the client's entries |
| Clients.ActiveUsersExpected | squidweb/monitor/utils.py:118-137 | each client's activity is its request count, byte sum and latest time within the window; clients without an entry in the window are absent |
| Urls.Netloc | squidweb/monitor/tasks.py:127 | the netloc is made of the URL's own characters and holds no `/`, `?` or `#`; every netloc returned has both square brackets or neither; a URL with no square bracket never raises |
| Urls.NetlocOfAuthority | squidweb/monitor/tasks.py:127 | scheme, `://`, authority and path give back the authority |
| Urls.NetlocUnbalanced | squidweb/monitor/tasks.py:127-130 | the same URL with an authority holding one square bracket but not the other raises |
| Urls.NetlocWithoutSlashes | squidweb/monitor/views.py:155 | a URL without `/` has an empty netloc |
| Urls.HostOfTarget | squidweb/monitor/tasks.py:125 | `split(':')[0]` is the prefix before the first colon |
| Urls.ChartDomain | squidweb/monitor/tasks.py:123-131 | the chart domain is never empty: the non-empty netloc, or the non-empty host of a `CONNECT`; an empty or raising netloc, or an empty host, gives the unknown label |
| Urls.StatsDomain | squidweb/monitor/utils.py:177-185 | a counted domain is non-empty; for `CONNECT` one is counted exactly when the host is non-empty; otherwise one is counted exactly when the netloc exists and is non-empty, and it is the netloc |
| Urls.DashboardDomain | squidweb/monitor/views.py:150-156 | the dashboard domain is the host for `CONNECT`, otherwise the netloc, and the unknown label only when `urlparse` raises |
| Urls.DetailDomain | squidweb/monitor/views.py:384-387 | the detail page's domain is the netloc whatever the method, or the unknown label when `urlparse` raises |
| Urls.ConnectDomainIsHttps | squidweb/monitor/tasks.py:124-125 | every `CONNECT` entry's domain is "https", whatever host it went to |
| Tasks.UpdateLogCache | squidweb/monitor/tasks.py:11-31 | `update_log_cache`; stated by Tasks.UpdateLogCacheStores and Tasks.UnreadableLogCachesEmpty |
| Tasks.GenerateTrafficCharts | squidweb/monitor/tasks.py:33-106 | the data part of `generate_traffic_charts`; stated by Tasks.ChartInput, BucketsAddUp and TrafficChartsCover |
| Tasks.GenerateDomainCharts | squidweb/monitor/tasks.py:108-232 | the data part of `generate_domain_charts`; stated by Tasks.ChartInput, DomainTop and TopRowsSelect |
| Tasks.UpdateUsersCache | squidweb/monitor/tasks.py:234-284 | `update_users_cache`; stated by Tasks.UsersCacheWritesStats and Tasks.UsersCacheDayWithinMonth |
| Tasks.UpdateLogCacheStores | squidweb/monitor/tasks.py:11-31 | until expiry the three keys hold the log and its day and month windows for one `now`; the day list is a subsequence of the month list; the result is the entry count; the client tables are untouched |
| Tasks.UnreadableLogCachesEmpty | squidweb/monitor/tasks.py:14-18 | an unreadable log replaces the three cached lists by empty ones |
| Tasks.ChartInput | squidweb/monitor/tasks.py:37-43 | the chart input exists exactly when both window lists are cached and non-empty, and is those lists |
| Tasks.BucketsAddUp | squidweb/monitor/tasks.py:46-58 | bucket counts add up to the entries and bucket bytes to their bytes; keys ascend; each bucket holds its key's count and bytes |
| Tasks.TrafficChartsCover | squidweb/monitor/tasks.py:33-106 | both chart tasks give up exactly when a list is missing or empty; otherwise the hour buckets cover the day list and the day buckets the month list |
| Tasks.DomainTop | squidweb/monitor/tasks.py:121-136 | no entry is dropped: domain counts add up to the entries, one row per domain |
| Tasks.TopRowsSelect | squidweb/monitor/tasks.py:139-143 | the selection keeps `min(10, rows)` rows in ascending request order and no row left out is busier than a kept one |
| Tasks.UsersCacheWritesStats | squidweb/monitor/tasks.py:234-284 | `users_stats` holds one reference row per distinct non-empty address; the result is their number; `users_list_data` is not written |
| Tasks.UsersCacheDayWithinMonth | squidweb/monitor/tasks.py:271-279 | in the cached table day numbers never exceed month numbers |
| Views.CachedEntries | squidweb/monitor/views.py:32-56 | `_get_cached_entries`; stated by Views.CachedEntriesCases and Views.UntouchedPeriod |
| Views.DashboardContext | squidweb/monitor/views.py:125-219 | `DashboardView.get_context_data` with its two clock readings; stated by Views.DashboardMiss, DayMissDropsEdge, DashboardAfterTask, DashboardTotals and DashboardCharts |
| Views.DashboardOf | squidweb/monitor/views.py:140-217 | the dashboard's tallies over the entries it counts; stated by Views.DashboardTotals and Views.DashboardCharts |
| Views.CachedEntriesCases | squidweb/monitor/views.py:32-56 | a hit returns the cached list unfiltered, even an empty one, and enqueues nothing; a miss enqueues a refresh and returns at most 10000 entries, all within a day, thirty days or a year by period |
| Views.UntouchedPeriod | squidweb/monitor/views.py:34-37 | a period other than "all", "day" or "month" is never written by the task, so it always misses |
| Views.DashboardMiss | squidweb/monitor/views.py:125-139 | on a miss the dashboard enqueues a refresh and counts the last lines at or after the later of its own window, taken at the clock reading of line 133, and the period's read window, taken at the later reading of line 46; with one reading that is a day for "day", thirty days otherwise |
| Views.MissWindow | squidweb/monitor/views.py:46-54 | cutting the page window out of the read window keeps the entries at or after the later limit; with one clock reading the read window is at least as wide as the page window |
| Views.DayMissDropsEdge | squidweb/monitor/views.py:133-139 | on a "day" miss, an entry read from the log that lies in the page's window but is older than a day before the later clock reading (line 46) is not counted |
| Views.DashboardAfterTask | squidweb/monitor/views.py:133-139 | within five minutes of the log task the dashboard enqueues nothing and counts the window of the whole log |
| Views.ClientSetSize | squidweb/monitor/views.py:183 | `active_users` is the number of distinct addresses |
| Views.DashboardTotals | squidweb/monitor/views.py:159-217 | totals are the count and bytes of the window; the domain table and the period's time table account for every counted entry; "day" fills only hours, other periods only days |
| Views.DashboardCharts | squidweb/monitor/views.py:186-210 | the traffic figure is drawn exactly for "day"/"month" with entries, from ascending rows adding up to the traffic; the domain figure from at most ten rows, none left out busier |
| Views.EmptyDomainKept | squidweb/monitor/views.py:150-157 | an empty netloc stays empty on the dashboard, is named unknown by the domain task, and is not counted by the statistics |
| Views.UsersListRows | squidweb/monitor/views.py:296-311 | the fallback list: month-active clients, busiest first; stated by Views.UsersListRowSound, UsersListRowsOrdered and UsersListComplete |
| Views.UsersList | squidweb/monitor/views.py:241-317 | `UsersListView.get_context_data`; stated by Views.UsersListCaches and Views.UsersTaskDoesNotFeedList |
| Views.UsersListRowSound | squidweb/monitor/views.py:267-308 | every listed client has an address, a month request, and its reference numbers |
| Views.UsersListRowsOrdered | squidweb/monitor/views.py:296-311 | the list is busiest first, a permutation of the month-active rows, and ties keep first-appearance order |
| Views.UsersListComplete | squidweb/monitor/views.py:297-308 | every client with an address and an entry in the month window is listed |
| Views.UsersListCaches | squidweb/monitor/views.py:241-317 | a hit serves the cached list and changes nothing; a miss serves the list built from the log, caches it for a minute and leaves `users_stats` alone |
| Views.UsersTaskDoesNotFeedList | squidweb/monitor/views.py:245-250 | what the users page finds is the same whether or not the users task ran |
| Views.UserDetailOf | squidweb/monitor/views.py:359-531 | `UserDetailView.get_context_data`; stated by Views.UserConnectionsListed, UserConnectionsStable, UserDetailTotals, UserDomainStats, UserDomainTies and UserDomainRow |
| Views.DetailOf | squidweb/monitor/views.py:381-528 | the detail page's tallies over the client's window; stated by Views.UserDetailTotals and Views.UserDomainRow |
| Views.UserConnectionsListed | squidweb/monitor/views.py:381-424 | the connections are the client's entries, only that client's, newest first |
| Views.UserConnectionsStable | squidweb/monitor/views.py:424 | connections of the same second keep their log order |
| Views.UserDetailTotals | squidweb/monitor/views.py:381-421 | the totals count the client's in-window entries, at most the connections; hourly, daily and domain tables each account for all of them |
| Views.UserDomainStats | squidweb/monitor/views.py:528 | at most ten domains, busiest first, none left out busier than one listed |
| Views.UserDomainTies | squidweb/monitor/views.py:528 | domains with equal counts keep first-visit order |
| Views.UserDomainRow | squidweb/monitor/views.py:398-404 | each listed domain carries the count and bytes of its entries in the window |
| Importer.PyInt | squidweb/monitor/management/commands/import_squid_logs.py:77 | `int()` accepts only non-empty text of digits and underscores with at most a leading sign |
| Importer.PyIntDigits | squidweb/monitor/management/commands/import_squid_logs.py:77 | `int()` reads a plain, `-` or `+` digit string as its value |
| Importer.PyIntShow | squidweb/monitor/management/commands/import_squid_logs.py:77 | `int(str(n)) == n` |
| Importer.PyIntRefuses | squidweb/monitor/management/commands/import_squid_logs.py:77 | empty text, a bare sign, a decimal point and a double underscore raise |
| Importer.PyIntUnderscore | squidweb/monitor/management/commands/import_squid_logs.py:77 | single underscores between digits are accepted |
| Importer.ResultCodeKept | squidweb/monitor/management/commands/import_squid_logs.py:68-71 | the stored result code is the fourth field unchanged |
| Importer.RecordFields | squidweb/monitor/management/commands/import_squid_logs.py:53-83 | a record comes only from a line with ten fields, a new time and an integer size, and carries fields 3 to 10 in their places |
| Importer.IgnoredLine | squidweb/monitor/management/commands/import_squid_logs.py:47-58 | a blank or short line, or one whose time does not convert, moves only the processed counter |
| Importer.Classify | squidweb/monitor/management/commands/import_squid_logs.py:48-84 | the body of the import loop for one line; stated by Importer.IgnoredLine, ClassifyOld and ClassifyUnwritten |
| Importer.Run | squidweb/monitor/management/commands/import_squid_logs.py:45-94 | the import loop over the file's lines; stated by Importer.RunRecords and Importer.RunCounts |
| Importer.Import | squidweb/monitor/management/commands/import_squid_logs.py:13-108 | `Command.handle` up to its report; stated by Importer.ImportBatches, ImportAdded and ReimportReportsNegative |
| Importer.ClassifyOld | squidweb/monitor/management/commands/import_squid_logs.py:57-63 | a time at or before the last stored one marks the line as already stored |
| Importer.OldLine | squidweb/monitor/management/commands/import_squid_logs.py:60-63 | an already stored line moves only the processed and skipped counters |
| Importer.ClassifyUnwritten | squidweb/monitor/management/commands/import_squid_logs.py:65-77 | a new line whose size is not an integer is matched without a record |
| Importer.UnwrittenLine | squidweb/monitor/management/commands/import_squid_logs.py:65-94 | such a line moves the processed and matched counters and writes nothing |
| Importer.FeedRecords | squidweb/monitor/management/commands/import_squid_logs.py:73-90 | one line appends its record, if any, after those written and pending, and keeps every batch full |
| Importer.RunRecords | squidweb/monitor/management/commands/import_squid_logs.py:45-94 | throughout the loop, the batches written and the records pending are the reference records so far |
| Importer.RunCounts | squidweb/monitor/management/commands/import_squid_logs.py:45-94 | every line is processed; matched and skipped count the new and the already stored lines |
| Importer.RecordsCount | squidweb/monitor/management/commands/import_squid_logs.py:65-83 | records written plus matched lines without a record equal the matched lines |
| Importer.MatchedOrSkipped | squidweb/monitor/management/commands/import_squid_logs.py:61-65 | matched and skipped lines together are at most the lines |
| Importer.ImportBatches | squidweb/monitor/management/commands/import_squid_logs.py:85-100 | the batches are the reference records in order; each holds exactly 1000 except the last, which holds 1 to 1000 |
| Importer.ImportAdded | squidweb/monitor/management/commands/import_squid_logs.py:40-108 | processed is the number of lines; matched plus skipped is at most that; the records added are the matched lines with an integer size |
| Importer.ReimportReportsNegative | squidweb/monitor/management/commands/import_squid_logs.py:57-108 | re-importing `k` already stored lines skips all of them, matches and adds nothing, and prints `-k` as added |
| Importer.ReportedAddedGoesNegative | squidweb/monitor/management/commands/import_squid_logs.py:108 | importing a native Squid line again, with its time as the last stored one, prints -1 as added while nothing is added |

## Behaviour as written

The model keeps these behaviours of the code even where a reader would expect otherwise. Each one is proved as a lemma:

- **`CONNECT` domains.** The parser stores a `CONNECT` target as `https://host:port`, so the `split(':')[0]` of the tasks, the dashboard and the statistics names every such domain "https" (`Urls.ConnectDomainIsHttps`).
- **A failed read is cached.** An unreadable log yields an empty list. `update_log_cache` then caches three empty lists over whatever was there (`Tasks.UnreadableLogCachesEmpty`).
- **The users page never sees the task's table.** The page reads `users_list_data`, but the task writes `users_stats` (`Views.UsersTaskDoesNotFeedList`).
- **Stitching looks at the wrong character.** The reader decides whether to stitch from the character just before a block, not from the boundary being joined. So two lines can be glued across a line break (`TailReader.StitchAcrossLineBreak`), and a line split at the first block of the file is never healed (`TailReader.NoStitchInsideLine`, `TailReader.OneLineSplitAtFirstBlock`). What is proved is the weaker invariant that no character is lost or repeated (`TailReader.ScanBackward`).
- **Empty domains are treated three ways.** The dashboard's `get_domain` maps only a raised error to the unknown label, so an empty netloc is counted as the domain `''`. The domain task names it unknown, and the statistics skip it (`Views.EmptyDomainKept`).
- **Some parsed fields are dropped.** The hierarchy code is matched by the line pattern but not kept in the entry. The MIME type group is `.+`, so a line must have a non-empty last field.
- **Clients with an empty address.** `get_active_users` and the dashboard count the empty address. The per-client tables skip it.

## Left out

- Floating point:
  - the fractional seconds of a timestamp;
  - `float(response_time)`, modelled as its integer digits;
  - the byte formatting of `_format_size`.
- Time zones: Europe/Moscow is a fixed three-hour offset. The importer's `datetime.fromtimestamp` plus `make_aware` uses the server's zone and is a parameter `toTime`, whose `None` stands for the exception it can raise.
- The clock: `timezone.now()` and `datetime.now()` are the parameter `now`. `get_traffic_stats` reads the clock twice, once for the hours window and once for the month window; the model reads it once. The dashboard's two readings (views.py lines 133 and 46) are modelled as `now` and `later`, and `later` also stands for the instant of `_get_cached_entries`' cache lookup.
- Text decoding:
  - UTF-8 decoding with `errors='ignore'` is left out, and blocks count characters rather than bytes;
  - `splitlines` separators other than `'\n'` are left out;
  - in the importer, the file is a list of lines, and universal newlines are not modelled.
- Parsing details left out:
  - Unicode digits that `int()` and `\d` accept; only ASCII digits are modelled;
  - `urlsplit`'s IPv6 and port validation beyond the square-bracket check.
- Urls.Netloc: does not model `urlsplit`'s NFKC check of a non-ASCII netloc. That check raises `ValueError` when normalisation introduces `/`, `?`, `#`, `@` or `:`, as U+2100 does in `http://℀.com/`. The source then gives the unknown label or skips the domain. The model returns the netloc, because Unicode normalisation is outside it.
- Host names and rendering:
  - reverse DNS (`socket.gethostbyaddr`) and the `lru_cache` around it;
  - pandas DataFrames, plotly figures and `to_html`;
  - the chart HTML cache keys;
  - Django's `Paginator`, templates and routing.
- Django and Celery plumbing:
  - `cache_page` on the views;
  - Celery's `.delay()` and scheduling, represented only as a flag or a `None` result.
- The cache backend: modelled only as expiry by time to live.
- The database:
  - the ORM query for the last stored time, which is a parameter;
  - `bulk_create`, `transaction.atomic` and their failures;
  - `cleanup_old_logs`.
- Other I/O and output:
  - the importer's `os` existence, permission and size checks;
  - all `stdout` and `print` messages, including the warning for the first five failing lines;
  - the importer's unused compiled pattern.
- Sort order among ties:
  - `Tasks.TopRowsSelect`: pandas `sort_values` is not stable, so its order among rows with equal counts is unspecified. The model fixes the stable order, and the contract does not claim more than pandas guarantees for ties.
  - `Sorting.TopSelectsLargest`: the same applies.
- Views:
  - `ConnectionsView` is outside the modelled core;
  - `_get_cached_chart`.
- `TailReader.GetLastLines`: does not state that the lines equal a whole-file split. Because of the stitch lookback they need not, so only the lossless-character invariant is proved.

## Findings

| source | as written | input that shows it | evidently intended | confidence | as-written member | corrected member |
|---|---|---|---|---|---|---|
| squidweb/monitor/management/commands/import_squid_logs.py:108 | the "added" figure is `matched_lines - skipped_lines`, but matched and skipped lines are disjoint | a native Squid line imported again, its time equal to the last stored time: skipped 1, matched 0, nothing written, "added" printed as -1; `k` such lines print `-k` | the number of records written, which is the matched lines whose size is an integer | high, not executed | Importer.ReportedAddedGoesNegative | Importer.ImportAdded |

=== FILE: cache.dfy ===
/** The shared cache as the program uses it: string keys, values that
    expire a fixed number of seconds after they are set.  The program
    stores two kinds of values, entry lists and per-client tables, so the
    cache is one keyspace per kind.  Time is a parameter. */
module Cache {
  import opened Wrappers
  import opened Entries
  import opened Clients

  /** A cached value and the instant from which it is gone. */
  datatype Timed<T> = Timed(value: T, expires: int)

  /** `cache.get(key)`: the value while it is live, `None` otherwise. */
  function Get<T>(space: map<string, Timed<T>>, key: string, now: int): Option<T> {
    if key in space && now < space[key].expires then Some(space[key].value) else None
  }

  /** `cache.set(key, value, ttl)`. */
  function Put<T>(space: map<string, Timed<T>>, key: string, value: T, now: int, ttl: nat): map<string, Timed<T>> {
    space[key := Timed(value, now + ttl)]
  }

  /** A value set is read back until its time to live runs out, and is
      gone from then on. */
  lemma PutThenGet<T>(space: map<string, Timed<T>>, key: string, value: T, now: int, ttl: nat, t: int)
    requires now <= t
    ensures t < now + ttl ==> Get(Put(space, key, value, now, ttl), key, t) == Some(value)
    ensures t >= now + ttl ==> Get(Put(space, key, value, now, ttl), key, t) == None
  {
  }

  /** Setting one key leaves every other key as it was. */
  lemma PutOther<T>(space: map<string, Timed<T>>, key: string, value: T, now: int, ttl: nat, other: string, t: int)
    requires other != key
    ensures Get(Put(space, key, value, now, ttl), other, t) == Get(space, other, t)
  {
  }

  /** The cache: entry lists and per-client tables. */
  datatype Store = Store(entryLists: map<string, Timed<seq<Entry>>>, clientTables: map<string, Timed<seq<ClientStat>>>)

  /** Five minutes for what the tasks write, one minute for the users
      list the view writes. */
  const TaskTtl: nat := 300
  const ViewTtl: nat := 60

  const EntriesPrefix: string := "squid_log_entries_"
  const UsersStatsKey: string := "users_stats"
  const UsersListKey: string := "users_list_data"

  /** `f'squid_log_entries_{period}'`. */
  function EntriesKey(period: string): string {
    EntriesPrefix + period
  }

  /** The three entry keys are distinct, and the users-list key the view
      reads differs from the key the users task writes. */
  lemma KeysDistinct()
    ensures EntriesKey("all") != EntriesKey("day")
    ensures EntriesKey("all") != EntriesKey("month")
    ensures EntriesKey("day") != EntriesKey("month")
    ensures UsersListKey != UsersStatsKey
  {
    assert EntriesKey("all")[|EntriesPrefix|] == 'a';
    assert EntriesKey("day")[|EntriesPrefix|] == 'd';
    assert EntriesKey("month")[|EntriesPrefix|] == 'm';
    assert UsersListKey[6] == 'l' && UsersStatsKey[6] == 's';
  }
}

=== FILE: clients.dfy ===
/** Per-client folds: the day/month counters of `update_users_cache` and
    of the users-list fallback, and the activity table of
    `get_active_users`.  Each is proved equal, client by client, to a
    reference computed directly from the entries of that client. */
module Clients {
  import opened Wrappers
  import opened Seqs
  import opened Entries
  import opened Tally

  /** `users_stats[ip]` after the loop. */
  datatype ClientStat = ClientStat(
    address: string,
    dayTraffic: nat,
    monthTraffic: nat,
    dayRequests: nat,
    monthRequests: nat,
    lastActivity: int)

  /** `if not ip: continue` lets these through. */
  function HasAddress(): Entry -> bool {
    (e: Entry) => e.clientAddress != []
  }

  function Address(e: Entry): string {
    e.clientAddress
  }

  /** The latest timestamp of a non-empty list. */
  function Latest(es: seq<Entry>): (t: int)
    requires es != []
    ensures forall i :: 0 <= i < |es| ==> es[i].timestamp <= t
    ensures exists i :: 0 <= i < |es| && es[i].timestamp == t
  {
    if |es| == 1 then es[0].timestamp
    else
      var init := es[..|es| - 1];
      var m := Latest(init);
      var last := es[|es| - 1].timestamp;
      var t := if last > m then last else m;
      assert forall i :: 0 <= i < |es| - 1 ==> es[i].timestamp <= t by {
        forall i | 0 <= i < |es| - 1 ensures es[i].timestamp <= t {
          assert es[i] == init[i];
        }
      }
      assert exists i :: 0 <= i < |es| && es[i].timestamp == t by {
        if last > m {
          assert es[|es| - 1].timestamp == t;
        } else {
          var i :| 0 <= i < |init| && init[i].timestamp == m;
          assert es[i].timestamp == t;
        }
      }
      t
  }

  function Part(e: Entry, limit: int): nat {
    if e.timestamp >= limit then e.bytes else 0
  }

  function One(e: Entry, limit: int): nat {
    if e.timestamp >= limit then 1 else 0
  }

  /** The row created for a client's first entry. */
  function Open(e: Entry, dayLimit: int, monthLimit: int): ClientStat {
    ClientStat(e.clientAddress, Part(e, dayLimit), Part(e, monthLimit),
               One(e, dayLimit), One(e, monthLimit), e.timestamp)
  }

  /** A later entry of the client: the in-window counters grow and the last
      activity moves forward only. */
  function Count(s: ClientStat, e: Entry, dayLimit: int, monthLimit: int): ClientStat {
    ClientStat(s.address,
               s.dayTraffic + Part(e, dayLimit), s.monthTraffic + Part(e, monthLimit),
               s.dayRequests + One(e, dayLimit), s.monthRequests + One(e, monthLimit),
               if e.timestamp > s.lastActivity then e.timestamp else s.lastActivity)
  }

  /** One iteration with a non-empty address. */
  function Record(rows: seq<ClientStat>, e: Entry, dayLimit: int, monthLimit: int): seq<ClientStat> {
    if rows == [] then [Open(e, dayLimit, monthLimit)]
    else if rows[0].address == e.clientAddress then [Count(rows[0], e, dayLimit, monthLimit)] + rows[1..]
    else [rows[0]] + Record(rows[1..], e, dayLimit, monthLimit)
  }

  /** The loop of `update_users_cache` (and of the users-list fallback). */
  function ClientsOf(es: seq<Entry>, dayLimit: int, monthLimit: int): seq<ClientStat> {
    if es == [] then []
    else
      var rows := ClientsOf(es[..|es| - 1], dayLimit, monthLimit);
      var e := es[|es| - 1];
      if e.clientAddress == [] then rows else Record(rows, e, dayLimit, monthLimit)
  }

  /** `users_stats.get(ip)`. */
  function Find(rows: seq<ClientStat>, ip: string): Option<ClientStat> {
    if rows == [] then None
    else if rows[0].address == ip then Some(rows[0])
    else Find(rows[1..], ip)
  }

  function Addresses(rows: seq<ClientStat>): (ks: seq<string>)
    ensures |ks| == |rows|
    ensures forall i :: 0 <= i < |rows| ==> ks[i] == rows[i].address
  {
    if rows == [] then [] else [rows[0].address] + Addresses(rows[1..])
  }

  /** The reference statistics of one client: counts and byte sums of its
      entries inside each window, and its latest timestamp. */
  function Expected(es: seq<Entry>, ip: string, dayLimit: int, monthLimit: int): Option<ClientStat> {
    var mine := Filter(es, FromClient(ip));
    if mine == [] then None
    else Some(ClientStat(ip,
      SumBytes(Since(mine, dayLimit)), SumBytes(Since(mine, monthLimit)),
      |Since(mine, dayLimit)|, |Since(mine, monthLimit)|,
      Latest(mine)))
  }

  lemma {:induction false} RecordFind(rows: seq<ClientStat>, e: Entry, dayLimit: int, monthLimit: int, ip: string)
    ensures Find(Record(rows, e, dayLimit, monthLimit), ip)
         == if ip != e.clientAddress then Find(rows, ip)
            else match Find(rows, ip)
              case None => Some(Open(e, dayLimit, monthLimit))
              case Some(s) => Some(Count(s, e, dayLimit, monthLimit))
    decreases |rows|
  {
    if rows != [] && rows[0].address != e.clientAddress {
      RecordFind(rows[1..], e, dayLimit, monthLimit, ip);
      assert Record(rows, e, dayLimit, monthLimit)[1..] == Record(rows[1..], e, dayLimit, monthLimit);
    }
  }

  lemma {:induction false} RecordAddresses(rows: seq<ClientStat>, e: Entry, dayLimit: int, monthLimit: int)
    ensures Addresses(Record(rows, e, dayLimit, monthLimit))
         == if e.clientAddress in Addresses(rows) then Addresses(rows) else Addresses(rows) + [e.clientAddress]
    decreases |rows|
  {
    if rows != [] {
      assert Addresses(rows) == [rows[0].address] + Addresses(rows[1..]);
      if rows[0].address != e.clientAddress {
        RecordAddresses(rows[1..], e, dayLimit, monthLimit);
        assert e.clientAddress in Addresses(rows) <==> e.clientAddress in Addresses(rows[1..]);
      }
    }
  }

  /** Adding an entry of another client leaves a client's reference
      statistics alone; adding one of its own counts it. */
  lemma {:induction false} ExpectedStep(es: seq<Entry>, e: Entry, ip: string, dayLimit: int, monthLimit: int)
    ensures ip != e.clientAddress ==> Expected(es + [e], ip, dayLimit, monthLimit) == Expected(es, ip, dayLimit, monthLimit)
    ensures ip == e.clientAddress && Expected(es, ip, dayLimit, monthLimit).None? ==>
      Expected(es + [e], ip, dayLimit, monthLimit) == Some(Open(e, dayLimit, monthLimit))
    ensures ip == e.clientAddress && Expected(es, ip, dayLimit, monthLimit).Some? ==>
      Expected(es + [e], ip, dayLimit, monthLimit) == Some(Count(Expected(es, ip, dayLimit, monthLimit).value, e, dayLimit, monthLimit))
  {
    if ip == e.clientAddress {
      ExpectedOwn(es, e, ip, dayLimit, monthLimit);
    } else {
      FilterSnoc(es, e, FromClient(ip));
      assert Filter(es + [e], FromClient(ip)) == Filter(es, FromClient(ip));
    }
  }

  /** The client's own entry opens or counts its statistics. */
  lemma ExpectedOwn(es: seq<Entry>, e: Entry, ip: string, dayLimit: int, monthLimit: int)
    requires ip == e.clientAddress
    ensures Expected(es, ip, dayLimit, monthLimit).None? ==>
      Expected(es + [e], ip, dayLimit, monthLimit) == Some(Open(e, dayLimit, monthLimit))
    ensures Expected(es, ip, dayLimit, monthLimit).Some? ==>
      Expected(es + [e], ip, dayLimit, monthLimit) == Some(Count(Expected(es, ip, dayLimit, monthLimit).value, e, dayLimit, monthLimit))
  {
    var p := FromClient(ip);
    var mine := Filter(es, p);
    var mine' := Filter(es + [e], p);
    assert mine' == mine + [e] by {
      FilterSnoc(es, e, p);
    }
    SinceStep(mine, e, dayLimit);
    SinceStep(mine, e, monthLimit);
    LatestStep(mine, e);
    var r := ClientStat(ip,
      SumBytes(Since(mine', dayLimit)), SumBytes(Since(mine', monthLimit)),
      |Since(mine', dayLimit)|, |Since(mine', monthLimit)|, Latest(mine'));
    assert Expected(es + [e], ip, dayLimit, monthLimit) == Some(r);
    if mine != [] {
      var prior := Expected(es, ip, dayLimit, monthLimit).value;
      assert prior == ClientStat(ip,
        SumBytes(Since(mine, dayLimit)), SumBytes(Since(mine, monthLimit)),
        |Since(mine, dayLimit)|, |Since(mine, monthLimit)|, Latest(mine));
      CountedAs(prior, r, e, dayLimit, monthLimit);
    } else {
      assert Since(mine, dayLimit) == [] && Since(mine, monthLimit) == [];
      assert r.dayTraffic == Part(e, dayLimit);
      assert r.monthTraffic == Part(e, monthLimit);
      assert r.dayRequests == One(e, dayLimit);
      assert r.monthRequests == One(e, monthLimit);
      assert r.lastActivity == e.timestamp;
      assert r == Open(e, dayLimit, monthLimit);
    }
  }

  lemma {:induction false} CountedAs(prior: ClientStat, r: ClientStat, e: Entry, dayLimit: int, monthLimit: int)
    requires r.address == prior.address
    requires r.dayTraffic == prior.dayTraffic + Part(e, dayLimit)
    requires r.monthTraffic == prior.monthTraffic + Part(e, monthLimit)
    requires r.dayRequests == prior.dayRequests + One(e, dayLimit)
    requires r.monthRequests == prior.monthRequests + One(e, monthLimit)
    requires r.lastActivity == if e.timestamp > prior.lastActivity then e.timestamp else prior.lastActivity
    ensures r == Count(prior, e, dayLimit, monthLimit)
  {
  }

  lemma {:induction false} LatestStep(es: seq<Entry>, e: Entry)
    ensures es == [] ==> Latest(es + [e]) == e.timestamp
    ensures es != [] ==> Latest(es + [e]) == if e.timestamp > Latest(es) then e.timestamp else Latest(es)
  {
    assert (es + [e])[..|es|] == es;
  }

  /** The window of a list with one more entry. */
  lemma {:induction false} SinceStep(es: seq<Entry>, e: Entry, limit: int)
    ensures Since(es + [e], limit) == Since(es, limit) + (if e.timestamp >= limit then [e] else [])
    ensures |Since(es + [e], limit)| == |Since(es, limit)| + One(e, limit)
    ensures SumBytes(Since(es + [e], limit)) == SumBytes(Since(es, limit)) + Part(e, limit)
  {
    FilterSnoc(es, e, AtOrAfter(limit));
    var w := Since(es, limit);
    if e.timestamp >= limit {
      SumOfSnoc(w, e, EntryBytes);
    } else {
      assert w + [] == w;
    }
  }

  /** Client by client, the fold agrees with the reference: a client with
      an address has exactly the reference row, and the empty address has
      none. */
  lemma {:induction false} ClientsOfExpected(es: seq<Entry>, ip: string, dayLimit: int, monthLimit: int)
    ensures Find(ClientsOf(es, dayLimit, monthLimit), ip)
         == if ip == [] then None else Expected(es, ip, dayLimit, monthLimit)
    decreases |es|
  {
    if es == [] {
    } else {
      var init, e := es[..|es| - 1], es[|es| - 1];
      assert es == init + [e];
      ClientsOfExpected(init, ip, dayLimit, monthLimit);
      ExpectedStep(init, e, ip, dayLimit, monthLimit);
      if e.clientAddress != [] {
        RecordFind(ClientsOf(init, dayLimit, monthLimit), e, dayLimit, monthLimit, ip);
      }
    }
  }

  /** The rows name each non-empty address once, in order of first
      appearance, so their number is the number of distinct addresses. */
  lemma {:induction false} ClientsOfAddresses(es: seq<Entry>, dayLimit: int, monthLimit: int)
    ensures Addresses(ClientsOf(es, dayLimit, monthLimit)) == FirstKeys(Filter(es, HasAddress()), Address)
    ensures Distinct(Addresses(ClientsOf(es, dayLimit, monthLimit)))
    decreases |es|
  {
    if es != [] {
      var init, e := es[..|es| - 1], es[|es| - 1];
      ClientsOfAddresses(init, dayLimit, monthLimit);
      var kept := Filter(init, HasAddress());
      if e.clientAddress != [] {
        RecordAddresses(ClientsOf(init, dayLimit, monthLimit), e, dayLimit, monthLimit);
        assert Filter(es, HasAddress()) == kept + [e];
        assert (kept + [e])[..|kept|] == kept;
      } else {
        assert Filter(es, HasAddress()) == kept;
      }
    }
  }

  /** With distinct addresses, looking a row's address up finds that row. */
  lemma {:induction false} FindRow(rows: seq<ClientStat>, i: nat)
    requires Distinct(Addresses(rows)) && i < |rows|
    ensures Find(rows, rows[i].address) == Some(rows[i])
    decreases |rows|
  {
    if i > 0 {
      assert Addresses(rows[1..]) == Addresses(rows)[1..];
      assert rows[0].address == Addresses(rows)[0] != Addresses(rows)[i] == rows[i].address;
      FindRow(rows[1..], i - 1);
    }
  }

  /** `update_users_cache`: every row is its client's reference row (the
      counters of the two windows and the latest timestamp), no address is
      empty or repeated, and the task returns the number of distinct
      non-empty addresses. */
  lemma UsersCacheRows(es: seq<Entry>, dayLimit: int, monthLimit: int)
    ensures var rows := ClientsOf(es, dayLimit, monthLimit);
      && Distinct(Addresses(rows))
      && |rows| == |FirstKeys(Filter(es, HasAddress()), Address)|
      && forall i :: 0 <= i < |rows| ==>
           rows[i].address != [] && Expected(es, rows[i].address, dayLimit, monthLimit) == Some(rows[i])
  {
    var rows := ClientsOf(es, dayLimit, monthLimit);
    ClientsOfAddresses(es, dayLimit, monthLimit);
    forall i | 0 <= i < |rows|
      ensures rows[i].address != [] && Expected(es, rows[i].address, dayLimit, monthLimit) == Some(rows[i])
    {
      FindRow(rows, i);
      ClientsOfExpected(es, rows[i].address, dayLimit, monthLimit);
    }
  }

  /** With the day limit at or after the month limit, a client never has
      more day requests or day traffic than month requests or traffic. */
  lemma ExpectedDayWithinMonth(es: seq<Entry>, ip: string, dayLimit: int, monthLimit: int)
    requires monthLimit <= dayLimit && Expected(es, ip, dayLimit, monthLimit).Some?
    ensures var s := Expected(es, ip, dayLimit, monthLimit).value;
      s.dayRequests <= s.monthRequests && s.dayTraffic <= s.monthTraffic
  {
    var mine := Filter(es, FromClient(ip));
    SinceNarrow(mine, dayLimit, monthLimit);
    var month := Since(mine, monthLimit);
    SumOfFilter(month, AtOrAfter(dayLimit), EntryBytes);
  }

  /** The latest activity is the latest timestamp of the client's
      entries, whatever the windows. */
  lemma LastActivityIsLatest(es: seq<Entry>, dayLimit: int, monthLimit: int, i: nat)
    requires i < |ClientsOf(es, dayLimit, monthLimit)|
    ensures var row := ClientsOf(es, dayLimit, monthLimit)[i];
      && (forall j :: 0 <= j < |es| && es[j].clientAddress == row.address ==> es[j].timestamp <= row.lastActivity)
      && (exists j :: 0 <= j < |es| && es[j].clientAddress == row.address && es[j].timestamp == row.lastActivity)
  {
    var row := ClientsOf(es, dayLimit, monthLimit)[i];
    UsersCacheRows(es, dayLimit, monthLimit);
    var mine := Filter(es, FromClient(row.address));
    forall j | 0 <= j < |es| && es[j].clientAddress == row.address
      ensures es[j].timestamp <= row.lastActivity
    {
      assert FromClient(row.address)(es[j]);
      assert es[j] in mine;
    }
    var k :| 0 <= k < |mine| && mine[k].timestamp == row.lastActivity;
    assert mine[k] in es;
  }

  /** `users[ip]` of `get_active_users`. */
  datatype Activity = Activity(address: string, requests: nat, bytes: nat, lastActivity: int)

  /** The activity opened by a client's first entry in the window. */
  function Begin(e: Entry): Activity {
    Activity(e.clientAddress, 1, e.bytes, e.timestamp)
  }

  /** A later entry in the window. */
  function Bump(a: Activity, e: Entry): Activity {
    Activity(a.address, a.requests + 1, a.bytes + e.bytes,
             if e.timestamp > a.lastActivity then e.timestamp else a.lastActivity)
  }

  function Touch(rows: seq<Activity>, e: Entry): seq<Activity> {
    if rows == [] then [Begin(e)]
    else if rows[0].address == e.clientAddress then [Bump(rows[0], e)] + rows[1..]
    else [rows[0]] + Touch(rows[1..], e)
  }

  /** The loop of `get_active_users` over the entries, with the window
      test inside it. */
  function ActiveUsers(es: seq<Entry>, limit: int): seq<Activity> {
    if es == [] then []
    else
      var rows := ActiveUsers(es[..|es| - 1], limit);
      var e := es[|es| - 1];
      if e.timestamp >= limit then Touch(rows, e) else rows
  }

  function FindActivity(rows: seq<Activity>, ip: string): Option<Activity> {
    if rows == [] then None
    else if rows[0].address == ip then Some(rows[0])
    else FindActivity(rows[1..], ip)
  }

  /** The reference activity of one client inside the window. */
  function ExpectedActivity(es: seq<Entry>, ip: string, limit: int): Option<Activity> {
    var mine := Filter(Since(es, limit), FromClient(ip));
    if mine == [] then None else Some(Activity(ip, |mine|, SumBytes(mine), Latest(mine)))
  }

  lemma {:induction false} TouchFind(rows: seq<Activity>, e: Entry, ip: string)
    ensures FindActivity(Touch(rows, e), ip)
         == if ip != e.clientAddress then FindActivity(rows, ip)
            else match FindActivity(rows, ip)
              case None => Some(Begin(e))
              case Some(a) => Some(Bump(a, e))
    decreases |rows|
  {
    if rows != [] && rows[0].address != e.clientAddress {
      TouchFind(rows[1..], e, ip);
      assert Touch(rows, e)[1..] == Touch(rows[1..], e);
    }
  }

  lemma {:induction false} ExpectedActivityStep(es: seq<Entry>, e: Entry, ip: string, limit: int)
    ensures ip != e.clientAddress || e.timestamp < limit ==>
      ExpectedActivity(es + [e], ip, limit) == ExpectedActivity(es, ip, limit)
    ensures ip == e.clientAddress && e.timestamp >= limit && ExpectedActivity(es, ip, limit).None? ==>
      ExpectedActivity(es + [e], ip, limit) == Some(Begin(e))
    ensures ip == e.clientAddress && e.timestamp >= limit && ExpectedActivity(es, ip, limit).Some? ==>
      ExpectedActivity(es + [e], ip, limit) == Some(Bump(ExpectedActivity(es, ip, limit).value, e))
  {
    var p := FromClient(ip);
    var w := Since(es, limit);
    if ip == e.clientAddress && e.timestamp >= limit {
      ActivityOwn(es, e, ip, limit);
    } else if e.timestamp >= limit {
      SinceStep(es, e, limit);
      FilterSnoc(w, e, p);
      assert Filter(w + [e], p) == Filter(w, p);
    } else {
      SinceStep(es, e, limit);
      assert Since(es + [e], limit) == w;
    }
  }

  /** The client's own entry inside the window begins or bumps its
      activity. */
  lemma ActivityOwn(es: seq<Entry>, e: Entry, ip: string, limit: int)
    requires ip == e.clientAddress && e.timestamp >= limit
    ensures ExpectedActivity(es, ip, limit).None? ==>
      ExpectedActivity(es + [e], ip, limit) == Some(Begin(e))
    ensures ExpectedActivity(es, ip, limit).Some? ==>
      ExpectedActivity(es + [e], ip, limit) == Some(Bump(ExpectedActivity(es, ip, limit).value, e))
  {
    var p := FromClient(ip);
    var w := Since(es, limit);
    var mine := Filter(w, p);
    var mine' := Filter(Since(es + [e], limit), p);
    assert mine' == mine + [e] by {
      SinceStep(es, e, limit);
      assert Since(es + [e], limit) == w + [e];
      FilterSnoc(w, e, p);
    }
    ActivityOf(mine, e, ip);
  }

  /** The activity of a client's entries with one more at the end. */
  lemma ActivityOf(mine: seq<Entry>, e: Entry, ip: string)
    requires e.clientAddress == ip
    ensures var r := Activity(ip, |mine + [e]|, SumBytes(mine + [e]), Latest(mine + [e]));
      && (mine == [] ==> r == Begin(e))
      && (mine != [] ==> r == Bump(Activity(ip, |mine|, SumBytes(mine), Latest(mine)), e))
  {
    var mine' := mine + [e];
    SumOfSnoc(mine, e, EntryBytes);
    LatestStep(mine, e);
    var r := Activity(ip, |mine'|, SumBytes(mine'), Latest(mine'));
    if mine != [] {
      BumpedAs(Activity(ip, |mine|, SumBytes(mine), Latest(mine)), r, e);
    } else {
      assert |mine'| == 1 && SumBytes(mine') == e.bytes && Latest(mine') == e.timestamp;
    }
  }

  lemma {:induction false} BumpedAs(prior: Activity, r: Activity, e: Entry)
    requires r.address == prior.address
    requires r.requests == prior.requests + 1
    requires r.bytes == prior.bytes + e.bytes
    requires r.lastActivity == if e.timestamp > prior.lastActivity then e.timestamp else prior.lastActivity
    ensures r == Bump(prior, e)
  {
  }

  /** `get_active_users`: client by client, the requests, bytes and
      latest timestamp of its entries at or after the limit; clients
      without such an entry are absent. */
  lemma {:induction false} ActiveUsersExpected(es: seq<Entry>, ip: string, limit: int)
    ensures FindActivity(ActiveUsers(es, limit), ip) == ExpectedActivity(es, ip, limit)
    decreases |es|
  {
    if es != [] {
      var init, e := es[..|es| - 1], es[|es| - 1];
      assert es == init + [e];
      ActiveUsersExpected(init, ip, limit);
      ExpectedActivityStep(init, e, ip, limit);
      if e.timestamp >= limit {
        TouchFind(ActiveUsers(init, limit), e, ip);
      }
    }
  }
}

=== FILE: entries.dfy ===
/** The parsed log entry and the time arithmetic every aggregation uses.
    A timestamp is an integer count of local (Moscow) seconds: the Unix
    seconds of the log line plus a fixed three-hour offset. */
module Entries {
  import opened Seqs

  /** Europe/Moscow is UTC+3 all year round. */
  const ReportOffset: int := 3 * 3600

  /** The first local second a Python `datetime` cannot represent
      (0001-01-01 plus 9999 years, i.e. the year 10000). */
  const MaxLocalSeconds: int := 253402300800

  const HourSeconds: int := 3600
  const DaySeconds: int := 86400

  /** `timedelta(hours=24)`, `timedelta(days=30)` and `timedelta(days=365)`. */
  const DayWindow: int := 24 * HourSeconds
  const MonthWindow: int := 30 * DaySeconds
  const YearWindow: int := 365 * DaySeconds

  /** One proxy transaction as `_parse_line` returns it.  The hierarchy
      code is matched by the line pattern but not kept. */
  datatype Entry = Entry(
    timestamp: int,
    responseTime: nat,
    clientAddress: string,
    resultCode: nat,
    bytes: nat,
    requestMethod: string,
    url: string,
    cacheResult: string,
    server: string,
    mimeType: string)

  /** `timestamp.replace(minute=0, second=0, microsecond=0)`. */
  function HourKey(t: int): (k: int)
    ensures k <= t < k + HourSeconds
    ensures k % HourSeconds == 0
  {
    t - t % HourSeconds
  }

  /** `timestamp.date()`, as a count of local days. */
  function DayKey(t: int): (d: int)
    ensures d * DaySeconds <= t < (d + 1) * DaySeconds
  {
    t / DaySeconds
  }

  // The proleptic Gregorian calendar, counted from 0000-03-01 in 400-year
  // eras of 146097 days; 1970-01-01 is day 719468 of that count.  An era splits
  // into four centuries of 36524 days, the last one day longer; a century
  // into 4-year cycles of 1461 days; a cycle into years of 365 days, the
  // last one day longer.  Years run from March, so the leap day ends them.
  // The divisors are written as literals so that the arithmetic stays
  // linear for the solver.

  /** The year within a 4-year cycle of a day of the cycle. */
  function YearOfCycle(r: int): int {
    if r / 365 < 3 then r / 365 else 3
  }

  /** The day within its year of a day of a 4-year cycle. */
  function DayOfCycle(r: int): int {
    r - 365 * YearOfCycle(r)
  }

  /** The year within a century of a day of the century. */
  function YearOfCentury(r: int): int {
    4 * (r / 1461) + YearOfCycle(r % 1461)
  }

  /** The day within its year of a day of a century. */
  function DayOfCentury(r: int): int {
    DayOfCycle(r % 1461)
  }

  /** The century within an era of a day of the era. */
  function CenturyOfEra(doe: int): int {
    if doe / 36524 < 3 then doe / 36524 else 3
  }

  /** The year within its era of a day of the era. */
  function YearOfEra(doe: int): int {
    100 * CenturyOfEra(doe) + YearOfCentury(doe - 36524 * CenturyOfEra(doe))
  }

  /** The day within its March-based year of a day of the era. */
  function DayOfYear(doe: int): int {
    DayOfCentury(doe - 36524 * CenturyOfEra(doe))
  }

  /** The month of a March-based year a day of that year falls in,
      March being 0 and February 11. */
  function MonthOfYear(doy: int): int {
    (5 * doy + 2) / 153
  }

  /** The months of an era counted from its first March. */
  function EraMonth(doe: int): int {
    12 * YearOfEra(doe) + MonthOfYear(DayOfYear(doe))
  }

  /** The month (1 to 12) of a day count, day 0 being 1970-01-01. */
  function CivilMonth(days: int): int {
    var mp := MonthOfYear(DayOfYear((days + 719468) % 146097));
    if mp < 10 then mp + 3 else mp - 9
  }

  /** The year of a day count; January and February belong to the year
      after the one their March-based year began in. */
  function CivilYear(days: int): int {
    var z := days + 719468;
    YearOfEra(z % 146097) + 400 * (z / 146097) + (if CivilMonth(days) <= 2 then 1 else 0)
  }

  /** The month of a day count as months since January of year 0: the
      months of the whole eras before it plus its month in its own era
      (era months start in March, two months in). */
  function MonthIndex(days: int): int {
    var z := days + 719468;
    4800 * (z / 146097) + EraMonth(z % 146097) + 2
  }

  /** `timestamp.replace(day=1, hour=0, ...)`, as months since year 0. */
  function MonthKey(t: int): (k: int)
    ensures var d := DayKey(t); k == 12 * CivilYear(d) + CivilMonth(d) - 1
  {
    MonthIndexCivil(DayKey(t));
    MonthIndex(DayKey(t))
  }

  /** The month index is the civil year and month of the day. */
  lemma MonthIndexCivil(days: int)
    ensures 1 <= CivilMonth(days) <= 12
    ensures MonthIndex(days) == 12 * CivilYear(days) + CivilMonth(days) - 1
  {
  }

  /** Consecutive days either stay in a year or end one year (of 365 or
      366 days) and start the next on its day 0. */
  predicate NextDay(y: int, d: int, y': int, d': int) {
    || (y' == y && d' == d + 1 && 0 <= d)
    || (y' == y + 1 && d' == 0 && 364 <= d <= 365)
  }

  lemma CycleStep(r: int)
    requires 0 <= r < 1460
    ensures NextDay(YearOfCycle(r), DayOfCycle(r), YearOfCycle(r + 1), DayOfCycle(r + 1))
  {
  }

  lemma CenturyStep(r: int)
    requires 0 <= r < 36524
    ensures NextDay(YearOfCentury(r), DayOfCentury(r), YearOfCentury(r + 1), DayOfCentury(r + 1))
  {
    if (r + 1) % 1461 == 0 {
      assert (r + 1) / 1461 == r / 1461 + 1 && r % 1461 == 1460;
      assert YearOfCycle(1460) == 3 && DayOfCycle(1460) == 365;
    } else {
      assert (r + 1) / 1461 == r / 1461 && (r + 1) % 1461 == r % 1461 + 1;
      CycleStep(r % 1461);
    }
  }

  /** The last day of a short century is day 364 of its year 99. */
  lemma CenturyLast()
    ensures YearOfCentury(36523) == 99 && DayOfCentury(36523) == 364
  {
    assert 36523 / 1461 == 24 && 36523 % 1461 == 1459;
  }

  lemma YearStepAcross(doe: int, c: int)
    requires 0 <= c < 3 && doe == 36524 * c + 36523
    ensures NextDay(YearOfEra(doe), DayOfYear(doe), YearOfEra(doe + 1), DayOfYear(doe + 1))
  {
    assert CenturyOfEra(doe) == c && CenturyOfEra(doe + 1) == c + 1;
    CenturyLast();
  }

  lemma YearStepWithin(doe: int, c: int)
    requires 0 <= doe < 146096 && c == CenturyOfEra(doe) && c == CenturyOfEra(doe + 1)
    ensures NextDay(YearOfEra(doe), DayOfYear(doe), YearOfEra(doe + 1), DayOfYear(doe + 1))
  {
    CenturyStep(doe - 36524 * c);
  }

  /** Within an era, the next day is the next day of the same year or
      day 0 of the next year. */
  lemma YearStep(doe: int)
    requires 0 <= doe < 146096
    ensures NextDay(YearOfEra(doe), DayOfYear(doe), YearOfEra(doe + 1), DayOfYear(doe + 1))
  {
    var c := CenturyOfEra(doe);
    if c < 3 && doe == 36524 * c + 36523 {
      YearStepAcross(doe, c);
    } else {
      YearStepWithin(doe, c);
    }
  }

  /** The last day of an era is day 365 of its year 399, a leap day. */
  lemma EraLast()
    ensures YearOfEra(146096) == 399 && DayOfYear(146096) == 365
  {
    assert CenturyOfEra(146096) == 3;
    assert 36524 / 1461 == 24 && 36524 % 1461 == 1460;
  }

  lemma EraFirstYear(doe: int)
    requires 0 <= doe < 365
    ensures YearOfEra(doe) == 0 && DayOfYear(doe) == doe
  {
    assert CenturyOfEra(doe) == 0;
    assert doe / 1461 == 0 && doe % 1461 == doe;
  }

  /** The first 31 days of an era are its first March. */
  lemma EraMarch(doe: int)
    requires 0 <= doe < 31
    ensures EraMonth(doe) == 0
  {
    EraFirstYear(doe);
  }

  /** From one day of an era to the next the month stays or moves on by
      one. */
  lemma EraMonthStep(doe: int)
    requires 0 <= doe < 146096
    ensures EraMonth(doe) <= EraMonth(doe + 1) <= EraMonth(doe) + 1
  {
    YearStep(doe);
  }

  lemma EraSplit(z: int, e: int, r: int)
    requires 0 <= r < 146097 && z == 146097 * e + r
    ensures z / 146097 == e && z % 146097 == r
  {
  }

  lemma MonthIndexWithin(days: int, e: int, r: int)
    requires 0 <= r < 146096 && days + 719468 == 146097 * e + r
    ensures MonthIndex(days) <= MonthIndex(days + 1) <= MonthIndex(days) + 1
  {
    EraSplit(days + 719468, e, r);
    EraSplit(days + 1 + 719468, e, r + 1);
    EraMonthStep(r);
  }

  /** The last day of an era is in February and the next in March. */
  lemma MonthIndexAcross(days: int, e: int)
    requires days + 719468 == 146097 * e + 146096
    ensures MonthIndex(days + 1) == MonthIndex(days) + 1
  {
    EraSplit(days + 719468, e, 146096);
    EraSplit(days + 1 + 719468, e + 1, 0);
    EraLast();
    EraMarch(0);
  }

  /** From one day to the next the month stays or moves on by one, also
      across the end of an era. */
  lemma MonthIndexStep(days: int)
    ensures MonthIndex(days) <= MonthIndex(days + 1) <= MonthIndex(days) + 1
  {
    var e, r := (days + 719468) / 146097, (days + 719468) % 146097;
    if r < 146096 {
      MonthIndexWithin(days, e, r);
    } else {
      MonthIndexAcross(days, e);
    }
  }

  /** A later day never falls in an earlier month. */
  lemma {:induction false} MonthIndexMonotone(d1: int, d2: int)
    requires d1 <= d2
    ensures MonthIndex(d1) <= MonthIndex(d2)
    decreases d2 - d1
  {
    if d1 < d2 {
      MonthIndexStep(d2 - 1);
      MonthIndexMonotone(d1, d2 - 1);
    }
  }

  lemma DayKeyMonotone(t1: int, t2: int)
    requires t1 <= t2
    ensures DayKey(t1) <= DayKey(t2)
  {
  }

  /** A later time never falls in an earlier month. */
  lemma MonthKeyMonotone(t1: int, t2: int)
    requires t1 <= t2
    ensures MonthKey(t1) <= MonthKey(t2)
  {
    DayKeyMonotone(t1, t2);
    MonthIndexMonotone(DayKey(t1), DayKey(t2));
  }

  /** From one day to the next the month key never skips a month. */
  lemma MonthKeyStep(t1: int, t2: int)
    requires DayKey(t2) == DayKey(t1) + 1
    ensures MonthKey(t1) <= MonthKey(t2) <= MonthKey(t1) + 1
  {
    MonthIndexStep(DayKey(t1));
  }

  /** 1970-01-01 (day 0, day 135080 of era 4) is in January 1970. */
  lemma EpochMonth()
    ensures MonthKey(0) == 1970 * 12
  {
    assert DayKey(0) == 0;
    assert 719468 / 146097 == 4 && 719468 % 146097 == 135080;
    assert CenturyOfEra(135080) == 3 && 135080 - 3 * 36524 == 25508;
    assert 25508 / 1461 == 17 && 25508 % 1461 == 671;
    assert YearOfEra(135080) == 369 && DayOfYear(135080) == 306;
  }

  /** The leap day 2000-02-29 (day 11016, the last of era 4) and its last
      second are in February 2000. */
  lemma LeapDayMonth()
    ensures MonthKey(11016 * DaySeconds) == 2000 * 12 + 1
    ensures MonthKey(11017 * DaySeconds - 1) == 2000 * 12 + 1
  {
    assert 11016 * DaySeconds == 951782400 && DayKey(951782400) == 11016;
    assert 11017 * DaySeconds - 1 == 951868799 && DayKey(951868799) == 11016;
    assert 730484 / 146097 == 4 && 730484 % 146097 == 146096;
    EraLast();
  }

  /** 2000-03-01 (day 11017, the first of era 5) is in March 2000. */
  lemma MarchMonth()
    ensures MonthKey(11017 * DaySeconds) == 2000 * 12 + 2
  {
    assert 11017 * DaySeconds == 951868800 && DayKey(951868800) == 11017;
    assert 730485 / 146097 == 5 && 730485 % 146097 == 0;
    EraMarch(0);
  }

  /** `entry['timestamp'] >= limit`. */
  function AtOrAfter(limit: int): Entry -> bool {
    (e: Entry) => e.timestamp >= limit
  }

  /** `[e for e in es if e['timestamp'] >= limit]`. */
  function Since(es: seq<Entry>, limit: int): (r: seq<Entry>)
    ensures forall i :: 0 <= i < |r| ==> r[i].timestamp >= limit && r[i] in es
    ensures forall e :: e in es && e.timestamp >= limit ==> e in r
  {
    Filter(es, AtOrAfter(limit))
  }

  /** `entry['client_address'] == ip`. */
  function FromClient(ip: string): Entry -> bool {
    (e: Entry) => e.clientAddress == ip
  }

  function EntryBytes(e: Entry): nat {
    e.bytes
  }

  /** `sum(e['bytes'] for e in es)`. */
  function SumBytes(es: seq<Entry>): nat {
    SumOf(es, EntryBytes)
  }

  /** A later limit keeps a sub-window of an earlier one: filtering the
      earlier window again by the later limit gives the later window. */
  lemma {:induction false} SinceNarrow(es: seq<Entry>, later: int, earlier: int)
    requires earlier <= later
    ensures Since(Since(es, earlier), later) == Since(es, later)
  {
    FilterNarrow(es, AtOrAfter(later), AtOrAfter(earlier));
  }

  /** Cutting a window at two limits, in either order, keeps the entries
      at or after the later of the two. */
  lemma SinceTwice(es: seq<Entry>, first: int, second: int)
    ensures Since(Since(es, first), second) == Since(es, if first < second then second else first)
  {
    if first <= second {
      SinceNarrow(es, second, first);
    } else {
      FilterKeepsAll(Since(es, first), AtOrAfter(second));
    }
  }

  /** The later window occurs in order inside the earlier one. */
  lemma {:induction false} SinceWithin(es: seq<Entry>, later: int, earlier: int)
    requires earlier <= later
    ensures IsSubsequence(Since(es, later), Since(es, earlier))
  {
    SinceNarrow(es, later, earlier);
    FilterIsSubsequence(Since(es, earlier), AtOrAfter(later));
  }
}

=== FILE: importer.dfy ===
/** The `import_squid_logs` management command: it walks the log line by
    line, skips what it cannot use or has already stored, and writes the
    rest to the database in batches of a thousand.  The database is the
    list of batches written; the last stored time is a parameter, and so
    is the conversion of the first field to a time, whose `None` stands
    for the exception it may raise. */
module Importer {
  import opened Wrappers
  import opened Seqs
  import opened Text

  /** Records are written whenever this many are pending. */
  const BatchSize: nat := 1000
  /** A line needs this many whitespace-separated fields. */
  const MinFields: nat := 10

  /** A `SquidLog` row.  The time is whatever the conversion of the first
      field yields. */
  datatype Record = Record(
    timestamp: int,
    clientAddress: string,
    resultCode: string,
    bytes: int,
    requestMethod: string,
    url: string,
    userIdent: string,
    hierarchyCode: string,
    contentType: string)

  /** Digits with single underscores between them, as `int()` accepts
      after the sign. */
  predicate Underscored(s: string) {
    && |s| > 0 && IsDigit(s[0]) && IsDigit(s[|s| - 1])
    && (forall i :: 0 <= i < |s| ==> IsDigit(s[i]) || s[i] == '_')
    && (forall i :: 0 <= i < |s| - 1 ==> s[i] == '_' ==> s[i + 1] != '_')
  }

  /** The digits of `s`, in order. */
  function KeepDigits(s: string): (r: string)
    ensures AllDigits(r)
    ensures AllDigits(s) ==> r == s
  {
    if s == [] then []
    else KeepDigits(s[..|s| - 1]) + (if IsDigit(s[|s| - 1]) then [s[|s| - 1]] else [])
  }

  predicate IsSign(c: char) {
    c == '+' || c == '-'
  }

  /** Python's `int(s)` for a string without surrounding whitespace: an
      optional sign, then digits with single underscores between them;
      `None` for anything else, where `int()` raises. */
  function PyInt(s: string): (r: Option<int>)
    ensures r.Some? ==> |s| > 0
    ensures r.Some? ==> forall i :: 0 <= i < |s| ==> IsDigit(s[i]) || s[i] == '_' || (i == 0 && IsSign(s[i]))
  {
    if |s| > 0 && IsSign(s[0]) then
      if Underscored(s[1..]) then
        var v: int := DigitsValue(KeepDigits(s[1..]));
        Some(if s[0] == '-' then -v else v)
      else None
    else if Underscored(s) then Some(DigitsValue(KeepDigits(s)))
    else None
  }

  /** `str(n)` for a natural number. */
  function ShowNat(n: nat): (s: string)
    ensures IsNumeral(s)
  {
    var d := ['0' + (n % 10) as char];
    if n < 10 then d else ShowNat(n / 10) + d
  }

  /** `str(n)`. */
  function Show(n: int): string {
    if n < 0 then "-" + ShowNat(-n) else ShowNat(n)
  }

  /** The value of a digit string is the number it shows. */
  lemma {:induction false} ShowNatValue(n: nat)
    ensures DigitsValue(ShowNat(n)) == n
    decreases n
  {
    var d := ['0' + (n % 10) as char];
    if n >= 10 {
      ShowNatValue(n / 10);
      var s := ShowNat(n / 10) + d;
      assert s[..|s| - 1] == ShowNat(n / 10);
    }
  }

  /** `int()` reads a plain or signed digit string as its value. */
  lemma PyIntDigits(s: string)
    requires IsNumeral(s)
    ensures PyInt(s) == Some(DigitsValue(s))
    ensures PyInt("-" + s) == Some(-(DigitsValue(s) as int))
    ensures PyInt("+" + s) == Some(DigitsValue(s))
  {
    assert ("-" + s)[1..] == s && ("+" + s)[1..] == s;
    assert !IsSign(s[0]);
  }

  /** `int(str(n)) == n`. */
  lemma PyIntShow(n: int)
    ensures PyInt(Show(n)) == Some(n)
  {
    if n < 0 {
      ShowNatValue(-n);
      PyIntDigits(ShowNat(-n));
    } else {
      ShowNatValue(n);
      PyIntDigits(ShowNat(n));
    }
  }

  /** Signs, dots, misplaced underscores and empty digit runs make
      `int()` raise. */
  lemma PyIntRefuses()
    ensures PyInt("") == None && PyInt("-") == None
    ensures PyInt("12.5") == None && PyInt("1__0") == None
  {
    assert !Underscored("12.5") by {
      assert "12.5"[2] == '.';
    }
    assert !Underscored("1__0") by {
      assert "1__0"[1] == '_' && "1__0"[2] == '_';
    }
  }

  /** Single underscores between digits are accepted and ignored. */
  lemma PyIntUnderscore()
    ensures PyInt("1_000") == Some(1000)
  {
    assert !IsSign('1');
    assert Underscored("1_000");
    KeepDigitsSample();
    ValueSample();
  }

  lemma KeepDigitsSample()
    ensures KeepDigits("1_000") == "1000"
  {
    assert "1_"[..1] == "1";
    assert KeepDigits("1_") == "1";
    assert "1_0"[..2] == "1_";
    assert KeepDigits("1_0") == "10";
    assert "1_00"[..3] == "1_0";
    assert KeepDigits("1_00") == "100";
    assert "1_000"[..4] == "1_00";
  }

  lemma ValueSample()
    ensures DigitsValue("1000") == 1000
  {
    assert "1000"[..3] == "100" && "100"[..2] == "10" && "10"[..1] == "1";
  }

  /** The result code as the command stores it: the two halves of a
      status token rejoined by the slash they were split on, or the token
      as it is. */
  function ResultCodeOf(t: string): string {
    var ps := SplitOn(t, '/');
    if |ps| == 2 then ps[0] + "/" + ps[1] else t
  }

  /** The rejoining is the identity: the stored result code is the fourth
      field, whatever it holds. */
  lemma ResultCodeKept(t: string)
    ensures ResultCodeOf(t) == t
  {
    JoinSplit(t, '/');
    var ps := SplitOn(t, '/');
    if |ps| == 2 {
      assert JoinWith(ps, '/') == ps[0] + ['/'] + ps[1];
    }
  }

  /** The record of a line with enough fields, once its time is known;
      `None` when the byte count is not an integer. */
  function RecordOf(parts: seq<string>, t: int): Option<Record>
    requires |parts| >= MinFields
  {
    var bytes :- PyInt(parts[4]);
    Some(Record(t, parts[2], ResultCodeOf(parts[3]), bytes,
                parts[5], parts[6], parts[7], parts[8], parts[9]))
  }

  /** What a line comes to: blank, too short, a time that does not
      convert, already stored, or matched, with or without a record. */
  datatype Outcome = Blank | Short | BadTime | Old | Matched(record: Option<Record>)

  /** The body of the loop for one line. */
  function Classify(line: string, last: Option<int>, toTime: string -> Option<int>): Outcome {
    if Strip(line) == [] then Blank
    else
      var parts := Words(Strip(line));
      if |parts| < MinFields then Short
      else match toTime(parts[0])
        case None => BadTime
        case Some(t) =>
          if last.Some? && t <= last.value then Old
          else Matched(RecordOf(parts, t))
  }

  /** A record comes with the right fields in the right places, and only
      from a line with enough fields, a new time and an integer size. */
  lemma RecordFields(line: string, last: Option<int>, toTime: string -> Option<int>)
    ensures var o := Classify(line, last, toTime);
      o.Matched? && o.record.Some? ==>
        var parts, r := Words(Strip(line)), o.record.value;
        && |parts| >= MinFields
        && toTime(parts[0]) == Some(r.timestamp)
        && (last.None? || r.timestamp > last.value)
        && PyInt(parts[4]) == Some(r.bytes)
        && r.resultCode == parts[3]
        && r.clientAddress == parts[2] && r.requestMethod == parts[5] && r.url == parts[6]
        && r.userIdent == parts[7] && r.hierarchyCode == parts[8] && r.contentType == parts[9]
  {
    var parts := Words(Strip(line));
    if |parts| >= MinFields {
      ResultCodeKept(parts[3]);
    }
  }

  /** The loop's variables: the records not yet written, the batches
      written, and the three counters. */
  datatype State = State(pending: seq<Record>, batches: seq<seq<Record>>, processed: nat, matched: nat, skipped: nat)

  const Start := State([], [], 0, 0, 0)

  /** One line through the loop. */
  function Feed(st: State, o: Outcome): State {
    var st := st.(processed := st.processed + 1);
    match o
    case Old => st.(skipped := st.skipped + 1)
    case Matched(r) =>
      var st := st.(matched := st.matched + 1);
      if r.None? then st
      else
        var pending := st.pending + [r.value];
        if |pending| >= BatchSize then st.(pending := [], batches := st.batches + [pending])
        else st.(pending := pending)
    case _ => st
  }

  /** The loop over the lines of the file. */
  function Run(lines: seq<string>, last: Option<int>, toTime: string -> Option<int>): State {
    if lines == [] then Start
    else Feed(Run(lines[..|lines| - 1], last, toTime), Classify(lines[|lines| - 1], last, toTime))
  }

  /** What the command leaves behind: every batch written, including the
      final one, the three counters, and the number of records added. */
  datatype Report = Report(batches: seq<seq<Record>>, processed: nat, matched: nat, skipped: nat, added: nat)

  /** The batches one after the other. */
  function Flatten(bs: seq<seq<Record>>): seq<Record> {
    if bs == [] then [] else Flatten(bs[..|bs| - 1]) + bs[|bs| - 1]
  }

  /** `Command.handle` from the first line to the final statistics, with
      the number of records added counted from the batches written. */
  function Import(lines: seq<string>, last: Option<int>, toTime: string -> Option<int>): Report {
    var st := Run(lines, last, toTime);
    var batches := if st.pending != [] then st.batches + [st.pending] else st.batches;
    Report(batches, st.processed, st.matched, st.skipped, |Flatten(batches)|)
  }

  /** The "added" figure the command prints: matched minus skipped lines. */
  function ReportedAdded(r: Report): int {
    r.matched - r.skipped
  }

  /** The record a line contributes, if any. */
  function Produced(o: Outcome): seq<Record> {
    if o.Matched? && o.record.Some? then [o.record.value] else []
  }

  /** The reference list of records: one per matched line whose size is an
      integer, in line order. */
  function Records(lines: seq<string>, last: Option<int>, toTime: string -> Option<int>): seq<Record> {
    if lines == [] then []
    else Records(lines[..|lines| - 1], last, toTime) + Produced(Classify(lines[|lines| - 1], last, toTime))
  }

  function IsOld(last: Option<int>, toTime: string -> Option<int>): string -> bool {
    (line: string) => Classify(line, last, toTime).Old?
  }

  function IsMatched(last: Option<int>, toTime: string -> Option<int>): string -> bool {
    (line: string) => Classify(line, last, toTime).Matched?
  }

  /** Matched lines whose size is not an integer: counted, not written. */
  function IsUnwritten(last: Option<int>, toTime: string -> Option<int>): string -> bool {
    (line: string) => Classify(line, last, toTime) == Matched(None)
  }

  /** Every batch written holds exactly a thousand records, and fewer are
      pending. */
  predicate Batched(st: State) {
    (forall i :: 0 <= i < |st.batches| ==> |st.batches[i]| == BatchSize) && |st.pending| < BatchSize
  }

  /** One line adds its record, if any, after those written and pending,
      and keeps the batches full. */
  lemma FeedRecords(st: State, o: Outcome)
    requires Batched(st)
    ensures Flatten(Feed(st, o).batches) + Feed(st, o).pending == Flatten(st.batches) + st.pending + Produced(o)
    ensures Batched(Feed(st, o))
  {
    if o.Matched? && o.record.Some? {
      var pending := st.pending + [o.record.value];
      if |pending| >= BatchSize {
        assert Feed(st, o) == st.(processed := st.processed + 1, matched := st.matched + 1,
                                  pending := [], batches := st.batches + [pending]);
        FlushRecords(st, pending);
      } else {
        assert Feed(st, o).batches == st.batches && Feed(st, o).pending == pending;
      }
    } else {
      assert Feed(st, o).batches == st.batches && Feed(st, o).pending == st.pending;
      assert Produced(o) == [];
    }
  }

  /** A full batch written: nothing pending, and the batch holds exactly a
      thousand records after the others. */
  lemma FlushRecords(st: State, pending: seq<Record>)
    requires Batched(st) && |pending| == |st.pending| + 1 >= BatchSize
    ensures var after := st.(pending := [], batches := st.batches + [pending]);
      Flatten(after.batches) + after.pending == Flatten(st.batches) + pending && Batched(after)
  {
    FlattenSnoc(st.batches, pending);
  }

  /** One line is processed, and is counted as matched or as skipped
      according to its outcome. */
  lemma FeedCounts(st: State, o: Outcome)
    ensures Feed(st, o).processed == st.processed + 1
    ensures Feed(st, o).matched == st.matched + (if o.Matched? then 1 else 0)
    ensures Feed(st, o).skipped == st.skipped + (if o.Old? then 1 else 0)
  {
  }

  /** The loop keeps: the batches written and the records pending are the
      reference records so far; every batch written holds exactly a
      thousand records and fewer are pending. */
  lemma {:induction false} RunRecords(lines: seq<string>, last: Option<int>, toTime: string -> Option<int>)
    ensures var st := Run(lines, last, toTime);
      Flatten(st.batches) + st.pending == Records(lines, last, toTime) && Batched(st)
    decreases |lines|
  {
    if lines != [] {
      var init, line := lines[..|lines| - 1], lines[|lines| - 1];
      RunRecords(init, last, toTime);
      FeedRecords(Run(init, last, toTime), Classify(line, last, toTime));
    }
  }

  lemma {:induction false} FlattenSnoc(bs: seq<seq<Record>>, b: seq<Record>)
    ensures Flatten(bs + [b]) == Flatten(bs) + b
  {
    assert (bs + [b])[..|bs|] == bs;
  }

  /** The counters: every line is processed, and the matched and skipped
      counts are the numbers of new and of already stored lines. */
  lemma {:induction false} RunCounts(lines: seq<string>, last: Option<int>, toTime: string -> Option<int>)
    ensures var st := Run(lines, last, toTime);
      && st.processed == |lines|
      && st.matched == |Filter(lines, IsMatched(last, toTime))|
      && st.skipped == |Filter(lines, IsOld(last, toTime))|
    decreases |lines|
  {
    if lines != [] {
      var init, line := lines[..|lines| - 1], lines[|lines| - 1];
      RunCounts(init, last, toTime);
      var o := Classify(line, last, toTime);
      FeedCounts(Run(init, last, toTime), o);
      assert IsMatched(last, toTime)(line) == o.Matched?;
      assert IsOld(last, toTime)(line) == o.Old?;
    }
  }

  /** Each written record comes from its own matched line, so the records
      number the matched lines less those whose size is not an integer. */
  lemma {:induction false} RecordsCount(lines: seq<string>, last: Option<int>, toTime: string -> Option<int>)
    ensures |Records(lines, last, toTime)| + |Filter(lines, IsUnwritten(last, toTime))|
         == |Filter(lines, IsMatched(last, toTime))|
    decreases |lines|
  {
    if lines != [] {
      var init, line := lines[..|lines| - 1], lines[|lines| - 1];
      RecordsCount(init, last, toTime);
      var o := Classify(line, last, toTime);
      assert IsMatched(last, toTime)(line) == o.Matched?;
      assert IsUnwritten(last, toTime)(line) == (o == Matched(None));
      assert |Produced(o)| == if o.Matched? && o.record.Some? then 1 else 0;
    }
  }

  /** Matched and skipped lines are different lines, so together they are
      at most the lines processed. */
  lemma {:induction false} MatchedOrSkipped(lines: seq<string>, last: Option<int>, toTime: string -> Option<int>)
    ensures |Filter(lines, IsMatched(last, toTime))| + |Filter(lines, IsOld(last, toTime))| <= |lines|
    decreases |lines|
  {
    if lines != [] {
      MatchedOrSkipped(lines[..|lines| - 1], last, toTime);
    }
  }

  /** What the command writes: the reference records, in order, in batches
      of exactly a thousand except the last, which holds between one and a
      thousand. */
  lemma ImportBatches(lines: seq<string>, last: Option<int>, toTime: string -> Option<int>)
    ensures var r := Import(lines, last, toTime);
      Flatten(r.batches) == Records(lines, last, toTime)
    ensures var bs := Import(lines, last, toTime).batches;
      forall i :: 0 <= i < |bs| ==>
        |bs[i]| == BatchSize || (i == |bs| - 1 && 0 < |bs[i]| < BatchSize)
  {
    RunRecords(lines, last, toTime);
    var st := Run(lines, last, toTime);
    if st.pending != [] {
      FlattenSnoc(st.batches, st.pending);
    } else {
      assert Flatten(st.batches) + st.pending == Flatten(st.batches);
    }
  }

  /** The statistics: every line is processed; matched and skipped lines
      are disjoint; the records added are the matched lines whose size is
      an integer, so never more than the matched lines. */
  lemma ImportAdded(lines: seq<string>, last: Option<int>, toTime: string -> Option<int>)
    ensures var r := Import(lines, last, toTime);
      && r.processed == |lines|
      && r.matched + r.skipped <= r.processed
      && r.added == |Records(lines, last, toTime)|
      && r.added + |Filter(lines, IsUnwritten(last, toTime))| == r.matched
  {
    ImportBatches(lines, last, toTime);
    RunCounts(lines, last, toTime);
    RecordsCount(lines, last, toTime);
    MatchedOrSkipped(lines, last, toTime);
  }

  /** An already stored line only moves the processed and skipped
      counters. */
  lemma FeedSkips(st: State)
    ensures Feed(st, Old) == st.(processed := st.processed + 1, skipped := st.skipped + 1)
  {
  }

  /** A matched line without a record only moves the processed and matched
      counters. */
  lemma FeedUnwritten(st: State)
    ensures Feed(st, Matched(None)) == st.(processed := st.processed + 1, matched := st.matched + 1)
  {
  }

  /** The loop after one more line. */
  lemma RunSnoc(lines: seq<string>, line: string, last: Option<int>, toTime: string -> Option<int>)
    ensures Run(lines + [line], last, toTime) == Feed(Run(lines, last, toTime), Classify(line, last, toTime))
  {
    assert (lines + [line])[..|lines|] == lines;
  }

  /** A blank or short line, or one whose time does not convert, counts
      as processed and changes nothing else. */
  lemma IgnoredLine(lines: seq<string>, line: string, last: Option<int>, toTime: string -> Option<int>)
    requires Classify(line, last, toTime) in {Blank, Short, BadTime}
    ensures var before, after := Run(lines, last, toTime), Run(lines + [line], last, toTime);
      after == before.(processed := before.processed + 1)
  {
    RunSnoc(lines, line, last, toTime);
  }

  /** A line with enough fields whose time converts to one at or before
      the last stored time is already stored. */
  lemma ClassifyOld(line: string, last: Option<int>, toTime: string -> Option<int>)
    requires last.Some?
    requires Strip(line) != [] && |Words(Strip(line))| >= MinFields
    requires toTime(Words(Strip(line))[0]).Some? && toTime(Words(Strip(line))[0]).value <= last.value
    ensures Classify(line, last, toTime) == Old
  {
  }

  /** A line with enough fields, a new time and a size that is not an
      integer is matched without a record. */
  lemma ClassifyUnwritten(line: string, last: Option<int>, toTime: string -> Option<int>)
    requires Strip(line) != [] && |Words(Strip(line))| >= MinFields
    requires toTime(Words(Strip(line))[0]).Some?
    requires last.None? || toTime(Words(Strip(line))[0]).value > last.value
    requires PyInt(Words(Strip(line))[4]).None?
    ensures Classify(line, last, toTime) == Matched(None)
  {
  }

  /** An already stored line counts as skipped and changes nothing else. */
  lemma OldLine(lines: seq<string>, line: string, last: Option<int>, toTime: string -> Option<int>)
    requires Classify(line, last, toTime) == Old
    ensures var before, after := Run(lines, last, toTime), Run(lines + [line], last, toTime);
      after == before.(processed := before.processed + 1, skipped := before.skipped + 1)
  {
    RunSnoc(lines, line, last, toTime);
    FeedSkips(Run(lines, last, toTime));
  }

  /** A matched line without a record counts as matched and changes
      nothing else: nothing is written for it. */
  lemma UnwrittenLine(lines: seq<string>, line: string, last: Option<int>, toTime: string -> Option<int>)
    requires Classify(line, last, toTime) == Matched(None)
    ensures var before, after := Run(lines, last, toTime), Run(lines + [line], last, toTime);
      after == before.(processed := before.processed + 1, matched := before.matched + 1)
  {
    RunSnoc(lines, line, last, toTime);
    FeedUnwritten(Run(lines, last, toTime));
  }

  /** Re-importing lines that are all already stored: every line is
      skipped, nothing is matched or added, and the command reports minus
      the number of lines as added. */
  lemma {:induction false} ReimportReportsNegative(lines: seq<string>, last: Option<int>, toTime: string -> Option<int>)
    requires forall i :: 0 <= i < |lines| ==> Classify(lines[i], last, toTime) == Old
    ensures var r := Import(lines, last, toTime);
      r.skipped == |lines| && r.matched == 0 && r.added == 0 && ReportedAdded(r) == -|lines|
  {
    RunAllOld(lines, last, toTime);
  }

  lemma {:induction false} RunAllOld(lines: seq<string>, last: Option<int>, toTime: string -> Option<int>)
    requires forall i :: 0 <= i < |lines| ==> Classify(lines[i], last, toTime) == Old
    ensures Run(lines, last, toTime) == Start.(processed := |lines|, skipped := |lines|)
    decreases |lines|
  {
    if lines != [] {
      var init := lines[..|lines| - 1];
      assert forall i :: 0 <= i < |init| ==> init[i] == lines[i];
      RunAllOld(init, last, toTime);
      assert Classify(lines[|lines| - 1], last, toTime) == Old;
    }
  }

  /** The ten fields of a line as Squid writes it in its native format. */
  const SampleFields: seq<string> := [
    "1700000000.123", "5", "192.168.1.10", "TCP_MISS/200", "1024", "GET",
    "http://example.com/", "-", "HIER_DIRECT/93.184.216.34", "text/html"]

  /** The sample line is already stripped and splits into its fields. */
  lemma SampleLine()
    ensures Strip(JoinWords(SampleFields)) == JoinWords(SampleFields)
    ensures Words(JoinWords(SampleFields)) == SampleFields
  {
    SampleWords();
    JoinWordsEnds(SampleFields);
    StripStripped(JoinWords(SampleFields));
    WordsJoin(SampleFields);
  }

  lemma SampleWords()
    ensures forall i :: 0 <= i < |SampleFields| ==> IsWord(SampleFields[i])
  {
    forall i | 0 <= i < |SampleFields| ensures IsWord(SampleFields[i]) {
      PrintableWord(SampleFields[i]);
    }
  }

  /** Visible ASCII characters are not whitespace. */
  lemma PrintableWord(w: string)
    requires |w| > 0 && forall j :: 0 <= j < |w| ==> '!' <= w[j] <= '~'
    ensures IsWord(w)
  {
  }

  /** The printed figure is wrong: importing the sample line again, with
      its time as the last stored one, skips it and adds nothing, and the
      command reports -1 records added. */
  lemma ReportedAddedGoesNegative(toTime: string -> Option<int>, t: int)
    requires toTime(SampleFields[0]) == Some(t)
    ensures var r := Import([JoinWords(SampleFields)], Some(t), toTime);
      r.skipped == 1 && r.matched == 0 && r.added == 0 && ReportedAdded(r) == -1
  {
    SampleLine();
    ReimportStrippedLine(JoinWords(SampleFields), SampleFields, toTime, t);
  }

  /** Re-importing one stripped line of enough fields whose time is the
      last stored one reports -1 records added. */
  lemma ReimportStrippedLine(line: string, fields: seq<string>, toTime: string -> Option<int>, t: int)
    requires Strip(line) == line && line != [] && Words(line) == fields && |fields| >= MinFields
    requires toTime(fields[0]) == Some(t)
    ensures var r := Import([line], Some(t), toTime);
      r.skipped == 1 && r.matched == 0 && r.added == 0 && ReportedAdded(r) == -1
  {
    StrippedLineOld(line, fields, toTime, t);
    ReimportReportsNegative([line], Some(t), toTime);
  }

  lemma StrippedLineOld(line: string, fields: seq<string>, toTime: string -> Option<int>, t: int)
    requires Strip(line) == line && line != [] && Words(line) == fields && |fields| >= MinFields
    requires toTime(fields[0]) == Some(t)
    ensures Classify(line, Some(t), toTime) == Old
  {
    ClassifyOld(line, Some(t), toTime);
  }
}

=== FILE: parser.dfy ===
/** `SquidLogReader._parse_line`: the anchored access-log pattern
      ts.frac  elapsed  client  result/status  bytes  method  url  -  hierarchy/server  mime
    applied to the stripped line, turned into an `Entry` or `None`. */
module Parser {
  import opened Wrappers
  import opened Text
  import opened Entries

  /** The text of the eleven pattern groups, with the timestamp split at
      its point. */
  datatype RawLine = RawLine(
    tsWhole: string,
    tsFraction: string,
    responseTime: string,
    clientAddress: string,
    cacheResult: string,
    status: string,
    bytes: string,
    requestMethod: string,
    url: string,
    hierarchy: string,
    server: string,
    mimeType: string)

  /** Non-empty and free of whitespace: what `\S+` matches. */
  predicate IsToken(s: string) {
    |s| > 0 && NoSpace(s)
  }

  /** Empty, or neither starting nor ending with whitespace. */
  predicate Stripped(s: string) {
    s == [] || (!IsSpace(s[0]) && !IsSpace(s[|s| - 1]))
  }

  /** Everything the pattern demands of its groups. */
  predicate WellFormed(raw: RawLine) {
    && IsNumeral(raw.tsWhole) && IsNumeral(raw.tsFraction)
    && IsNumeral(raw.responseTime)
    && IsToken(raw.clientAddress)
    && IsToken(raw.cacheResult) && IsNumeral(raw.status)
    && IsNumeral(raw.bytes)
    && IsToken(raw.requestMethod)
    && IsToken(raw.url)
    && IsToken(raw.hierarchy)
    && IsToken(raw.server) && '/' !in raw.server[..|raw.server| - 1]
    && |raw.mimeType| > 0 && !IsSpace(raw.mimeType[0]) && '\n' !in raw.mimeType
  }

  /** `\S+\s+`: one whitespace-free field, then the text after the run of
      whitespace that must follow it. */
  function Field(s: string): (r: Option<(string, string)>)
    ensures r.Some? ==> IsToken(r.value.0) && |r.value.1| < |s|
    ensures r.Some? ==> r.value.0 == s[..LeadingNonSpaces(s)]
    ensures r.Some? ==> r.value.1 == [] || !IsSpace(r.value.1[0])
  {
    var k := LeadingNonSpaces(s);
    if k == 0 then None
    else
      var w := LeadingSpaces(s[k..]);
      if w == 0 then None
      else
        assert s[k + w..] == s[k..][w..];
        Some((s[..k], s[k + w..]))
  }

  /** `n` consecutive fields and the text after them. */
  function Fields(s: string, n: nat): (r: Option<(seq<string>, string)>)
    ensures r.Some? ==> |r.value.0| == n
    ensures r.Some? ==> forall i :: 0 <= i < n ==> IsToken(r.value.0[i])
    ensures r.Some? ==> r.value.1 == [] || !IsSpace(r.value.1[0]) || (n == 0 && r.value.1 == s)
    ensures r.Some? && n > 0 ==> r.value.0[0] == s[..LeadingNonSpaces(s)]
    ensures r.Some? ==> |r.value.1| <= |s|
  {
    if n == 0 then Some(([], s))
    else match Field(s)
      case None => None
      case Some((t, rest)) =>
        match Fields(rest, n - 1)
        case None => None
        case Some((ts, tail)) => Some(([t] + ts, tail))
  }

  /** `(\d+\.\d+)` as a whole field: the digits before and after the point. */
  function SplitDecimal(t: string): (r: Option<(string, string)>)
    ensures r.Some? ==> IsNumeral(r.value.0) && IsNumeral(r.value.1)
    ensures r.Some? ==> t == r.value.0 + "." + r.value.1
  {
    var k := LeadingDigits(t);
    if 0 < k && k + 1 < |t| && t[k] == '.' && AllDigits(t[k + 1..]) then
      assert t == t[..k] + "." + t[k + 1..];
      Some((t[..k], t[k + 1..]))
    else None
  }

  /** The text after the last `'/'` of a field (empty without one). */
  function AfterLastSlash(t: string): string {
    match LastIndexOf(t, '/')
    case None => []
    case Some(k) => t[k + 1..]
  }

  /** `(\S+)/(\d+)` as a whole field: the greedy `\S+` ends at the last
      `'/'`, which must be preceded by something and followed by digits. */
  function SplitStatus(t: string): (r: Option<(string, string)>)
    ensures r.Some? ==> |r.value.0| > 0 && IsNumeral(r.value.1)
    ensures r.Some? ==> t == r.value.0 + "/" + r.value.1
    ensures r.Some? ==> r.value.1 == AfterLastSlash(t)
  {
    match LastIndexOf(t, '/')
    case None => None
    case Some(k) =>
      if 0 < k && k + 1 < |t| && AllDigits(t[k + 1..]) then
        assert t == t[..k] + "/" + t[k + 1..];
        Some((t[..k], t[k + 1..]))
      else None
  }

  /** `(\S+)/(\S+)` as a whole field: the greedy first group ends at the last
      `'/'` that still leaves a non-empty second group. */
  function SplitServer(t: string): (r: Option<(string, string)>)
    ensures r.Some? ==> |r.value.0| > 0 && |r.value.1| > 0
    ensures r.Some? ==> '/' !in r.value.1[..|r.value.1| - 1]
    ensures r.Some? ==> t == r.value.0 + "/" + r.value.1
  {
    if |t| < 3 then None
    else match LastIndexOf(t[..|t| - 1], '/')
      case None => None
      case Some(k) =>
        if k == 0 then None
        else
          assert t[k + 1..][..|t| - k - 2] == t[..|t| - 1][k + 1..];
          assert t == t[..k] + "/" + t[k + 1..];
          Some((t[..k], t[k + 1..]))
  }

  /** The pattern matched against an already stripped line.  The final
      `(.+)` takes the rest of the line up to a line break. */
  function Decompose(s: string): (r: Option<RawLine>)
    requires Stripped(s)
    ensures r.Some? ==> WellFormed(r.value)
  {
    match Fields(s, 9)
    case None => None
    case Some((toks, rest)) =>
      if Recognised(toks) then
        assert rest != [] by {
          if rest == [] {
            FieldsEndsStripped(s, 9);
          }
        }
        Some(Assemble(toks, rest))
      else None
  }

  /** The groups of a recognised line. */
  function Assemble(toks: seq<string>, rest: string): (raw: RawLine)
    requires |toks| == 9 && Recognised(toks)
    requires forall i :: 0 <= i < 9 ==> IsToken(toks[i])
    requires rest != [] && !IsSpace(rest[0])
    ensures WellFormed(raw)
  {
    var (whole, fraction) := SplitDecimal(toks[0]).value;
    var (result, status) := SplitStatus(toks[3]).value;
    var (hierarchy, server) := SplitServer(toks[8]).value;
    var mime := Before(rest, '\n');
    assert |mime| > 0 && mime[0] == rest[0];
    assert IsToken(toks[3]) && IsToken(toks[8]);
    NoSpaceParts(result, "/", status);
    NoSpaceParts(hierarchy, "/", server);
    RawLine(whole, fraction, toks[1], toks[2], result, status, toks[4],
            toks[5], toks[6], hierarchy, server, mime)
  }

  /** The shape checks of the pattern on the nine leading fields. */
  predicate Recognised(toks: seq<string>)
    requires |toks| == 9
  {
    && SplitDecimal(toks[0]).Some?
    && IsNumeral(toks[1])
    && SplitStatus(toks[3]).Some?
    && IsNumeral(toks[4])
    && toks[7] == "-"
    && SplitServer(toks[8]).Some?
  }

  /** Fields of a stripped text that is not exhausted by them leave a
      non-empty tail: the whitespace after the last field is followed by
      more text. */
  lemma {:induction false} FieldsEndsStripped(s: string, n: nat)
    requires Stripped(s) && n > 0 && Fields(s, n).Some?
    ensures Fields(s, n).value.1 != []
    decreases n
  {
    var rest := Field(s).value.1;
    FieldLeavesStripped(s);
    assert Fields(s, n).value.1 == Fields(rest, n - 1).value.1;
    if n > 1 {
      FieldsEndsStripped(rest, n - 1);
    }
  }

  /** The whitespace after a field of a stripped text is followed by more,
      still stripped, text. */
  lemma FieldLeavesStripped(s: string)
    requires Stripped(s) && Field(s).Some?
    ensures Field(s).value.1 != [] && Stripped(Field(s).value.1)
  {
    var k := LeadingNonSpaces(s);
    var w := LeadingSpaces(s[k..]);
    var rest := s[k + w..];
    assert Field(s).value.1 == rest;
    assert AllSpace(s[k..][..w]);
    if k + w == |s| {
      assert false;
    }
    assert rest[|rest| - 1] == s[|s| - 1];
  }

  /** `https://` is put in front of the target of a `CONNECT` request. */
  function RequestUrl(requestMethod: string, url: string): (r: string)
    ensures requestMethod == "CONNECT" ==> r == "https://" + url
    ensures requestMethod != "CONNECT" ==> r == url
  {
    if requestMethod == "CONNECT" then "https://" + url else url
  }

  /** The groups converted to an entry; `datetime` raises, and the line is
      rejected, when the local time falls beyond the year 9999. */
  function ToEntry(raw: RawLine): (r: Option<Entry>)
    requires WellFormed(raw)
    ensures r.Some? <==> DigitsValue(raw.tsWhole) + ReportOffset < MaxLocalSeconds
  {
    var t := DigitsValue(raw.tsWhole) + ReportOffset;
    if t >= MaxLocalSeconds then None
    else Some(Entry(
      t,
      DigitsValue(raw.responseTime),
      raw.clientAddress,
      DigitsValue(raw.status),
      DigitsValue(raw.bytes),
      raw.requestMethod,
      RequestUrl(raw.requestMethod, raw.url),
      raw.cacheResult,
      raw.server,
      raw.mimeType))
  }

  /** `_parse_line(line)`.  In terms of the whitespace fields of the stripped
      line: the client, method, status and byte count are read from fields
      3, 6, 4 and 5, the URL is field 7 (behind `https://` for `CONNECT`),
      and field 8 is the literal `-`.  `ParseLineAccepts` and
      `ParseLineFields` give the whole contract. */
  function ParseLine(line: string): (r: Option<Entry>)
    ensures r.Some? ==> Fields(Strip(line), 9).Some? && Recognised(Fields(Strip(line), 9).value.0)
    ensures r.Some? ==> ReportOffset <= r.value.timestamp < MaxLocalSeconds
    ensures r.Some? ==> var toks := Fields(Strip(line), 9).value.0;
      && r.value.clientAddress == toks[2]
      && r.value.requestMethod == toks[5]
      && r.value.url == (if toks[5] == "CONNECT" then "https://" + toks[6] else toks[6])
      && IsNumeral(AfterLastSlash(toks[3]))
      && r.value.resultCode == DigitsValue(AfterLastSlash(toks[3]))
      && r.value.bytes == DigitsValue(toks[4])
  {
    var s := Strip(line);
    match Decompose(s)
    case None => None
    case Some(raw) => ToEntry(raw)
  }

  /** The timestamp field of recognised fields, as local seconds. */
  function LocalSeconds(toks: seq<string>): int
    requires |toks| == 9 && Recognised(toks)
  {
    DigitsValue(SplitDecimal(toks[0]).value.0) + ReportOffset
  }

  /** A line is accepted exactly when its stripped text has nine fields
      separated by runs of whitespace and followed by more text, the
      fields pass the shape checks, and the local time stays within the
      year 9999. */
  lemma ParseLineAccepts(line: string)
    ensures ParseLine(line).Some? <==> var f := Fields(Strip(line), 9);
      f.Some? && Recognised(f.value.0) && LocalSeconds(f.value.0) < MaxLocalSeconds
  {
    var s := Strip(line);
    if Fields(s, 9).Some? && Recognised(Fields(s, 9).value.0) {
      FieldsEndsStripped(s, 9);
    }
  }

  /** Every field of an accepted line: field 4 is split at its last `/`
      into the cache result and the status, field 9 at the last `/` that
      leaves a server, and the MIME type is the rest of the line up to a
      line break. */
  lemma ParseLineFields(line: string)
    requires ParseLine(line).Some?
    ensures var r := ParseLine(line).value;
      var (toks, rest) := Fields(Strip(line), 9).value;
      && r.timestamp == LocalSeconds(toks)
      && r.responseTime == DigitsValue(toks[1])
      && r.clientAddress == toks[2]
      && r.cacheResult == SplitStatus(toks[3]).value.0
      && r.resultCode == DigitsValue(SplitStatus(toks[3]).value.1)
      && r.bytes == DigitsValue(toks[4])
      && r.requestMethod == toks[5]
      && r.url == RequestUrl(toks[5], toks[6])
      && r.server == SplitServer(toks[8]).value.1
      && r.mimeType == Before(rest, '\n')
  {
  }

  /** The line the pattern was written for: the groups joined by single
      spaces. */
  function FormatLine(raw: RawLine): string {
    Line(FormatToks(raw), raw.mimeType)
  }

  /** The nine fields before the MIME type. */
  function FormatToks(raw: RawLine): seq<string> {
    [raw.tsWhole + "." + raw.tsFraction, raw.responseTime, raw.clientAddress,
     raw.cacheResult + "/" + raw.status, raw.bytes, raw.requestMethod, raw.url, "-",
     raw.hierarchy + "/" + raw.server]
  }

  /** `' '.join(toks + [tail])`. */
  function Line(toks: seq<string>, tail: string): string {
    if toks == [] then tail else toks[0] + " " + Line(toks[1..], tail)
  }

  lemma {:induction false} LineEnds(toks: seq<string>, tail: string)
    requires forall i :: 0 <= i < |toks| ==> IsToken(toks[i])
    requires |tail| > 0 && !IsSpace(tail[0])
    ensures |Line(toks, tail)| > 0
    ensures !IsSpace(Line(toks, tail)[0])
    ensures Line(toks, tail)[|Line(toks, tail)| - 1] == tail[|tail| - 1]
    decreases |toks|
  {
    if toks != [] {
      LineEnds(toks[1..], tail);
    }
  }

  lemma {:induction false} FieldOfToken(t: string, rest: string)
    requires IsToken(t) && |rest| > 0 && !IsSpace(rest[0])
    ensures Field(t + " " + rest) == Some((t, rest))
  {
    assert Gap(" ");
    FieldOfPadded(t, " ", rest);
  }

  lemma {:induction false} FieldsOfLine(toks: seq<string>, tail: string)
    requires forall i :: 0 <= i < |toks| ==> IsToken(toks[i])
    requires |tail| > 0 && !IsSpace(tail[0])
    ensures Fields(Line(toks, tail), |toks|) == Some((toks, tail))
    decreases |toks|
  {
    if toks != [] {
      var rest := Line(toks[1..], tail);
      FieldsOfLine(toks[1..], tail);
      LineEnds(toks[1..], tail);
      FieldOfToken(toks[0], rest);
      assert [toks[0]] + toks[1..] == toks;
    }
  }

  lemma {:induction false} SplitDecimalOf(a: string, b: string)
    requires IsNumeral(a) && IsNumeral(b)
    ensures SplitDecimal(a + "." + b) == Some((a, b))
  {
    var t := a + "." + b;
    assert t == a + ("." + b);
    LeadingDigitsAppend(a, "." + b);
    assert LeadingDigits("." + b) == 0;
    assert t[|a|] == '.';
    assert t[..|a|] == a;
    assert t[|a| + 1..] == b;
  }

  lemma {:induction false} LeadingDigitsAppend(a: string, b: string)
    requires AllDigits(a)
    ensures LeadingDigits(a + b) == |a| + LeadingDigits(b)
    decreases |a|
  {
    if a != [] {
      assert (a + b)[1..] == a[1..] + b;
      LeadingDigitsAppend(a[1..], b);
    } else {
      assert a + b == b;
    }
  }

  lemma {:induction false} SplitStatusOf(a: string, d: string)
    requires |a| > 0 && IsNumeral(d)
    ensures SplitStatus(a + "/" + d) == Some((a, d))
  {
    var t := a + "/" + d;
    assert '/' !in d;
    LastIndexOfAfter(a + "/", d, '/');
    assert t[..|a|] == a;
    assert t[|a| + 1..] == d;
  }

  /** The last occurrence lies in the prefix when the suffix lacks it. */
  lemma {:induction false} LastIndexOfAfter(a: string, b: string, c: char)
    requires |a| > 0 && a[|a| - 1] == c && c !in b
    ensures LastIndexOf(a + b, c) == Some(|a| - 1)
  {
    var r := LastIndexOf(a + b, c);
    assert (a + b)[|a| - 1] == c;
    assert r.Some?;
  }

  lemma {:induction false} SplitServerOf(h: string, sv: string)
    requires |h| > 0 && |sv| > 0 && '/' !in sv[..|sv| - 1]
    ensures SplitServer(h + "/" + sv) == Some((h, sv))
  {
    var t := h + "/" + sv;
    assert |t| >= 3;
    assert t[..|t| - 1] == (h + "/") + sv[..|sv| - 1];
    LastIndexOfAfter(h + "/", sv[..|sv| - 1], '/');
    assert LastIndexOf(t[..|t| - 1], '/') == Some(|h|);
    assert SplitServer(t) == Some((t[..|h|], t[|h| + 1..]));
    assert t[..|h|] == h;
    assert t[|h| + 1..] == sv;
  }

  lemma {:induction false} BeforeAbsent(s: string, c: char)
    requires c !in s
    ensures Before(s, c) == s
  {
  }

  /** The nine leading fields of a formatted line are tokens. */
  lemma FormatTokens(raw: RawLine)
    requires WellFormed(raw)
    ensures forall i :: 0 <= i < |FormatToks(raw)| ==> IsToken(FormatToks(raw)[i])
  {
    var toks := FormatToks(raw);
    assert NoSpace(".") && NoSpace("/") && NoSpace("-");
    NoSpaceJoin(raw.tsWhole, ".", raw.tsFraction);
    NoSpaceJoin(raw.cacheResult, "/", raw.status);
    NoSpaceJoin(raw.hierarchy, "/", raw.server);
    NumeralNoSpace(raw.tsWhole);
    NumeralNoSpace(raw.tsFraction);
    NumeralNoSpace(raw.responseTime);
    NumeralNoSpace(raw.status);
    NumeralNoSpace(raw.bytes);
  }

  lemma NumeralNoSpace(d: string)
    requires IsNumeral(d)
    ensures NoSpace(d)
  {
    forall j | 0 <= j < |d| ensures !IsSpace(d[j]) {
      assert IsDigit(d[j]);
    }
  }

  /** The nine leading fields of a formatted line pass the shape checks
      and give back the groups. */
  lemma FormatRecognised(raw: RawLine)
    requires WellFormed(raw)
    ensures forall i :: 0 <= i < |FormatToks(raw)| ==> IsToken(FormatToks(raw)[i])
    ensures Recognised(FormatToks(raw))
    ensures Assemble(FormatToks(raw), raw.mimeType) == raw
  {
    FormatTokens(raw);
    FormatShapes(raw);
    BeforeAbsent(raw.mimeType, '\n');
    FormatSplitsBack(raw);
    AssembleOf(FormatToks(raw), raw.mimeType, raw);
  }

  lemma FormatShapes(raw: RawLine)
    requires WellFormed(raw)
    ensures Recognised(FormatToks(raw))
  {
    var toks := FormatToks(raw);
    FormatSplitsBack(raw);
    assert IsNumeral(toks[1]) && IsNumeral(toks[4]) && toks[7] == "-";
  }

  /** The three compound fields split back into their groups. */
  lemma FormatSplitsBack(raw: RawLine)
    requires WellFormed(raw)
    ensures SplitDecimal(FormatToks(raw)[0]) == Some((raw.tsWhole, raw.tsFraction))
    ensures SplitStatus(FormatToks(raw)[3]) == Some((raw.cacheResult, raw.status))
    ensures SplitServer(FormatToks(raw)[8]) == Some((raw.hierarchy, raw.server))
  {
    var toks := FormatToks(raw);
    assert SplitDecimal(toks[0]) == Some((raw.tsWhole, raw.tsFraction)) by {
      assert toks[0] == raw.tsWhole + "." + raw.tsFraction;
      SplitDecimalOf(raw.tsWhole, raw.tsFraction);
    }
    assert SplitStatus(toks[3]) == Some((raw.cacheResult, raw.status)) by {
      assert toks[3] == raw.cacheResult + "/" + raw.status;
      SplitStatusOf(raw.cacheResult, raw.status);
    }
    assert SplitServer(toks[8]) == Some((raw.hierarchy, raw.server)) by {
      assert toks[8] == raw.hierarchy + "/" + raw.server;
      SplitServerOf(raw.hierarchy, raw.server);
    }
  }

  /** The groups assembled are the three splits, the plain fields and the
      text up to the line break. */
  lemma AssembleOf(toks: seq<string>, rest: string, raw: RawLine)
    requires |toks| == 9 && Recognised(toks)
    requires forall i :: 0 <= i < 9 ==> IsToken(toks[i])
    requires rest != [] && !IsSpace(rest[0])
    requires SplitDecimal(toks[0]) == Some((raw.tsWhole, raw.tsFraction))
    requires SplitStatus(toks[3]) == Some((raw.cacheResult, raw.status))
    requires SplitServer(toks[8]) == Some((raw.hierarchy, raw.server))
    requires toks[1] == raw.responseTime && toks[2] == raw.clientAddress && toks[4] == raw.bytes
    requires toks[5] == raw.requestMethod && toks[6] == raw.url
    requires Before(rest, '\n') == raw.mimeType
    ensures Assemble(toks, rest) == raw
  {
  }

  /** Parsing a formatted line gives back its groups: the pattern accepts
      every line built to its shape. */
  lemma {:induction false} FormatRoundTrip(raw: RawLine)
    requires WellFormed(raw) && !IsSpace(raw.mimeType[|raw.mimeType| - 1])
    ensures Stripped(FormatLine(raw))
    ensures Decompose(FormatLine(raw)) == Some(raw)
  {
    var toks := FormatToks(raw);
    FormatRecognised(raw);
    LineEnds(toks, raw.mimeType);
    FieldsOfLine(toks, raw.mimeType);
  }

  /** A timestamp without a fractional part does not match `\d+\.\d+`, so
      the line is rejected. */
  lemma {:induction false} IntegerTimestampRejected(line: string)
    requires AllDigits(Strip(line)[..LeadingNonSpaces(Strip(line))])
    ensures ParseLine(line) == None
  {
    var s := Strip(line);
    if Fields(s, 9).Some? {
      var t := Fields(s, 9).value.0[0];
      assert LeadingDigits(t) == |t|;
    }
  }

  /** The eighth field must be the literal `-`: a line that logs a user
      ident there is rejected. */
  lemma {:induction false} IdentFieldMustBeDash(line: string)
    requires Fields(Strip(line), 9).Some? && Fields(Strip(line), 9).value.0[7] != "-"
    ensures ParseLine(line) == None
  {
  }

  /** The entry of a formatted line is built from its groups: the client,
      method, status and byte count are carried over, a `CONNECT` target
      gains `https://`, and the timestamp is the whole seconds shifted to
      local time. */
  lemma {:induction false} ParseFormatted(raw: RawLine)
    requires WellFormed(raw) && !IsSpace(raw.mimeType[|raw.mimeType| - 1])
    requires DigitsValue(raw.tsWhole) + ReportOffset < MaxLocalSeconds
    ensures var r := ParseLine(FormatLine(raw));
      && r.Some?
      && r.value.timestamp == DigitsValue(raw.tsWhole) + ReportOffset
      && r.value.clientAddress == raw.clientAddress
      && r.value.requestMethod == raw.requestMethod
      && r.value.url == RequestUrl(raw.requestMethod, raw.url)
      && r.value.resultCode == DigitsValue(raw.status)
      && r.value.bytes == DigitsValue(raw.bytes)
      && r.value.mimeType == raw.mimeType
      && r.value.cacheResult == raw.cacheResult
      && r.value.server == raw.server
  {
    var line := FormatLine(raw);
    var toks := FormatToks(raw);
    FormatRoundTrip(raw);
    StripStripped(line);
    FormatTokens(raw);
    FormatSplitsBack(raw);
    FieldsOfLine(toks, raw.mimeType);
    assert Fields(Strip(line), 9) == Some((toks, raw.mimeType));
    BeforeAbsent(raw.mimeType, '\n');
    ParseLineAccepts(line);
    ParseLineFields(line);
  }

  /** Fields separated by the given runs of whitespace, as Squid's native
      format pads its columns (`%6tr` for the elapsed time). */
  function Padded(toks: seq<string>, gaps: seq<string>, tail: string): string
    requires |gaps| == |toks|
  {
    if toks == [] then tail else toks[0] + gaps[0] + Padded(toks[1..], gaps[1..], tail)
  }

  lemma {:induction false} FieldOfPadded(t: string, g: string, rest: string)
    requires IsToken(t) && Gap(g) && |rest| > 0 && !IsSpace(rest[0])
    ensures Field(t + g + rest) == Some((t, rest))
  {
    var s := t + g + rest;
    assert s == t + (g + rest);
    LeadingNonSpacesAppend(t, g + rest);
    assert LeadingNonSpaces(g + rest) == 0;
    assert s[|t|..] == g + rest;
    LeadingSpacesAppend(g, rest);
    assert s[..|t|] == t;
    assert s[|t| + |g|..] == rest;
  }

  lemma {:induction false} PaddedEnds(toks: seq<string>, gaps: seq<string>, tail: string)
    requires |gaps| == |toks|
    requires forall i :: 0 <= i < |toks| ==> IsToken(toks[i])
    requires |tail| > 0 && !IsSpace(tail[0])
    ensures |Padded(toks, gaps, tail)| > 0
    ensures !IsSpace(Padded(toks, gaps, tail)[0])
    ensures Padded(toks, gaps, tail)[|Padded(toks, gaps, tail)| - 1] == tail[|tail| - 1]
    decreases |toks|
  {
    if toks != [] {
      PaddedEnds(toks[1..], gaps[1..], tail);
    }
  }

  lemma {:induction false} FieldsOfPadded(toks: seq<string>, gaps: seq<string>, tail: string)
    requires |gaps| == |toks|
    requires forall i :: 0 <= i < |toks| ==> IsToken(toks[i])
    requires forall i :: 0 <= i < |gaps| ==> Gap(gaps[i])
    requires |tail| > 0 && !IsSpace(tail[0])
    ensures Fields(Padded(toks, gaps, tail), |toks|) == Some((toks, tail))
    decreases |toks|
  {
    if toks != [] {
      var rest := Padded(toks[1..], gaps[1..], tail);
      assert Padded(toks, gaps, tail) == toks[0] + gaps[0] + rest;
      assert IsToken(toks[0]) && Gap(gaps[0]);
      assert Fields(toks[0] + gaps[0] + rest, |toks|) == Some(([toks[0]] + toks[1..], tail)) by {
        FieldsOfPadded(toks[1..], gaps[1..], tail);
        PaddedEnds(toks[1..], gaps[1..], tail);
        FieldOfPadded(toks[0], gaps[0], rest);
      }
      assert [toks[0]] + toks[1..] == toks;
    }
  }

  /** Padding does not matter: a line whose columns are separated by runs
      of whitespace of any length parses to the entry of the single-spaced
      line. */
  lemma {:induction false} ParsePadded(raw: RawLine, gaps: seq<string>)
    requires WellFormed(raw) && !IsSpace(raw.mimeType[|raw.mimeType| - 1])
    requires |gaps| == 9 && forall i :: 0 <= i < 9 ==> Gap(gaps[i])
    ensures ParseLine(Padded(FormatToks(raw), gaps, raw.mimeType)) == ParseLine(FormatLine(raw))
  {
    var toks := FormatToks(raw);
    var padded := Padded(toks, gaps, raw.mimeType);
    FormatTokens(raw);
    FieldsOfPadded(toks, gaps, raw.mimeType);
    PaddedEnds(toks, gaps, raw.mimeType);
    StripStripped(padded);
    FormatRoundTrip(raw);
    StripStripped(FormatLine(raw));
    FieldsOfLine(toks, raw.mimeType);
    SameFieldsSameEntry(padded, FormatLine(raw));
  }

  /** Two lines with the same fields and the same rest parse alike. */
  lemma SameFieldsSameEntry(a: string, b: string)
    requires Fields(Strip(a), 9) == Fields(Strip(b), 9)
    ensures ParseLine(a) == ParseLine(b)
  {
    ParseLineAccepts(a);
    ParseLineAccepts(b);
    if ParseLine(a).Some? {
      ParseLineFields(a);
      ParseLineFields(b);
    }
  }
}

=== FILE: queries.dfy ===
/** The log reader's queries over the whole file: the traffic statistics of
    `get_traffic_stats`, the activity table of `get_active_users` and the
    connections of one client from `get_user_connections`.  The clock is a
    parameter `now`, in local seconds. */
module Queries {
  import opened Wrappers
  import opened Seqs
  import opened Entries
  import opened Sorting
  import opened Tally
  import opened Urls
  import opened Clients
  import opened TailReader

  /** The dictionary `get_traffic_stats` returns; every sub-dictionary is a
      sequence of rows in key insertion order.  Status and domain rows are
      only counted, so their traffic is zero. */
  datatype Stats = Stats(
    totalRequests: nat,
    totalBytes: nat,
    hourly: seq<Row<int>>,
    daily: seq<Row<int>>,
    monthly: seq<Row<int>>,
    statusCodes: seq<Row<nat>>,
    users: seq<Row<string>>,
    domains: seq<Row<string>>)

  const NoStats := Stats(0, 0, [], [], [], [], [], [])

  function Hour(e: Entry): int {
    HourKey(e.timestamp)
  }

  function Day(e: Entry): int {
    DayKey(e.timestamp)
  }

  function Month(e: Entry): int {
    MonthKey(e.timestamp)
  }

  function Status(e: Entry): nat {
    e.resultCode
  }

  /** The counted domain of an entry, empty when there is none. */
  function Domain(e: Entry): string {
    StatsDomain(e).GetOr([])
  }

  function HasDomain(): Entry -> bool {
    (e: Entry) => StatsDomain(e).Some?
  }

  /** One iteration of the loop: the hours window feeds the totals, hours,
      status codes, users and domains; the month window feeds the days and
      months. */
  function Step(st: Stats, e: Entry, limit: int, monthLimit: int): Stats {
    var st1 :=
      if e.timestamp >= limit then
        st.(totalRequests := st.totalRequests + 1,
            totalBytes := st.totalBytes + e.bytes,
            hourly := Add(st.hourly, Hour(e), e.bytes),
            statusCodes := Add(st.statusCodes, Status(e), 0),
            users := Add(st.users, Address(e), e.bytes),
            domains := match StatsDomain(e)
              case Some(d) => Add(st.domains, d, 0)
              case None => st.domains)
      else st;
    if e.timestamp >= monthLimit then
      st1.(daily := Add(st1.daily, Day(e), e.bytes),
           monthly := Add(st1.monthly, Month(e), e.bytes))
    else st1
  }

  /** The loop of `get_traffic_stats`, before the sort. */
  function Collect(es: seq<Entry>, limit: int, monthLimit: int): Stats {
    if es == [] then NoStats
    else Step(Collect(es[..|es| - 1], limit, monthLimit), es[|es| - 1], limit, monthLimit)
  }

  /** The reference: every table grouped from its own window. */
  function Grouped(es: seq<Entry>, limit: int, monthLimit: int): Stats {
    var w := Since(es, limit);
    var m := Since(es, monthLimit);
    Stats(|w|, SumBytes(w),
          Group(w, Hour, EntryBytes),
          Group(m, Day, EntryBytes),
          Group(m, Month, EntryBytes),
          Group(w, Status, NoSize),
          Group(w, Address, EntryBytes),
          Group(Filter(w, HasDomain()), Domain, NoSize))
  }

  /** The last element of a grouped sequence is added to the groups of the
      rest. */
  lemma {:induction false} GroupSnoc<T, K>(xs: seq<T>, x: T, keyOf: T -> K, size: T -> nat)
    ensures Group(xs + [x], keyOf, size) == Add(Group(xs, keyOf, size), keyOf(x), size(x))
  {
    assert (xs + [x])[..|xs|] == xs;
  }

  lemma {:induction false} WindowStep(es: seq<Entry>, e: Entry, limit: int)
    ensures e.timestamp >= limit ==> Since(es + [e], limit) == Since(es, limit) + [e]
    ensures e.timestamp < limit ==> Since(es + [e], limit) == Since(es, limit)
  {
    FilterSnoc(es, e, AtOrAfter(limit));
  }

  /** The single pass with its two window tests computes exactly the
      tables grouped from the two windows separately. */
  lemma {:induction false} CollectIsGrouped(es: seq<Entry>, limit: int, monthLimit: int)
    ensures Collect(es, limit, monthLimit) == Grouped(es, limit, monthLimit)
  {
    CollectWindow(es, limit, monthLimit);
    CollectDomains(es, limit, monthLimit);
    CollectMonth(es, limit, monthLimit);
    SameStats(Collect(es, limit, monthLimit), Grouped(es, limit, monthLimit));
  }

  lemma CollectWindow(es: seq<Entry>, limit: int, monthLimit: int)
    ensures var st, w := Collect(es, limit, monthLimit), Since(es, limit);
      && st.totalRequests == |w| && st.totalBytes == SumBytes(w)
      && st.hourly == Group(w, Hour, EntryBytes)
      && st.statusCodes == Group(w, Status, NoSize)
      && st.users == Group(w, Address, EntryBytes)
  {
    CollectTotals(es, limit, monthLimit);
    CollectTables(es, limit, monthLimit);
  }

  lemma {:induction false} CollectTotals(es: seq<Entry>, limit: int, monthLimit: int)
    ensures var st, w := Collect(es, limit, monthLimit), Since(es, limit);
      st.totalRequests == |w| && st.totalBytes == SumBytes(w)
    decreases |es|
  {
    if es != [] {
      var init, e := es[..|es| - 1], es[|es| - 1];
      assert es == init + [e];
      CollectTotals(init, limit, monthLimit);
      var st, w := Collect(init, limit, monthLimit), Since(init, limit);
      StepFields(st, e, limit, monthLimit);
      WindowStep(init, e, limit);
      if e.timestamp >= limit {
        SumOfSnoc(w, e, EntryBytes);
      }
    }
  }

  lemma {:induction false} CollectTables(es: seq<Entry>, limit: int, monthLimit: int)
    ensures var st, w := Collect(es, limit, monthLimit), Since(es, limit);
      && st.hourly == Group(w, Hour, EntryBytes)
      && st.statusCodes == Group(w, Status, NoSize)
      && st.users == Group(w, Address, EntryBytes)
    decreases |es|
  {
    if es != [] {
      var init, e := es[..|es| - 1], es[|es| - 1];
      assert es == init + [e];
      CollectTables(init, limit, monthLimit);
      var st, w := Collect(init, limit, monthLimit), Since(init, limit);
      StepFields(st, e, limit, monthLimit);
      WindowStep(init, e, limit);
      if e.timestamp >= limit {
        GroupSnoc(w, e, Hour, EntryBytes);
        GroupSnoc(w, e, Status, NoSize);
        GroupSnoc(w, e, Address, EntryBytes);
      }
    }
  }

  lemma {:induction false} CollectDomains(es: seq<Entry>, limit: int, monthLimit: int)
    ensures Collect(es, limit, monthLimit).domains == Group(Filter(Since(es, limit), HasDomain()), Domain, NoSize)
    decreases |es|
  {
    if es != [] {
      var init, e := es[..|es| - 1], es[|es| - 1];
      assert es == init + [e];
      CollectDomains(init, limit, monthLimit);
      var st, w := Collect(init, limit, monthLimit), Since(init, limit);
      StepFields(st, e, limit, monthLimit);
      WindowStep(init, e, limit);
      var d := Filter(w, HasDomain());
      if e.timestamp >= limit {
        FilterSnoc(w, e, HasDomain());
        if StatsDomain(e).Some? {
          assert Filter(Since(es, limit), HasDomain()) == d + [e];
          GroupSnoc(d, e, Domain, NoSize);
          assert Group(d + [e], Domain, NoSize) == Add(Group(d, Domain, NoSize), Domain(e), 0);
        } else {
          assert Filter(Since(es, limit), HasDomain()) == d;
        }
      }
    }
  }

  lemma {:induction false} CollectMonth(es: seq<Entry>, limit: int, monthLimit: int)
    ensures var st, m := Collect(es, limit, monthLimit), Since(es, monthLimit);
      st.daily == Group(m, Day, EntryBytes) && st.monthly == Group(m, Month, EntryBytes)
    decreases |es|
  {
    if es != [] {
      var init, e := es[..|es| - 1], es[|es| - 1];
      assert es == init + [e];
      CollectMonth(init, limit, monthLimit);
      var st, m := Collect(init, limit, monthLimit), Since(init, monthLimit);
      StepFields(st, e, limit, monthLimit);
      WindowStep(init, e, monthLimit);
      if e.timestamp >= monthLimit {
        GroupSnoc(m, e, Day, EntryBytes);
        GroupSnoc(m, e, Month, EntryBytes);
      }
    }
  }

  lemma {:induction false} SameStats(a: Stats, b: Stats)
    requires a.totalRequests == b.totalRequests && a.totalBytes == b.totalBytes
    requires a.hourly == b.hourly && a.daily == b.daily && a.monthly == b.monthly
    requires a.statusCodes == b.statusCodes && a.users == b.users && a.domains == b.domains
    ensures a == b
  {
  }

  /** What one step does to each field, spelled out. */
  lemma {:induction false} StepFields(st: Stats, e: Entry, limit: int, monthLimit: int)
    ensures var r := Step(st, e, limit, monthLimit);
      && r.totalRequests == st.totalRequests + (if e.timestamp >= limit then 1 else 0)
      && r.totalBytes == st.totalBytes + (if e.timestamp >= limit then e.bytes else 0)
      && r.hourly == (if e.timestamp >= limit then Add(st.hourly, Hour(e), e.bytes) else st.hourly)
      && r.statusCodes == (if e.timestamp >= limit then Add(st.statusCodes, Status(e), 0) else st.statusCodes)
      && r.users == (if e.timestamp >= limit then Add(st.users, Address(e), e.bytes) else st.users)
      && r.domains == (if e.timestamp >= limit && StatsDomain(e).Some?
                       then Add(st.domains, Domain(e), 0) else st.domains)
      && r.daily == (if e.timestamp >= monthLimit then Add(st.daily, Day(e), e.bytes) else st.daily)
      && r.monthly == (if e.timestamp >= monthLimit then Add(st.monthly, Month(e), e.bytes) else st.monthly)
  {
  }

  /** The three time tables sorted by their keys, as after
      `dict(sorted(...items()))`. */
  function SortTimes(st: Stats): Stats {
    st.(hourly := SortBy(st.hourly, RowKey),
        daily := SortBy(st.daily, RowKey),
        monthly := SortBy(st.monthly, RowKey))
  }

  /** `get_traffic_stats(hours)` over the entries of the whole log. */
  function TrafficStats(file: LogFile, now: int, hours: int): Stats {
    var limit := now - hours * HourSeconds;
    SortTimes(Collect(GetLastLines(file, 0), limit, now - MonthWindow))
  }

  /** The totals agree with every table of the hours window: the request
      total is the sum of the hourly, status-code and user counts, the byte
      total the sum of the hourly and user bytes, and the domains count at
      most every request.  The day and month tables both add up to the
      month window. */
  lemma StatsTotals(es: seq<Entry>, limit: int, monthLimit: int)
    ensures var st := SortTimes(Collect(es, limit, monthLimit));
      && st.totalRequests == |Since(es, limit)|
      && st.totalBytes == SumBytes(Since(es, limit))
      && SumOf(st.hourly, RowRequests) == st.totalRequests
      && SumOf(st.statusCodes, RowRequests) == st.totalRequests
      && SumOf(st.users, RowRequests) == st.totalRequests
      && SumOf(st.domains, RowRequests) <= st.totalRequests
      && SumOf(st.hourly, RowTraffic) == st.totalBytes
      && SumOf(st.users, RowTraffic) == st.totalBytes
      && SumOf(st.daily, RowRequests) == SumOf(st.monthly, RowRequests) == |Since(es, monthLimit)|
      && SumOf(st.daily, RowTraffic) == SumOf(st.monthly, RowTraffic) == SumBytes(Since(es, monthLimit))
  {
    CollectIsGrouped(es, limit, monthLimit);
    var g := Grouped(es, limit, monthLimit);
    var w, m := Since(es, limit), Since(es, monthLimit);
    GroupTotals(w, Hour, EntryBytes);
    GroupTotals(w, Status, NoSize);
    GroupTotals(w, Address, EntryBytes);
    GroupTotals(Filter(w, HasDomain()), Domain, NoSize);
    GroupTotals(m, Day, EntryBytes);
    GroupTotals(m, Month, EntryBytes);
    SortBySum(g.hourly, RowKey, RowRequests);
    SortBySum(g.hourly, RowKey, RowTraffic);
    SortBySum(g.daily, RowKey, RowRequests);
    SortBySum(g.daily, RowKey, RowTraffic);
    SortBySum(g.monthly, RowKey, RowRequests);
    SortBySum(g.monthly, RowKey, RowTraffic);
  }

  /** The time tables come out in ascending key order. */
  lemma StatsSorted(es: seq<Entry>, limit: int, monthLimit: int)
    ensures var st := SortTimes(Collect(es, limit, monthLimit));
      SortedBy(st.hourly, RowKey) && SortedBy(st.daily, RowKey) && SortedBy(st.monthly, RowKey)
  {
    var st := Collect(es, limit, monthLimit);
    SortBySorted(st.hourly, RowKey);
    SortBySorted(st.daily, RowKey);
    SortBySorted(st.monthly, RowKey);
  }

  /** Each hourly row counts the requests and bytes of its hour inside the
      window. */
  lemma StatsHourly(es: seq<Entry>, limit: int, monthLimit: int)
    ensures var rows := SortTimes(Collect(es, limit, monthLimit)).hourly;
      forall i :: 0 <= i < |rows| ==>
        rows[i].requests == CountOf(Since(es, limit), Hour, rows[i].key) > 0
        && rows[i].traffic == SizeOf(Since(es, limit), Hour, EntryBytes, rows[i].key)
  {
    var w := Since(es, limit);
    var st := Collect(es, limit, monthLimit);
    CollectWindow(es, limit, monthLimit);
    var rows := SortBy(st.hourly, RowKey);
    assert SortTimes(st).hourly == rows;
    assert rows == SortBy(Group(w, Hour, EntryBytes), RowKey);
    forall i | 0 <= i < |rows|
      ensures rows[i].requests == CountOf(w, Hour, rows[i].key) > 0
      ensures rows[i].traffic == SizeOf(w, Hour, EntryBytes, rows[i].key)
    {
      SortedRow(w, Hour, i);
    }
  }

  /** Each row of the sorted grouping is a row of the grouping. */
  lemma SortedRow(w: seq<Entry>, keyOf: Entry -> int, i: nat)
    requires i < |SortBy(Group(w, keyOf, EntryBytes), RowKey)|
    ensures var row := SortBy(Group(w, keyOf, EntryBytes), RowKey)[i];
      row.requests == CountOf(w, keyOf, row.key) > 0
      && row.traffic == SizeOf(w, keyOf, EntryBytes, row.key)
  {
    var g := Group(w, keyOf, EntryBytes);
    var rows := SortBy(g, RowKey);
    SortByPermutation(g, RowKey);
    assert rows[i] in multiset(g);
    var j :| 0 <= j < |g| && g[j] == rows[i];
    GroupRows(w, keyOf, EntryBytes, j);
  }

  /** A domain is counted once per request in the window that names it. */
  lemma StatsDomains(es: seq<Entry>, limit: int, monthLimit: int, i: nat)
    requires i < |Collect(es, limit, monthLimit).domains|
    ensures var row := Collect(es, limit, monthLimit).domains[i];
      && row.key != []
      && row.requests == |Filter(Since(es, limit), DomainIs(row.key))|
  {
    CollectIsGrouped(es, limit, monthLimit);
    DomainRows(Since(es, limit), i);
  }

  lemma DomainRows(w: seq<Entry>, i: nat)
    requires i < |Group(Filter(w, HasDomain()), Domain, NoSize)|
    ensures var row := Group(Filter(w, HasDomain()), Domain, NoSize)[i];
      && row.key != []
      && row.requests == |Filter(w, DomainIs(row.key))|
  {
    var d := Filter(w, HasDomain());
    var row := Group(d, Domain, NoSize)[i];
    GroupRows(d, Domain, NoSize, i);
    FilterNarrow(w, DomainIs(row.key), HasDomain());
    FilterSame(d, Matches(Domain, row.key), DomainIs(row.key));
    var j :| 0 <= j < |d| && Domain(d[j]) == row.key;
    assert StatsDomain(d[j]).Some?;
  }

  /** The entries whose counted domain is `name`. */
  function DomainIs(name: string): Entry -> bool {
    (e: Entry) => StatsDomain(e) == Some(name)
  }

  /** Filters by predicates that agree on the elements are equal. */
  lemma {:induction false} FilterSame(s: seq<Entry>, p: Entry -> bool, q: Entry -> bool)
    requires forall i :: 0 <= i < |s| ==> p(s[i]) == q(s[i])
    ensures Filter(s, p) == Filter(s, q)
    decreases |s|
  {
    if s != [] {
      FilterSame(s[..|s| - 1], p, q);
    }
  }

  /** `get_active_users(hours)` over the entries of the whole log. */
  function GetActiveUsers(file: LogFile, now: int, hours: int): seq<Activity> {
    ActiveUsers(GetLastLines(file, 0), now - hours * HourSeconds)
  }

  /** The number of connections collected before the loop stops: the check
      `len(connections) >= limit` runs after an append, so at least one. */
  function Cap(limit: int): nat {
    if limit < 1 then 1 else limit
  }

  /** The loop of `get_user_connections`: the client's entries in order,
      stopping once `limit` of them are collected. */
  method UserConnections(es: seq<Entry>, ip: string, limit: int) returns (r: seq<Entry>)
    ensures r == Take(Filter(es, FromClient(ip)), Cap(limit))
    ensures |r| <= Cap(limit)
    ensures forall i :: 0 <= i < |r| ==> r[i].clientAddress == ip
  {
    var p := FromClient(ip);
    r := [];
    var i := 0;
    while i < |es|
      invariant 0 <= i <= |es|
      invariant r == Filter(es[..i], p)
      invariant |r| < Cap(limit)
      decreases |es| - i
    {
      FilterPrefixStep(es, i, p);
      if es[i].clientAddress == ip {
        r := r + [es[i]];
        if |r| >= limit {
          TakeFilterPrefix(es, i + 1, p, Cap(limit));
          return;
        }
      }
      i := i + 1;
    }
    assert es[..i] == es;
  }

  lemma {:induction false} FilterPrefixStep(es: seq<Entry>, i: nat, p: Entry -> bool)
    requires i < |es|
    ensures Filter(es[..i + 1], p) == Filter(es[..i], p) + (if p(es[i]) then [es[i]] else [])
  {
    assert es[..i + 1] == es[..i] + [es[i]];
    FilterSnoc(es[..i], es[i], p);
  }

  /** Once a prefix supplies `n` matches, the first `n` matches of the
      whole are those. */
  lemma {:induction false} TakeFilterPrefix(es: seq<Entry>, k: nat, p: Entry -> bool, n: nat)
    requires k <= |es| && |Filter(es[..k], p)| == n
    ensures Take(Filter(es, p), n) == Filter(es[..k], p)
  {
    assert es == es[..k] + es[k..];
    FilterAppend(es[..k], es[k..], p);
  }

  /** `get_user_connections(ip, limit)` over the entries of the whole log. */
  method GetUserConnections(file: LogFile, ip: string, limit: int) returns (r: seq<Entry>)
    ensures r == Take(Filter(GetLastLines(file, 0), FromClient(ip)), Cap(limit))
    ensures forall i :: 0 <= i < |r| ==> r[i].clientAddress == ip
    ensures SortedBy(r, Timestamp)
  {
    var es := GetLastLines(file, 0);
    r := UserConnections(es, ip, limit);
    FilterSorted(es, FromClient(ip), Timestamp);
  }
}

=== FILE: seqs.dfy ===
/** Order-preserving filters, sums, prefixes and suffixes over sequences:
    the list comprehensions, `sum(...)`, `s[:n]` and `s[-n:]` of the
    source. */
module Seqs {
  import opened Wrappers

  /** `[x for x in s if p(x)]`. */
  function Filter<T>(s: seq<T>, p: T -> bool): (r: seq<T>)
    ensures |r| <= |s|
    ensures forall i :: 0 <= i < |r| ==> p(r[i]) && r[i] in s
    ensures forall x :: x in s && p(x) ==> x in r
  {
    if s == [] then []
    else Filter(s[..|s| - 1], p) + (if p(s[|s| - 1]) then [s[|s| - 1]] else [])
  }

  lemma {:induction false} FilterAppend<T>(a: seq<T>, b: seq<T>, p: T -> bool)
    ensures Filter(a + b, p) == Filter(a, p) + Filter(b, p)
    decreases |b|
  {
    if b == [] {
      assert a + b == a;
    } else {
      var b' := b[..|b| - 1];
      assert (a + b)[..|a + b| - 1] == a + b';
      FilterAppend(a, b', p);
    }
  }

  /** One more element at the end. */
  lemma {:induction false} FilterSnoc<T>(s: seq<T>, x: T, p: T -> bool)
    ensures Filter(s + [x], p) == Filter(s, p) + (if p(x) then [x] else [])
  {
    assert (s + [x])[..|s|] == s;
  }

  /** Filtering keeps a multiset of the input. */
  lemma {:induction false} FilterMultiset<T>(s: seq<T>, p: T -> bool)
    ensures multiset(Filter(s, p)) <= multiset(s)
    decreases |s|
  {
    if s != [] {
      FilterMultiset(s[..|s| - 1], p);
      assert s == s[..|s| - 1] + [s[|s| - 1]];
    }
  }

  /** A filter that rejects nothing is the identity. */
  lemma {:induction false} FilterKeepsAll<T>(s: seq<T>, p: T -> bool)
    requires forall i :: 0 <= i < |s| ==> p(s[i])
    ensures Filter(s, p) == s
    decreases |s|
  {
    if s != [] {
      var init := s[..|s| - 1];
      var x := s[|s| - 1];
      assert forall i :: 0 <= i < |init| ==> init[i] == s[i];
      FilterKeepsAll(init, p);
      assert p(x);
      assert Filter(s, p) == Filter(init, p) + [x];
      assert init + [x] == s;
    }
  }

  /** Filtering by a stronger predicate after a weaker one is filtering by
      the stronger one alone. */
  lemma {:induction false} FilterNarrow<T>(s: seq<T>, strong: T -> bool, weak: T -> bool)
    requires forall i :: 0 <= i < |s| && strong(s[i]) ==> weak(s[i])
    ensures Filter(Filter(s, weak), strong) == Filter(s, strong)
    decreases |s|
  {
    if s != [] {
      var init := s[..|s| - 1];
      var x := s[|s| - 1];
      FilterNarrow(init, strong, weak);
      var tail := if weak(x) then [x] else [];
      FilterAppend(Filter(init, weak), tail, strong);
      if weak(x) {
        assert Filter(tail, strong) == Filter([], strong) + (if strong(x) then [x] else []);
      }
    }
  }

  /** `a` occurs in `b` in order, possibly with gaps. */
  ghost predicate IsSubsequence<T>(a: seq<T>, b: seq<T>)
    decreases |b|
  {
    if a == [] then true
    else if b == [] then false
    else if a[|a| - 1] == b[|b| - 1] then IsSubsequence(a[..|a| - 1], b[..|b| - 1])
    else IsSubsequence(a, b[..|b| - 1])
  }

  lemma {:induction false} FilterIsSubsequence<T>(s: seq<T>, p: T -> bool)
    ensures IsSubsequence(Filter(s, p), s)
    decreases |s|
  {
    if s != [] {
      var init := s[..|s| - 1];
      FilterIsSubsequence(init, p);
      if p(s[|s| - 1]) {
        assert Filter(s, p)[..|Filter(s, p)| - 1] == Filter(init, p);
      } else {
        assert Filter(s, p) == Filter(init, p);
        SubsequenceExtend(Filter(init, p), init, s[|s| - 1]);
        assert init + [s[|s| - 1]] == s;
        assert IsSubsequence(Filter(init, p), s);
      }
    }
  }

  lemma {:induction false} SubsequenceExtend<T>(a: seq<T>, b: seq<T>, x: T)
    requires IsSubsequence(a, b)
    ensures IsSubsequence(a, b + [x])
    decreases |b|, 1
  {
    if a != [] {
      assert (b + [x])[..|b|] == b;
      if a[|a| - 1] == x {
        SubsequenceDrop(a, b);
      }
    }
  }

  lemma {:induction false} SubsequenceDrop<T>(a: seq<T>, b: seq<T>)
    requires a != [] && IsSubsequence(a, b)
    ensures IsSubsequence(a[..|a| - 1], b)
    decreases |b|, 0
  {
    var a' := a[..|a| - 1];
    if a[|a| - 1] == b[|b| - 1] {
      if a' != [] {
        SubsequenceExtend(a', b[..|b| - 1], b[|b| - 1]);
        assert b[..|b| - 1] + [b[|b| - 1]] == b;
      }
    } else {
      SubsequenceDrop(a, b[..|b| - 1]);
      if a' != [] {
        SubsequenceExtend(a', b[..|b| - 1], b[|b| - 1]);
        assert b[..|b| - 1] + [b[|b| - 1]] == b;
      }
    }
  }

  /** `sum(f(x) for x in s)`. */
  function SumOf<T>(s: seq<T>, f: T -> nat): nat {
    if s == [] then 0 else SumOf(s[..|s| - 1], f) + f(s[|s| - 1])
  }

  lemma {:induction false} SumOfAppend<T>(a: seq<T>, b: seq<T>, f: T -> nat)
    ensures SumOf(a + b, f) == SumOf(a, f) + SumOf(b, f)
    decreases |b|
  {
    if b == [] {
      assert a + b == a;
    } else {
      assert (a + b)[..|a + b| - 1] == a + b[..|b| - 1];
      SumOfAppend(a, b[..|b| - 1], f);
    }
  }

  lemma {:induction false} SumOfSnoc<T>(s: seq<T>, x: T, f: T -> nat)
    ensures SumOf(s + [x], f) == SumOf(s, f) + f(x)
  {
    assert (s + [x])[..|s|] == s;
  }

  /** A filtered sum never exceeds the whole sum. */
  lemma {:induction false} SumOfFilter<T>(s: seq<T>, p: T -> bool, f: T -> nat)
    ensures SumOf(Filter(s, p), f) <= SumOf(s, f)
    decreases |s|
  {
    if s != [] {
      var init := s[..|s| - 1];
      SumOfFilter(init, p, f);
      var tail := if p(s[|s| - 1]) then [s[|s| - 1]] else [];
      SumOfAppend(Filter(init, p), tail, f);
      assert SumOf(tail, f) <= f(s[|s| - 1]) by {
        if tail != [] {
          assert tail[..0] == [];
        }
      }
    }
  }

  /** `s[:n]` for a count `n`. */
  function Take<T>(s: seq<T>, n: nat): (r: seq<T>)
    ensures |r| == if n < |s| then n else |s|
    ensures r == s[..|r|]
  {
    if n < |s| then s[..n] else s
  }

  /** `s[-n:]` for `n > 0`: the last `n` elements, or all of them. */
  function LastN<T>(s: seq<T>, n: nat): (r: seq<T>)
    ensures |r| == if n < |s| then n else |s|
    ensures r == s[|s| - |r|..]
  {
    if n < |s| then s[|s| - n..] else s
  }

  /** The values `f` yields on the elements of `s`, in order, skipping
      those it has none for. */
  function Somes<A, B>(s: seq<A>, f: A -> Option<B>): seq<B> {
    if s == [] then [] else SomeOf(f(s[0])) + Somes(s[1..], f)
  }

  /** The value of an option as a list of at most one element. */
  function SomeOf<B>(o: Option<B>): (r: seq<B>)
    ensures |r| <= 1
    ensures r == [] <==> o.None?
    ensures r != [] ==> r[0] == o.value
  {
    match o
    case Some(v) => [v]
    case None => []
  }

  /** Each element is mapped on its own and in order. */
  lemma {:induction false} SomesAppend<A, B>(a: seq<A>, b: seq<A>, f: A -> Option<B>)
    ensures Somes(a + b, f) == Somes(a, f) + Somes(b, f)
    decreases |a|
  {
    if a == [] {
      assert a + b == b;
    } else {
      assert (a + b)[0] == a[0];
      assert (a + b)[1..] == a[1..] + b;
      SomesAppend(a[1..], b, f);
    }
  }

  /** A single element yields its own value or nothing. */
  lemma SomesOne<A, B>(x: A, f: A -> Option<B>)
    ensures Somes([x], f) == SomeOf(f(x))
  {
    assert [x][1..] == [];
  }

  /** Some element of `s` yields `y`. */
  ghost predicate Yields<A, B>(s: seq<A>, f: A -> Option<B>, y: B) {
    exists j :: 0 <= j < |s| && f(s[j]) == Some(y)
  }

  /** Each element yields at most one value. */
  lemma {:induction false} SomesLength<A, B>(s: seq<A>, f: A -> Option<B>)
    ensures |Somes(s, f)| <= |s|
    decreases |s|
  {
    if s != [] {
      SomesLength(s[1..], f);
    }
  }

  /** Every value kept is yielded by some element. */
  lemma {:induction false} SomesFrom<A, B>(s: seq<A>, f: A -> Option<B>)
    ensures forall i :: 0 <= i < |Somes(s, f)| ==> Yields(s, f, Somes(s, f)[i])
    decreases |s|
  {
    if s != [] {
      var head := SomeOf(f(s[0]));
      var tail := Somes(s[1..], f);
      SomesFrom(s[1..], f);
      forall i | 0 <= i < |Somes(s, f)| ensures Yields(s, f, Somes(s, f)[i]) {
        if i < |head| {
          assert f(s[0]) == Some(Somes(s, f)[i]);
        } else {
          var y := tail[i - |head|];
          assert Somes(s, f)[i] == y;
          var j :| 0 <= j < |s[1..]| && f(s[1..][j]) == Some(y);
          assert s[1..][j] == s[j + 1];
        }
      }
    }
  }

  /** A property every yielded value has holds of every value kept. */
  lemma {:induction false} SomesKeep<A, B>(s: seq<A>, f: A -> Option<B>, p: B -> bool)
    requires forall j :: 0 <= j < |s| && f(s[j]).Some? ==> p(f(s[j]).value)
    ensures forall i :: 0 <= i < |Somes(s, f)| ==> p(Somes(s, f)[i])
    decreases |s|
  {
    if s != [] {
      var head := SomeOf(f(s[0]));
      var tail := Somes(s[1..], f);
      assert forall j :: 0 <= j < |s[1..]| ==> s[1..][j] == s[j + 1];
      SomesKeep(s[1..], f, p);
      forall i | 0 <= i < |Somes(s, f)| ensures p(Somes(s, f)[i]) {
        if i < |head| {
          assert Somes(s, f)[i] == f(s[0]).value;
        } else {
          assert Somes(s, f)[i] == tail[i - |head|];
        }
      }
    }
  }
}

=== FILE: sorting.dfy ===
/** Python's `list.sort(key=...)` and `sorted(..., key=...)`: a stable
    sort by an integer key, written as insertion sort on sequences.  The
    descending variant (`reverse=True`) is the same sort on the negated
    key, which keeps equal elements in their original order exactly as
    Python does. */
module Sorting {
  import opened Seqs

  /** Keys never decrease from left to right. */
  predicate SortedBy<T>(s: seq<T>, key: T -> int) {
    forall i, j :: 0 <= i < j < |s| ==> key(s[i]) <= key(s[j])
  }

  /** Every key is at most `b`. */
  predicate KeysAtMost<T>(s: seq<T>, key: T -> int, b: int) {
    forall i :: 0 <= i < |s| ==> key(s[i]) <= b
  }

  /** The elements whose key is `c`. */
  function HasKey<T>(key: T -> int, c: int): T -> bool {
    (x: T) => key(x) == c
  }

  /** `lambda x: -key(x)`: what `reverse=True` amounts to. */
  function Negated<T>(key: T -> int): T -> int {
    (x: T) => -key(x)
  }

  /** `x` placed after every element whose key is not greater than its
      own. */
  function Insert<T>(s: seq<T>, x: T, key: T -> int): (r: seq<T>)
    ensures |r| == |s| + 1
    decreases |s|
  {
    if s == [] || key(s[|s| - 1]) <= key(x) then s + [x]
    else Insert(s[..|s| - 1], x, key) + [s[|s| - 1]]
  }

  /** The stable sort of `s` by `key`. */
  function SortBy<T>(s: seq<T>, key: T -> int): (r: seq<T>)
    ensures |r| == |s|
  {
    if s == [] then [] else Insert(SortBy(s[..|s| - 1], key), s[|s| - 1], key)
  }

  /** `sorted(s, key=key, reverse=True)`. */
  function SortDescending<T>(s: seq<T>, key: T -> int): (r: seq<T>)
    ensures |r| == |s|
  {
    SortBy(s, Negated(key))
  }

  lemma {:induction false} InsertMultiset<T>(s: seq<T>, x: T, key: T -> int)
    ensures multiset(Insert(s, x, key)) == multiset(s) + multiset{x}
    decreases |s|
  {
    if s != [] && key(s[|s| - 1]) > key(x) {
      InsertMultiset(s[..|s| - 1], x, key);
      assert s == s[..|s| - 1] + [s[|s| - 1]];
    }
  }

  lemma {:induction false} InsertKeysAtMost<T>(s: seq<T>, x: T, key: T -> int, b: int)
    requires KeysAtMost(s, key, b) && key(x) <= b
    ensures KeysAtMost(Insert(s, x, key), key, b)
  {
    InsertMultiset(s, x, key);
    var r := Insert(s, x, key);
    forall i | 0 <= i < |r| ensures key(r[i]) <= b {
      assert r[i] in multiset(r);
      if r[i] != x {
        assert r[i] in multiset(s);
        var j :| 0 <= j < |s| && s[j] == r[i];
      }
    }
  }

  lemma {:induction false} InsertSorted<T>(s: seq<T>, x: T, key: T -> int)
    requires SortedBy(s, key)
    ensures SortedBy(Insert(s, x, key), key)
    decreases |s|
  {
    if s != [] && key(s[|s| - 1]) > key(x) {
      var init := s[..|s| - 1];
      var last := s[|s| - 1];
      InsertSorted(init, x, key);
      assert KeysAtMost(init, key, key(last));
      InsertKeysAtMost(init, x, key, key(last));
    }
  }

  /** For every key, the elements carrying it keep their relative order:
      the insertion goes after the equal keys already placed. */
  lemma {:induction false} InsertStable<T>(s: seq<T>, x: T, key: T -> int, c: int)
    ensures Filter(Insert(s, x, key), HasKey(key, c))
         == Filter(s, HasKey(key, c)) + Filter([x], HasKey(key, c))
    decreases |s|
  {
    var p := HasKey(key, c);
    if s == [] || key(s[|s| - 1]) <= key(x) {
      FilterAppend(s, [x], p);
    } else {
      var init := s[..|s| - 1];
      var last := s[|s| - 1];
      assert Insert(s, x, key) == Insert(init, x, key) + [last];
      InsertStable(init, x, key, c);
      FilterAppend(Insert(init, x, key), [last], p);
      assert Filter(s, p) == Filter(init, p) + Filter([last], p) by {
        FilterAppend(init, [last], p);
        assert init + [last] == s;
      }
      OneKeyed(x, last, key, c);
      SwapEmpty(Filter(init, p), Filter([x], p), Filter([last], p));
    }
  }

  /** Of two elements with different keys, at most one carries `c`. */
  lemma OneKeyed<T>(x: T, y: T, key: T -> int, c: int)
    requires key(x) < key(y)
    ensures Filter([x], HasKey(key, c)) == [] || Filter([y], HasKey(key, c)) == []
  {
    var p := HasKey(key, c);
    assert Filter([x], p) == Filter([], p) + (if p(x) then [x] else []);
    assert Filter([y], p) == Filter([], p) + (if p(y) then [y] else []);
  }

  lemma SwapEmpty<T>(a: seq<T>, b: seq<T>, c: seq<T>)
    requires b == [] || c == []
    ensures a + b + c == a + c + b
  {
    if b == [] {
      assert a + b + c == a + c && a + c + b == a + c;
    } else {
      assert a + b + c == a + b && a + c + b == a + b;
    }
  }

  /** The output is ordered by key. */
  lemma {:induction false} SortBySorted<T>(s: seq<T>, key: T -> int)
    ensures SortedBy(SortBy(s, key), key)
    decreases |s|
  {
    if s != [] {
      SortBySorted(s[..|s| - 1], key);
      InsertSorted(SortBy(s[..|s| - 1], key), s[|s| - 1], key);
    }
  }

  /** The output is a rearrangement of the input. */
  lemma {:induction false} SortByPermutation<T>(s: seq<T>, key: T -> int)
    ensures multiset(SortBy(s, key)) == multiset(s)
    decreases |s|
  {
    if s != [] {
      SortByPermutation(s[..|s| - 1], key);
      InsertMultiset(SortBy(s[..|s| - 1], key), s[|s| - 1], key);
      assert s == s[..|s| - 1] + [s[|s| - 1]];
    }
  }

  lemma {:induction false} InsertSum<T>(s: seq<T>, x: T, key: T -> int, f: T -> nat)
    ensures SumOf(Insert(s, x, key), f) == SumOf(s, f) + f(x)
    decreases |s|
  {
    if s == [] || key(s[|s| - 1]) <= key(x) {
      SumOfSnoc(s, x, f);
    } else {
      var init, last := s[..|s| - 1], s[|s| - 1];
      InsertSum(init, x, key, f);
      SumOfSnoc(Insert(init, x, key), last, f);
      assert s == init + [last];
      SumOfSnoc(init, last, f);
    }
  }

  /** Sorting keeps every sum over the elements. */
  lemma {:induction false} SortBySum<T>(s: seq<T>, key: T -> int, f: T -> nat)
    ensures SumOf(SortBy(s, key), f) == SumOf(s, f)
    decreases |s|
  {
    if s != [] {
      var init, last := s[..|s| - 1], s[|s| - 1];
      SortBySum(init, key, f);
      InsertSum(SortBy(init, key), last, key, f);
      assert SortBy(s, key) == Insert(SortBy(init, key), last, key);
      assert SumOf(s, f) == SumOf(init, f) + f(last);
    }
  }

  /** Filtering a sorted sequence keeps it sorted. */
  lemma {:induction false} FilterSorted<T>(s: seq<T>, p: T -> bool, key: T -> int)
    requires SortedBy(s, key)
    ensures SortedBy(Filter(s, p), key)
    decreases |s|
  {
    if s != [] {
      var init, last := s[..|s| - 1], s[|s| - 1];
      FilterSorted(init, p, key);
      var f := Filter(init, p);
      forall i | 0 <= i < |f| ensures key(f[i]) <= key(last) {
        var k :| 0 <= k < |init| && init[k] == f[i];
      }
    }
  }

  /** Elements with equal keys appear in the output in input order. */
  lemma {:induction false} SortByStable<T>(s: seq<T>, key: T -> int, c: int)
    ensures Filter(SortBy(s, key), HasKey(key, c)) == Filter(s, HasKey(key, c))
    decreases |s|
  {
    if s != [] {
      var init := s[..|s| - 1];
      var last := s[|s| - 1];
      assert SortBy(s, key) == Insert(SortBy(init, key), last, key);
      SortByStable(init, key, c);
      InsertStable(SortBy(init, key), last, key, c);
      assert Filter(s, HasKey(key, c)) == Filter(init, HasKey(key, c)) + Filter([last], HasKey(key, c)) by {
        FilterAppend(init, [last], HasKey(key, c));
        assert init + [last] == s;
      }
    }
  }

  /** A descending sort puts larger keys first. */
  lemma {:induction false} SortDescendingOrdered<T>(s: seq<T>, key: T -> int)
    ensures var r := SortDescending(s, key);
      forall i, j :: 0 <= i < j < |r| ==> key(r[i]) >= key(r[j])
    ensures multiset(SortDescending(s, key)) == multiset(s)
  {
    SortBySorted(s, Negated(key));
    SortByPermutation(s, Negated(key));
    var r := SortDescending(s, key);
    forall i, j | 0 <= i < j < |r| ensures key(r[i]) >= key(r[j]) {
      assert Negated(key)(r[i]) <= Negated(key)(r[j]);
    }
  }

  /** `df.sort_values(key).tail(k)`: the `k` rows with the largest keys,
      smallest first. */
  function Top<T>(s: seq<T>, key: T -> int, k: nat): (r: seq<T>)
    ensures |r| == if k < |s| then k else |s|
  {
    LastN(SortBy(s, key), k)
  }

  /** The rows `Top` leaves out. */
  function Rest<T>(s: seq<T>, key: T -> int, k: nat): (r: seq<T>)
    ensures |r| + |Top(s, key, k)| == |s|
  {
    var t := SortBy(s, key);
    t[..|t| - |Top(s, key, k)|]
  }

  /** Cutting a sorted sequence leaves no key on the left above a key on
      the right. */
  lemma {:induction false} SortedCut<T>(t: seq<T>, key: T -> int, m: nat)
    requires SortedBy(t, key) && m <= |t|
    ensures forall i, j :: 0 <= i < m && 0 <= j < |t| - m ==> key(t[..m][i]) <= key(t[m..][j])
    ensures SortedBy(t[m..], key)
  {
    forall i, j | 0 <= i < m && 0 <= j < |t| - m ensures key(t[..m][i]) <= key(t[m..][j]) {
      assert t[..m][i] == t[i] && t[m..][j] == t[m + j];
    }
    forall i, j | 0 <= i < j < |t| - m ensures key(t[m..][i]) <= key(t[m..][j]) {
      assert t[m..][i] == t[m + i] && t[m..][j] == t[m + j];
    }
  }

  /** The selection and the rest split the input, and no row left out has
      a larger key than any row selected. */
  lemma {:induction false} TopSelectsLargest<T>(s: seq<T>, key: T -> int, k: nat)
    ensures multiset(Top(s, key, k)) + multiset(Rest(s, key, k)) == multiset(s)
    ensures var top, rest := Top(s, key, k), Rest(s, key, k);
      forall i, j :: 0 <= i < |rest| && 0 <= j < |top| ==> key(rest[i]) <= key(top[j])
    ensures SortedBy(Top(s, key, k), key)
  {
    var t := SortBy(s, key);
    var m := |t| - |Top(s, key, k)|;
    SortBySorted(s, key);
    SortByPermutation(s, key);
    assert Top(s, key, k) == t[m..] && Rest(s, key, k) == t[..m];
    assert t == t[..m] + t[m..];
    SortedCut(t, key, m);
    var top, rest := t[m..], t[..m];
    forall i, j | 0 <= i < |rest| && 0 <= j < |top| ensures key(rest[i]) <= key(top[j]) {
      assert key(t[..m][i]) <= key(t[m..][j]);
    }
  }
}

=== FILE: tail_reader.dfy ===
/** `SquidLogReader.get_last_lines`: read the log backwards in blocks of
    8192 characters, split every block into lines, glue a block's last
    line onto the first line already collected when the character just
    before the block is not a line break, stop once `n` lines are held
    (or at the start of the file when `n` is 0), keep the last `n` lines,
    parse the non-blank ones and sort the entries by time. */
module TailReader {
  import opened Wrappers
  import opened Seqs
  import opened Text
  import opened Entries
  import opened Parser
  import opened Sorting

  const BlockSize: nat := 8192

  /** The log file: its text, or an error raised by `open`/`seek`/`read`. */
  datatype LogFile = Unreadable | Readable(data: string)

  /** One `f.read(read_size)` at offset `offset`. */
  datatype Block = Block(offset: nat, size: nat)

  function End(b: Block): nat {
    b.offset + b.size
  }

  /** `min(chunk_size, file_position)`. */
  function ReadSize(pos: nat): nat {
    if pos < BlockSize then pos else BlockSize
  }

  /** The loop condition apart from the position: `n == 0 or len(lines) < n`. */
  predicate Wanted(n: nat, count: nat) {
    n == 0 || count < n
  }

  predicate NoBreaks(lines: seq<string>) {
    forall i :: 0 <= i < |lines| ==> '\n' !in lines[i]
  }

  /** The blocks, in reading order, tile `[lo, hi)` from the top down:
      each ends where the previous one began, none is empty or longer
      than a block. */
  predicate Partition(blocks: seq<Block>, lo: nat, hi: nat) {
    && (blocks == [] ==> lo == hi)
    && (blocks != [] ==> End(blocks[0]) == hi && blocks[|blocks| - 1].offset == lo)
    && (forall i :: 0 < i < |blocks| ==> End(blocks[i]) == blocks[i - 1].offset)
    && (forall i :: 0 <= i < |blocks| ==> 0 < blocks[i].size <= BlockSize)
  }

  /** The stitch condition: not the first block of the file, the block has
      lines, lines are already held, and the character before the block is
      not a line break. */
  predicate Stitches(file: string, p: nat, chunkLines: seq<string>, lines: seq<string>)
    requires p <= |file|
  {
    p > 0 && chunkLines != [] && lines != [] && file[p - 1] != '\n'
  }

  /** The last line of `chunkLines` glued to the first of `lines`. */
  function Stitch(chunkLines: seq<string>, lines: seq<string>): (r: seq<string>)
    requires chunkLines != [] && lines != []
    ensures |r| == |chunkLines| + |lines| - 1
    ensures Concat(r) == Concat(chunkLines) + Concat(lines)
  {
    var k := |chunkLines| - 1;
    var r := chunkLines[..k] + ([chunkLines[k] + lines[0]] + lines[1..]);
    ConcatAppend(chunkLines[..k], [chunkLines[k] + lines[0]] + lines[1..]);
    ConcatAppend(chunkLines[..k], [chunkLines[k]]);
    assert chunkLines[..k] + [chunkLines[k]] == chunkLines;
    assert lines == [lines[0]] + lines[1..];
    r
  }

  /** One turn of the loop at position `pos`: the new position and lines. */
  function Step(file: string, pos: nat, lines: seq<string>): (r: (nat, seq<string>))
    requires 0 < pos <= |file|
    ensures r.0 < pos && pos - r.0 <= BlockSize
  {
    var p := pos - ReadSize(pos);
    var cl := SplitLines(file[p..pos]);
    if Stitches(file, p, cl, lines) then (p, Stitch(cl, lines)) else (p, cl + lines)
  }

  /** The whole loop from position `pos` with `lines` held: the lines and
      the position where it stops. */
  function Scan(file: string, n: nat, pos: nat, lines: seq<string>): (r: (seq<string>, nat))
    requires pos <= |file|
    ensures r.1 <= pos
    ensures r.1 == 0 || !Wanted(n, |r.0|)
    decreases pos
  {
    if pos > 0 && Wanted(n, |lines|) then
      var (p, ls) := Step(file, pos, lines);
      Scan(file, n, p, ls)
    else (lines, pos)
  }

  /** The block loop of `get_last_lines`, with the blocks it read. */
  method ScanBackward(file: string, n: nat) returns (lines: seq<string>, start: nat, blocks: seq<Block>)
    ensures (lines, start) == Scan(file, n, |file|, [])
    ensures start <= |file|
    ensures Concat(lines) == RemoveNewlines(file[start..])
    ensures NoBreaks(lines)
    ensures n == 0 ==> start == 0
    ensures start > 0 ==> |lines| >= n
    ensures Partition(blocks, start, |file|)
    ensures |blocks| == (|file| - start + BlockSize - 1) / BlockSize
  {
    lines, start, blocks := [], |file|, [];
    while start > 0 && (n == 0 || |lines| < n)
      invariant start <= |file|
      invariant Scan(file, n, start, lines) == Scan(file, n, |file|, [])
      invariant Concat(lines) == RemoveNewlines(file[start..])
      invariant NoBreaks(lines)
      invariant Partition(blocks, start, |file|)
      invariant Counted(|file|, start, |blocks|)
      decreases start
    {
      var p, next := ReadBlock(file, start, lines);
      StepKeeps(file, start, lines);
      PartitionExtend(blocks, start, |file|, Block(p, start - p));
      CountedStep(|file|, start, |blocks|);
      lines := next;
      blocks := blocks + [Block(p, start - p)];
      start := p;
    }
    CountedBlocks(|file|, start, |blocks|);
  }

  /** `count` full blocks were read below `len`, stopping at `start`: all
      of them full unless the last one reached the start of the file. */
  predicate Counted(len: nat, start: nat, count: nat) {
    && start <= len
    && len - start <= BlockSize * count
    && (count > 0 ==> len - start > BlockSize * (count - 1))
    && (count > 0 && start > 0 ==> len - start == BlockSize * count)
  }

  /** One more block keeps the count. */
  lemma CountedStep(len: nat, start: nat, count: nat)
    requires Counted(len, start, count) && 0 < start
    ensures Counted(len, start - ReadSize(start), count + 1)
  {
    if start < BlockSize {
      assert len - (start - ReadSize(start)) == len;
    }
  }

  /** The number of blocks is the covered length divided by the block
      size, rounded up. */
  lemma CountedBlocks(len: nat, start: nat, count: nat)
    requires Counted(len, start, count)
    ensures count == (len - start + BlockSize - 1) / BlockSize
  {
    var d := len - start;
    if count == 0 {
      assert d == 0;
    } else {
      assert BlockSize * (count - 1) < d <= BlockSize * count;
      assert BlockSize * count <= d + BlockSize - 1 < BlockSize * (count + 1);
    }
  }

  /** The body of the block loop: read the block below `pos`, split it,
      and stitch or prepend its lines. */
  method ReadBlock(file: string, pos: nat, lines: seq<string>) returns (p: nat, next: seq<string>)
    requires 0 < pos <= |file|
    ensures (p, next) == Step(file, pos, lines)
  {
    var readSize := if pos < BlockSize then pos else BlockSize;
    p := pos - readSize;
    var chunkLines := SplitLines(file[p..pos]);
    if p > 0 && |chunkLines| > 0 && |lines| > 0 && file[p - 1] != '\n' {
      next := Stitch(chunkLines, lines);
    } else {
      next := chunkLines + lines;
    }
  }

  /** A block read just below the covered range extends the tiling. */
  lemma {:induction false} PartitionExtend(blocks: seq<Block>, lo: nat, hi: nat, b: Block)
    requires Partition(blocks, lo, hi) && End(b) == lo && 0 < b.size <= BlockSize
    ensures Partition(blocks + [b], b.offset, hi)
  {
    var bs := blocks + [b];
    forall i | 0 < i < |bs| ensures End(bs[i]) == bs[i - 1].offset {
      if i < |blocks| {
        assert bs[i] == blocks[i] && bs[i - 1] == blocks[i - 1];
      }
    }
  }

  /** One turn keeps the lines free of breaks and loses or repeats no
      character: joined, they are the text read so far without its line
      breaks. */
  lemma {:induction false} StepKeeps(file: string, pos: nat, lines: seq<string>)
    requires 0 < pos <= |file|
    requires Concat(lines) == RemoveNewlines(file[pos..]) && NoBreaks(lines)
    ensures var (p, next) := Step(file, pos, lines);
      Concat(next) == RemoveNewlines(file[p..]) && NoBreaks(next)
  {
    var p := pos - ReadSize(pos);
    var chunk := file[p..pos];
    var cl := SplitLines(chunk);
    assert Concat(cl) == RemoveNewlines(chunk) && NoBreaks(cl) by {
      ConcatSplitLines(chunk);
      SplitLinesShape(chunk);
    }
    assert RemoveNewlines(file[p..]) == RemoveNewlines(chunk) + Concat(lines) by {
      RemoveNewlinesAppend(chunk, file[pos..]);
      assert file[p..] == chunk + file[pos..];
    }
    if Stitches(file, p, cl, lines) {
      StepStitches(file, pos, lines, p, cl);
      StitchNoBreaks(cl, lines);
    } else {
      StepPrepends(file, pos, lines, p, cl);
      ConcatAppend(cl, lines);
    }
  }

  /** Gluing lines without breaks gives lines without breaks. */
  lemma StitchNoBreaks(chunkLines: seq<string>, lines: seq<string>)
    requires chunkLines != [] && lines != [] && NoBreaks(chunkLines) && NoBreaks(lines)
    ensures NoBreaks(Stitch(chunkLines, lines))
  {
    var next := Stitch(chunkLines, lines);
    var k := |chunkLines| - 1;
    forall i | 0 <= i < |next| ensures '\n' !in next[i] {
      if i == k {
        assert next[i] == chunkLines[k] + lines[0];
      } else if i < k {
        assert next[i] == chunkLines[i];
      } else {
        assert next[i] == lines[i - k];
      }
    }
  }

  /** The one-character lookback stitches only when the character before
      the block is not a line break: a block boundary inside a line is
      therefore only healed when the block below is not the first of the
      file.  A file holding a single line longer than one block but not
      longer than two comes back as two lines. */
  lemma {:induction false} OneLineSplitAtFirstBlock(file: string)
    requires '\n' !in file && BlockSize < |file| <= 2 * BlockSize
    ensures Scan(file, 0, |file|, []).0 == [file[..|file| - BlockSize], file[|file| - BlockSize..]]
  {
    var p := |file| - BlockSize;
    TopBlockOneLine(file);
    BottomBlockOneLine(file, p, [file[p..]]);
    assert Scan(file, 0, |file|, []) == Scan(file, 0, p, [file[p..]]);
    assert Scan(file, 0, p, [file[p..]]) == Scan(file, 0, 0, [file[..p]] + [file[p..]]);
  }

  /** The last block of a file without line breaks is one line. */
  lemma {:induction false} TopBlockOneLine(file: string)
    requires '\n' !in file && BlockSize < |file|
    ensures Step(file, |file|, []) == (|file| - BlockSize, [file[|file| - BlockSize..]])
  {
    var p := |file| - BlockSize;
    NoBreakSlice(file, p, |file|);
    SplitLinesOneLine(file[p..|file|]);
    assert file[p..|file|] == file[p..];
    assert ReadSize(|file|) == BlockSize;
    assert !Stitches(file, p, [file[p..]], []);
    assert [file[p..]] + [] == [file[p..]];
  }

  /** The first block of the file is never stitched. */
  lemma {:induction false} BottomBlockOneLine(file: string, pos: nat, lines: seq<string>)
    requires '\n' !in file && 0 < pos <= BlockSize && pos <= |file|
    ensures Step(file, pos, lines) == (0, [file[..pos]] + lines)
  {
    NoBreakSlice(file, 0, pos);
    SplitLinesOneLine(file[0..pos]);
    assert file[0..pos] == file[..pos];
  }

  lemma {:induction false} NoBreakSlice(s: string, i: nat, j: nat)
    requires '\n' !in s && i <= j <= |s|
    ensures '\n' !in s[i..j]
  {
    forall k | 0 <= k < j - i ensures s[i..j][k] != '\n' {
      assert s[i..j][k] == s[i + k];
    }
  }

  /** The lookback reads the character before the block, not the last
      character of the block: a block that ends with a line break still
      has its last line glued onto the first line held when the character
      before the block is not a break, so two lines become one. */
  lemma {:induction false} StitchAcrossLineBreak(file: string, pos: nat, lines: seq<string>)
    requires BlockSize < pos <= |file| && lines != []
    requires file[pos - 1] == '\n' && file[pos - BlockSize - 1] != '\n'
    ensures ReadSize(pos) == BlockSize
    ensures Stitches(file, pos - BlockSize, SplitLines(file[pos - BlockSize..pos]), lines)
  {
    SplitLinesShape(file[pos - BlockSize..pos]);
  }

  /** Conversely, a block that ends inside a line is not glued to the
      rest of that line when the character before the block happens to
      be a line break. */
  lemma NoStitchInsideLine(file: string, pos: nat, lines: seq<string>)
    requires BlockSize < pos <= |file| && lines != []
    requires file[pos - 1] != '\n' && file[pos - BlockSize - 1] == '\n'
    ensures ReadSize(pos) == BlockSize
    ensures !Stitches(file, pos - BlockSize, SplitLines(file[pos - BlockSize..pos]), lines)
  {
  }

  /** A turn whose block meets the stitch condition glues its lines onto
      those held: the glued line sits where the block's last line was,
      and one line fewer results than the two lists hold. */
  lemma StepStitches(file: string, pos: nat, lines: seq<string>, p: nat, cl: seq<string>)
    requires 0 < pos <= |file| && p == pos - ReadSize(pos) && cl == SplitLines(file[p..pos])
    requires Stitches(file, p, cl, lines)
    ensures Step(file, pos, lines) == (p, Stitch(cl, lines))
    ensures |Step(file, pos, lines).1| == |cl| + |lines| - 1
    ensures Step(file, pos, lines).1[|cl| - 1] == cl[|cl| - 1] + lines[0]
  {
    StitchJoins(cl, lines);
  }

  /** Any other turn puts the block's lines in front of those held. */
  lemma StepPrepends(file: string, pos: nat, lines: seq<string>, p: nat, cl: seq<string>)
    requires 0 < pos <= |file| && p == pos - ReadSize(pos) && cl == SplitLines(file[p..pos])
    requires !Stitches(file, p, cl, lines)
    ensures Step(file, pos, lines) == (p, cl + lines)
  {
  }

  /** The glued line sits where the block's last line was. */
  lemma StitchJoins(chunkLines: seq<string>, lines: seq<string>)
    requires chunkLines != [] && lines != []
    ensures Stitch(chunkLines, lines)[|chunkLines| - 1] == chunkLines[|chunkLines| - 1] + lines[0]
  {
  }

  function Timestamp(e: Entry): int {
    e.timestamp
  }

  /** `for line in lines: if line.strip(): entry = _parse_line(line) ...`:
      the entries of the non-blank lines that parse, in line order.  The
      blank test changes nothing, so these are the entries of all the
      lines that parse, each line contributing its own
      (`Seqs.SomesAppend`, `Seqs.SomesOne`). */
  function ParseLines(lines: seq<string>): (r: seq<Entry>)
    ensures r == Somes(lines, ParseLine)
    ensures |r| <= |lines|
    ensures forall i :: 0 <= i < |r| ==> Yields(lines, ParseLine, r[i])
    ensures forall i :: 0 <= i < |r| ==> InRange(r[i])
  {
    if lines == [] then []
    else
      var prefix := lines[..|lines| - 1];
      var init := ParseLines(prefix);
      var line := lines[|lines| - 1];
      var own := if Strip(line) == [] then [] else SomeOf(ParseLine(line));
      OwnOfLine(line, own);
      ParsedSnoc(lines, prefix, line);
      ParsedFacts(lines);
      init + own
  }

  /** Within the local times a `datetime` can hold. */
  predicate InRange(e: Entry) {
    ReportOffset <= e.timestamp < MaxLocalSeconds
  }

  /** The blank test does not change what a line contributes. */
  lemma OwnOfLine(line: string, own: seq<Entry>)
    requires own == if Strip(line) == [] then [] else SomeOf(ParseLine(line))
    ensures own == SomeOf(ParseLine(line))
  {
    if Strip(line) == [] {
      BlankUnparsed(line);
    }
  }

  lemma ParsedSnoc(lines: seq<string>, prefix: seq<string>, line: string)
    requires lines != [] && prefix == lines[..|lines| - 1] && line == lines[|lines| - 1]
    ensures Somes(lines, ParseLine) == Somes(prefix, ParseLine) + SomeOf(ParseLine(line))
  {
    assert lines == prefix + [line];
    SomesAppend(prefix, [line], ParseLine);
    SomesOne(line, ParseLine);
  }

  /** The entries of the lines that parse: no more than the lines, each
      from one of them, each within range. */
  lemma ParsedFacts(lines: seq<string>)
    ensures |Somes(lines, ParseLine)| <= |lines|
    ensures forall i :: 0 <= i < |Somes(lines, ParseLine)| ==> Yields(lines, ParseLine, Somes(lines, ParseLine)[i])
    ensures forall i :: 0 <= i < |Somes(lines, ParseLine)| ==> InRange(Somes(lines, ParseLine)[i])
  {
    SomesLength(lines, ParseLine);
    SomesFrom(lines, ParseLine);
    ParsedInRange(lines);
    SomesKeep(lines, ParseLine, InRange);
  }

  lemma ParsedInRange(lines: seq<string>)
    ensures forall j :: 0 <= j < |lines| && ParseLine(lines[j]).Some? ==> InRange(ParseLine(lines[j]).value)
  {
  }

  /** A blank line has no fields, so it never parses. */
  lemma BlankUnparsed(line: string)
    requires Strip(line) == []
    ensures ParseLine(line) == None
  {
    assert Field(Strip(line)) == None;
  }

  /** The lines kept after the loop: `lines[-n:]` when `n > 0`.  They are
      the last `n` lines scanned (all of them for `n == 0`), free of breaks,
      and joined they are a tail of the file's text without its breaks:
      the whole of it for `n == 0`. */
  function KeptLines(data: string, n: nat): (r: seq<string>)
    ensures var lines := Scan(data, n, |data|, []).0;
      && |r| == (if n == 0 || |lines| < n then |lines| else n)
      && r == lines[|lines| - |r|..]
    ensures NoBreaks(r)
    ensures |Concat(r)| <= |RemoveNewlines(data)|
    ensures Concat(r) == RemoveNewlines(data)[|RemoveNewlines(data)| - |Concat(r)|..]
    ensures n == 0 ==> Concat(r) == RemoveNewlines(data)
  {
    var (lines, start) := Scan(data, n, |data|, []);
    var r := if n > 0 then LastN(lines, n) else lines;
    KeptTail(data, n, lines, start, r);
    r
  }

  /** The kept lines are a tail of the scanned ones, which are lossless. */
  lemma KeptTail(data: string, n: nat, lines: seq<string>, start: nat, r: seq<string>)
    requires (lines, start) == Scan(data, n, |data|, [])
    requires |r| <= |lines| && r == lines[|lines| - |r|..] && (n == 0 ==> r == lines)
    ensures NoBreaks(r)
    ensures |Concat(r)| <= |RemoveNewlines(data)|
    ensures Concat(r) == RemoveNewlines(data)[|RemoveNewlines(data)| - |Concat(r)|..]
    ensures n == 0 ==> Concat(r) == RemoveNewlines(data)
  {
    assert data[|data|..] == [];
    ScanLossless(data, n, |data|, []);
    var k := |lines| - |r|;
    assert lines == lines[..k] + lines[k..];
    ConcatAppend(lines[..k], r);
    assert data == data[..start] + data[start..];
    RemoveNewlinesAppend(data[..start], data[start..]);
    assert data[0..] == data;
  }

  /** The whole loop loses or repeats no character and leaves no break in
      a line: the lines joined are the text from where it stopped without
      its breaks. */
  lemma {:induction false} ScanLossless(file: string, n: nat, pos: nat, lines: seq<string>)
    requires pos <= |file|
    requires Concat(lines) == RemoveNewlines(file[pos..]) && NoBreaks(lines)
    ensures var (ls, start) := Scan(file, n, pos, lines);
      Concat(ls) == RemoveNewlines(file[start..]) && NoBreaks(ls)
    decreases pos
  {
    if pos > 0 && Wanted(n, |lines|) {
      var (p, ls) := Step(file, pos, lines);
      StepKeeps(file, pos, lines);
      ScanLossless(file, n, p, ls);
    }
  }

  /** `get_last_lines(n)`. */
  function GetLastLines(file: LogFile, n: nat): (r: seq<Entry>)
    ensures file.Unreadable? ==> r == []
    ensures n > 0 ==> |r| <= n
    ensures SortedBy(r, Timestamp)
    ensures file.Readable? ==> multiset(r) == multiset(ParseLines(KeptLines(file.data, n)))
    ensures forall i :: 0 <= i < |r| ==> InRange(r[i])
  {
    match file
    case Unreadable => []
    case Readable(data) =>
      var parsed := ParseLines(KeptLines(data, n));
      SortedEntries(parsed);
      SortBy(parsed, Timestamp)
  }

  /** Sorting by time keeps the entries and their bounds. */
  lemma SortedEntries(parsed: seq<Entry>)
    requires forall i :: 0 <= i < |parsed| ==> InRange(parsed[i])
    ensures var r := SortBy(parsed, Timestamp);
      && SortedBy(r, Timestamp) && multiset(r) == multiset(parsed)
      && forall i :: 0 <= i < |r| ==> InRange(r[i])
  {
    var r := SortBy(parsed, Timestamp);
    SortBySorted(parsed, Timestamp);
    SortByPermutation(parsed, Timestamp);
    forall i | 0 <= i < |r| ensures InRange(r[i]) {
      assert r[i] in multiset(parsed);
    }
  }
}

=== FILE: tally.dfy ===
/** The grouping loop the program writes again and again:

      if key not in stats: stats[key] = {'requests': 0, 'traffic': 0}
      stats[key]['requests'] += 1
      stats[key]['traffic'] += size

    A Python dict keeps its keys in insertion order, so the groups are a
    sequence of rows in order of first appearance. */
module Tally {
  import opened Seqs

  datatype Row<K> = Row(key: K, requests: nat, traffic: nat)

  function RowRequests<K>(r: Row<K>): nat {
    r.requests
  }

  function RowTraffic<K>(r: Row<K>): nat {
    r.traffic
  }

  /** The request count as a sort key. */
  function RequestKey<K>(r: Row<K>): int {
    r.requests
  }

  /** The sort key of a row keyed by a time bucket. */
  function RowKey(r: Row<int>): int {
    r.key
  }

  /** The size of an element that is only counted. */
  function NoSize<T>(x: T): nat {
    0
  }

  /** The keys of the rows, in row order. */
  function Keys<K(==)>(rows: seq<Row<K>>): (ks: seq<K>)
    ensures |ks| == |rows|
    ensures forall i :: 0 <= i < |rows| ==> ks[i] == rows[i].key
  {
    if rows == [] then [] else [rows[0].key] + Keys(rows[1..])
  }

  predicate Distinct<K(==)>(ks: seq<K>) {
    forall i, j :: 0 <= i < j < |ks| ==> ks[i] != ks[j]
  }

  /** One element counted under key `k`: its row is bumped in place, or a
      new row is opened at the end. */
  function Add<K(==)>(rows: seq<Row<K>>, k: K, size: nat): (r: seq<Row<K>>)
    ensures |r| == if k in Keys(rows) then |rows| else |rows| + 1
  {
    if rows == [] then [Row(k, 1, size)]
    else if rows[0].key == k then [Row(k, rows[0].requests + 1, rows[0].traffic + size)] + rows[1..]
    else [rows[0]] + Add(rows[1..], k, size)
  }

  /** The rows of `xs` grouped by `keyOf`, sizes summed by `size`. */
  function Group<T, K(==)>(xs: seq<T>, keyOf: T -> K, size: T -> nat): seq<Row<K>> {
    if xs == [] then []
    else Add(Group(xs[..|xs| - 1], keyOf, size), keyOf(xs[|xs| - 1]), size(xs[|xs| - 1]))
  }

  /** The reference count and size of key `k`, independent of any row
      bookkeeping. */
  function Matches<T, K(==)>(keyOf: T -> K, k: K): T -> bool {
    (x: T) => keyOf(x) == k
  }

  function CountOf<T, K(==)>(xs: seq<T>, keyOf: T -> K, k: K): nat {
    |Filter(xs, Matches(keyOf, k))|
  }

  function SizeOf<T, K(==)>(xs: seq<T>, keyOf: T -> K, size: T -> nat, k: K): nat {
    SumOf(Filter(xs, Matches(keyOf, k)), size)
  }

  /** The keys of `xs` in order of first appearance. */
  function FirstKeys<T, K(==)>(xs: seq<T>, keyOf: T -> K): (ks: seq<K>)
    ensures Distinct(ks)
    ensures forall i :: 0 <= i < |xs| ==> keyOf(xs[i]) in ks
    ensures forall j :: 0 <= j < |ks| ==> exists i :: 0 <= i < |xs| && keyOf(xs[i]) == ks[j]
  {
    if xs == [] then []
    else
      var init := FirstKeys(xs[..|xs| - 1], keyOf);
      var k := keyOf(xs[|xs| - 1]);
      var ks := if k in init then init else init + [k];
      assert forall i :: 0 <= i < |xs| - 1 ==> keyOf(xs[i]) in ks by {
        forall i | 0 <= i < |xs| - 1 ensures keyOf(xs[i]) in ks {
          assert xs[..|xs| - 1][i] == xs[i];
        }
      }
      assert forall j :: 0 <= j < |ks| ==> exists i :: 0 <= i < |xs| && keyOf(xs[i]) == ks[j] by {
        forall j | 0 <= j < |ks| ensures exists i :: 0 <= i < |xs| && keyOf(xs[i]) == ks[j] {
          if j < |init| {
            var i :| 0 <= i < |xs| - 1 && keyOf(xs[..|xs| - 1][i]) == init[j];
            assert keyOf(xs[i]) == ks[j];
          } else {
            assert keyOf(xs[|xs| - 1]) == ks[j];
          }
        }
      }
      ks
  }

  /** The requests and traffic on the row of `k`, or 0 without one. */
  function RequestsFor<K(==)>(rows: seq<Row<K>>, k: K): nat {
    if rows == [] then 0
    else (if rows[0].key == k then rows[0].requests else 0) + RequestsFor(rows[1..], k)
  }

  function TrafficFor<K(==)>(rows: seq<Row<K>>, k: K): nat {
    if rows == [] then 0
    else (if rows[0].key == k then rows[0].traffic else 0) + TrafficFor(rows[1..], k)
  }

  lemma {:induction false} AddKeys<K>(rows: seq<Row<K>>, k: K, size: nat)
    ensures Keys(Add(rows, k, size)) == if k in Keys(rows) then Keys(rows) else Keys(rows) + [k]
    decreases |rows|
  {
    if rows != [] {
      assert Keys(rows) == [rows[0].key] + Keys(rows[1..]);
      if rows[0].key != k {
        AddKeys(rows[1..], k, size);
        assert k in Keys(rows) <==> k in Keys(rows[1..]);
      }
    }
  }

  lemma {:induction false} AddFor<K>(rows: seq<Row<K>>, k: K, size: nat, k': K)
    ensures RequestsFor(Add(rows, k, size), k') == RequestsFor(rows, k') + (if k' == k then 1 else 0)
    ensures TrafficFor(Add(rows, k, size), k') == TrafficFor(rows, k') + (if k' == k then size else 0)
    decreases |rows|
  {
    if rows == [] {
      assert Add(rows, k, size)[1..] == [];
    } else if rows[0].key == k {
      assert Add(rows, k, size)[1..] == rows[1..];
    } else {
      AddFor(rows[1..], k, size, k');
      assert Add(rows, k, size)[1..] == Add(rows[1..], k, size);
    }
  }

  lemma {:induction false} AddTotals<K>(rows: seq<Row<K>>, k: K, size: nat)
    ensures SumOf(Add(rows, k, size), RowRequests) == SumOf(rows, RowRequests) + 1
    ensures SumOf(Add(rows, k, size), RowTraffic) == SumOf(rows, RowTraffic) + size
    decreases |rows|
  {
    if rows == [] {
      assert Add(rows, k, size)[..0] == [];
    } else {
      var head, tail := rows[0], rows[1..];
      assert rows == [head] + tail;
      SumOfAppend([head], tail, RowRequests);
      SumOfAppend([head], tail, RowTraffic);
      SumOfSingle(head, RowRequests);
      SumOfSingle(head, RowTraffic);
      if head.key == k {
        var bumped := Row(k, head.requests + 1, head.traffic + size);
        SumOfAppend([bumped], tail, RowRequests);
        SumOfAppend([bumped], tail, RowTraffic);
        SumOfSingle(bumped, RowRequests);
        SumOfSingle(bumped, RowTraffic);
      } else {
        AddTotals(tail, k, size);
        SumOfAppend([head], Add(tail, k, size), RowRequests);
        SumOfAppend([head], Add(tail, k, size), RowTraffic);
      }
    }
  }

  lemma {:induction false} SumOfSingle<T>(x: T, f: T -> nat)
    ensures SumOf([x], f) == f(x)
  {
    assert [x][..0] == [];
  }

  /** The rows name each key of the input once, in order of first
      appearance. */
  lemma {:induction false} GroupKeys<T, K>(xs: seq<T>, keyOf: T -> K, size: T -> nat)
    ensures Keys(Group(xs, keyOf, size)) == FirstKeys(xs, keyOf)
    ensures Distinct(Keys(Group(xs, keyOf, size)))
    decreases |xs|
  {
    if xs != [] {
      var x := xs[|xs| - 1];
      GroupKeys(xs[..|xs| - 1], keyOf, size);
      AddKeys(Group(xs[..|xs| - 1], keyOf, size), keyOf(x), size(x));
    }
  }

  /** The row of every key holds exactly the count and the summed sizes
      of the elements with that key. */
  lemma {:induction false} GroupCounts<T, K>(xs: seq<T>, keyOf: T -> K, size: T -> nat, k: K)
    ensures RequestsFor(Group(xs, keyOf, size), k) == CountOf(xs, keyOf, k)
    ensures TrafficFor(Group(xs, keyOf, size), k) == SizeOf(xs, keyOf, size, k)
    decreases |xs|
  {
    if xs != [] {
      var init, x := xs[..|xs| - 1], xs[|xs| - 1];
      var p := Matches(keyOf, k);
      GroupCounts(init, keyOf, size, k);
      AddFor(Group(init, keyOf, size), keyOf(x), size(x), k);
      assert Filter(xs, p) == Filter(init, p) + (if p(x) then [x] else []);
      assert Group(xs, keyOf, size) == Add(Group(init, keyOf, size), keyOf(x), size(x));
      assert p(x) <==> keyOf(x) == k;
      if p(x) {
        SumOfAppend(Filter(init, p), [x], size);
        SumOfSingle(x, size);
      } else {
        assert Filter(xs, p) == Filter(init, p);
      }
    }
  }

  /** No element is lost: the row counts add up to the number of
      elements, and the row sizes to the total size. */
  lemma {:induction false} GroupTotals<T, K>(xs: seq<T>, keyOf: T -> K, size: T -> nat)
    ensures SumOf(Group(xs, keyOf, size), RowRequests) == |xs|
    ensures SumOf(Group(xs, keyOf, size), RowTraffic) == SumOf(xs, size)
    decreases |xs|
  {
    if xs != [] {
      var x := xs[|xs| - 1];
      GroupTotals(xs[..|xs| - 1], keyOf, size);
      AddTotals(Group(xs[..|xs| - 1], keyOf, size), keyOf(x), size(x));
    }
  }

  /** With distinct keys, a row's own numbers are those looked up by its
      key. */
  lemma {:induction false} RowIsLookup<K>(rows: seq<Row<K>>, i: nat)
    requires Distinct(Keys(rows)) && i < |rows|
    ensures RequestsFor(rows, rows[i].key) == rows[i].requests
    ensures TrafficFor(rows, rows[i].key) == rows[i].traffic
    decreases |rows|
  {
    var k := rows[i].key;
    if i == 0 {
      NotInLookup(rows[1..], k);
    } else {
      assert Keys(rows[1..]) == Keys(rows)[1..];
      assert rows[0].key == Keys(rows)[0] != Keys(rows)[i] == k;
      RowIsLookup(rows[1..], i - 1);
    }
  }

  /** A key without a row looks up as zero. */
  lemma {:induction false} NotInLookup<K>(rows: seq<Row<K>>, k: K)
    requires k !in Keys(rows)
    ensures RequestsFor(rows, k) == 0 && TrafficFor(rows, k) == 0
    decreases |rows|
  {
    if rows != [] {
      assert Keys(rows) == [rows[0].key] + Keys(rows[1..]);
      NotInLookup(rows[1..], k);
    }
  }

  /** Every row holds the reference count and size of its key, and every
      row's count is positive. */
  lemma {:induction false} GroupRows<T, K>(xs: seq<T>, keyOf: T -> K, size: T -> nat, i: nat)
    requires i < |Group(xs, keyOf, size)|
    ensures var row := Group(xs, keyOf, size)[i];
      && row.requests == CountOf(xs, keyOf, row.key) > 0
      && row.traffic == SizeOf(xs, keyOf, size, row.key)
  {
    var rows := Group(xs, keyOf, size);
    var k := rows[i].key;
    GroupKeys(xs, keyOf, size);
    assert RequestsFor(rows, k) == rows[i].requests && TrafficFor(rows, k) == rows[i].traffic by {
      RowIsLookup(rows, i);
    }
    GroupCounts(xs, keyOf, size, k);
    assert k == FirstKeys(xs, keyOf)[i];
    KeyCounted(xs, keyOf, k);
  }

  /** A key some element carries has a positive count. */
  lemma KeyCounted<T, K>(xs: seq<T>, keyOf: T -> K, k: K)
    requires exists j :: 0 <= j < |xs| && keyOf(xs[j]) == k
    ensures CountOf(xs, keyOf, k) > 0
  {
    var j :| 0 <= j < |xs| && keyOf(xs[j]) == k;
    assert Matches(keyOf, k)(xs[j]);
    assert xs[j] in Filter(xs, Matches(keyOf, k));
  }

  /** No rows without elements, and at least one row for any element. */
  lemma GroupEmpty<T, K>(xs: seq<T>, keyOf: T -> K, size: T -> nat)
    ensures Group(xs, keyOf, size) == [] <==> xs == []
  {
    GroupTotals(xs, keyOf, size);
  }

  /** A sequence of distinct keys has as many keys as elements. */
  lemma {:induction false} DistinctCard<K>(ks: seq<K>)
    requires Distinct(ks)
    ensures |set i | 0 <= i < |ks| :: ks[i]| == |ks|
    decreases |ks|
  {
    if ks != [] {
      var init, last := ks[..|ks| - 1], ks[|ks| - 1];
      DistinctCard(init);
      var a := set i | 0 <= i < |init| :: init[i];
      assert (set i | 0 <= i < |ks| :: ks[i]) == a + {last} by {
        forall i | 0 <= i < |ks| ensures ks[i] in a + {last} {
          if i < |init| {
            assert init[i] == ks[i];
          }
        }
        forall i | 0 <= i < |init| ensures init[i] in (set i | 0 <= i < |ks| :: ks[i]) {
          assert init[i] == ks[i];
        }
      }
      assert last !in a;
    }
  }
}

=== FILE: tasks.dfy ===
/** The periodic tasks: refreshing the cached entry lists, the data behind
    the traffic and domain charts, and the per-client table.  A task that
    gives up and enqueues a refresh returns `None`; the chart figures
    themselves are not modelled, only the rows they are drawn from. */
module Tasks {
  import opened Wrappers
  import opened Seqs
  import opened Entries
  import opened Sorting
  import opened Tally
  import opened Urls
  import opened Clients
  import opened TailReader
  import opened Cache
  import opened Queries

  /** `update_log_cache`: the whole log and its day and month windows are
      cached for five minutes; the task returns the number of entries. */
  function UpdateLogCache(store: Store, file: LogFile, now: int): (Store, nat) {
    var entries := GetLastLines(file, 0);
    var lists := Put(store.entryLists, EntriesKey("all"), entries, now, TaskTtl);
    var lists := Put(lists, EntriesKey("day"), Since(entries, now - DayWindow), now, TaskTtl);
    var lists := Put(lists, EntriesKey("month"), Since(entries, now - MonthWindow), now, TaskTtl);
    (store.(entryLists := lists), |entries|)
  }

  /** Until they expire, the three keys hold the whole log and its two
      windows, all computed against the same `now`; the day list is a
      subsequence of the month list; the count is the number of entries;
      the per-client tables are untouched. */
  lemma UpdateLogCacheStores(store: Store, file: LogFile, now: int, t: int)
    requires now <= t < now + TaskTtl
    ensures var (s, count) := UpdateLogCache(store, file, now);
      var entries := GetLastLines(file, 0);
      && Get(s.entryLists, EntriesKey("all"), t) == Some(entries)
      && Get(s.entryLists, EntriesKey("day"), t) == Some(Since(entries, now - DayWindow))
      && Get(s.entryLists, EntriesKey("month"), t) == Some(Since(entries, now - MonthWindow))
      && IsSubsequence(Since(entries, now - DayWindow), Since(entries, now - MonthWindow))
      && count == |entries|
      && s.clientTables == store.clientTables
  {
    var entries := GetLastLines(file, 0);
    var day, month := Since(entries, now - DayWindow), Since(entries, now - MonthWindow);
    PutThree(store.entryLists, entries, day, month, now, t);
    SinceWithin(entries, now - DayWindow, now - MonthWindow);
  }

  /** The three entry keys written one after the other each read back
      their own list while it is live. */
  lemma PutThree(lists: map<string, Timed<seq<Entry>>>, all: seq<Entry>, day: seq<Entry>, month: seq<Entry>, now: int, t: int)
    requires now <= t < now + TaskTtl
    ensures var s := Put(Put(Put(lists, EntriesKey("all"), all, now, TaskTtl),
                             EntriesKey("day"), day, now, TaskTtl),
                         EntriesKey("month"), month, now, TaskTtl);
      && Get(s, EntriesKey("all"), t) == Some(all)
      && Get(s, EntriesKey("day"), t) == Some(day)
      && Get(s, EntriesKey("month"), t) == Some(month)
  {
    KeysDistinct();
  }

  /** A log that cannot be read caches three empty lists, replacing
      whatever the keys held. */
  lemma UnreadableLogCachesEmpty(store: Store, now: int, t: int)
    requires now <= t < now + TaskTtl
    ensures var (s, count) := UpdateLogCache(store, Unreadable, now);
      && Get(s.entryLists, EntriesKey("all"), t) == Some([])
      && Get(s.entryLists, EntriesKey("day"), t) == Some([])
      && Get(s.entryLists, EntriesKey("month"), t) == Some([])
      && count == 0
  {
    KeysDistinct();
  }

  /** The cached day and month lists, or `None` when either is missing or
      empty, in which case the chart tasks enqueue a refresh and return
      `False`. */
  function ChartInput(store: Store, now: int): (r: Option<(seq<Entry>, seq<Entry>)>)
    ensures r.Some? <==>
      && Get(store.entryLists, EntriesKey("day"), now).Some?
      && Get(store.entryLists, EntriesKey("day"), now).value != []
      && Get(store.entryLists, EntriesKey("month"), now).Some?
      && Get(store.entryLists, EntriesKey("month"), now).value != []
    ensures r.Some? ==> r.value == (Get(store.entryLists, EntriesKey("day"), now).value,
                                    Get(store.entryLists, EntriesKey("month"), now).value)
  {
    match (Get(store.entryLists, EntriesKey("day"), now), Get(store.entryLists, EntriesKey("month"), now))
    case (Some(day), Some(month)) => if day == [] || month == [] then None else Some((day, month))
    case _ => None
  }

  /** The rows behind the two traffic charts: bytes and requests per hour
      of the day list and per day of the month list, in key order. */
  datatype TrafficChartData = TrafficChartData(hourly: seq<Row<int>>, daily: seq<Row<int>>)

  /** The rows behind the two domain charts: the ten domains with the most
      requests in each list, in ascending request order. */
  datatype DomainChartData = DomainChartData(dayTop: seq<Row<string>>, monthTop: seq<Row<string>>)

  const TopDomains: nat := 10

  /** Bucket sums in ascending key order. */
  function Buckets(es: seq<Entry>, keyOf: Entry -> int): seq<Row<int>> {
    SortBy(Group(es, keyOf, EntryBytes), RowKey)
  }

  /** `generate_traffic_charts`. */
  function GenerateTrafficCharts(store: Store, now: int): Option<TrafficChartData> {
    var (day, month) :- ChartInput(store, now);
    Some(TrafficChartData(Buckets(day, Hour), Buckets(month, Day)))
  }

  /** `df.sort_values('requests', ascending=True).tail(10)` of the domain
      rows. */
  function TopRows(rows: seq<Row<string>>): seq<Row<string>> {
    Top(rows, RequestKey, TopDomains)
  }

  /** `generate_domain_charts`. */
  function GenerateDomainCharts(store: Store, now: int): Option<DomainChartData> {
    var (day, month) :- ChartInput(store, now);
    Some(DomainChartData(TopRows(Group(day, ChartDomain, EntryBytes)),
                         TopRows(Group(month, ChartDomain, EntryBytes))))
  }

  /** Buckets account for every entry: their counts add up to the number
      of entries and their sizes to the total bytes; the keys ascend; each
      bucket holds the count and bytes of its key. */
  lemma BucketsAddUp(es: seq<Entry>, keyOf: Entry -> int)
    ensures var rows := Buckets(es, keyOf);
      && SumOf(rows, RowRequests) == |es|
      && SumOf(rows, RowTraffic) == SumBytes(es)
      && SortedBy(rows, RowKey)
      && forall i :: 0 <= i < |rows| ==>
           rows[i].requests == CountOf(es, keyOf, rows[i].key) > 0
           && rows[i].traffic == SizeOf(es, keyOf, EntryBytes, rows[i].key)
  {
    var g := Group(es, keyOf, EntryBytes);
    GroupTotals(es, keyOf, EntryBytes);
    SortBySum(g, RowKey, RowRequests);
    SortBySum(g, RowKey, RowTraffic);
    SortBySorted(g, RowKey);
    var rows := SortBy(g, RowKey);
    forall i | 0 <= i < |rows|
      ensures rows[i].requests == CountOf(es, keyOf, rows[i].key) > 0
      ensures rows[i].traffic == SizeOf(es, keyOf, EntryBytes, rows[i].key)
    {
      SortedRow(es, keyOf, i);
    }
  }

  /** Both chart tasks give up exactly when a window list is missing or
      empty; otherwise the hourly buckets cover the cached day list and the
      daily buckets the cached month list. */
  lemma TrafficChartsCover(store: Store, now: int)
    ensures GenerateTrafficCharts(store, now).None? <==> ChartInput(store, now).None?
    ensures GenerateDomainCharts(store, now).None? <==> ChartInput(store, now).None?
    ensures ChartInput(store, now).Some? ==>
      var (day, month) := ChartInput(store, now).value;
      var data := GenerateTrafficCharts(store, now).value;
      && SumOf(data.hourly, RowRequests) == |day| && SumOf(data.hourly, RowTraffic) == SumBytes(day)
      && SumOf(data.daily, RowRequests) == |month| && SumOf(data.daily, RowTraffic) == SumBytes(month)
      && SortedBy(data.hourly, RowKey) && SortedBy(data.daily, RowKey)
  {
    if ChartInput(store, now).Some? {
      var (day, month) := ChartInput(store, now).value;
      BucketsAddUp(day, Hour);
      BucketsAddUp(month, Day);
    }
  }

  /** No entry is dropped when naming domains: the domain counts add up to
      the number of entries, and there is one row per domain. */
  lemma DomainTop(es: seq<Entry>)
    ensures SumOf(Group(es, ChartDomain, EntryBytes), RowRequests) == |es|
    ensures |Group(es, ChartDomain, EntryBytes)| == |FirstKeys(es, ChartDomain)|
  {
    GroupTotals(es, ChartDomain, EntryBytes);
    GroupKeys(es, ChartDomain, EntryBytes);
  }

  /** The selection keeps `min(10, rows)` rows in ascending request order;
      together with the rows left out it is the whole table, and no row left
      out has more requests than a selected one. */
  lemma TopRowsSelect(rows: seq<Row<string>>)
    ensures var top := TopRows(rows);
      |top| == (if |rows| < TopDomains then |rows| else TopDomains) && SortedBy(top, RequestKey)
    ensures var top, rest := TopRows(rows), Rest(rows, RequestKey, TopDomains);
      && multiset(top) + multiset(rest) == multiset(rows)
      && forall i, j :: 0 <= i < |rest| && 0 <= j < |top| ==> rest[i].requests <= top[j].requests
  {
    TopSelectsLargest(rows, RequestKey, TopDomains);
    var top, rest := TopRows(rows), Rest(rows, RequestKey, TopDomains);
    forall i, j | 0 <= i < |rest| && 0 <= j < |top| ensures rest[i].requests <= top[j].requests {
      assert RequestKey(rest[i]) <= RequestKey(top[j]);
    }
  }

  /** `update_users_cache`: the cached whole log when it is live and not
      empty, otherwise the log read again and cached; then the per-client
      table is cached under `users_stats` and its size returned. */
  function UpdateUsersCache(store: Store, file: LogFile, now: int): (Store, nat) {
    var cached := Get(store.entryLists, EntriesKey("all"), now);
    var (entries, lists) :=
      if cached.Some? && cached.value != [] then (cached.value, store.entryLists)
      else
        var read := GetLastLines(file, 0);
        (read, Put(store.entryLists, EntriesKey("all"), read, now, TaskTtl));
    var table := ClientsOf(entries, now - DayWindow, now - MonthWindow);
    (Store(lists, Put(store.clientTables, UsersStatsKey, table, now, TaskTtl)), |table|)
  }

  /** The entries the users task works on. */
  function UsersTaskEntries(store: Store, file: LogFile, now: int): seq<Entry> {
    var cached := Get(store.entryLists, EntriesKey("all"), now);
    if cached.Some? && cached.value != [] then cached.value else GetLastLines(file, 0)
  }

  /** The table cached under `users_stats` has one reference row per
      distinct non-empty address, and the task returns their number; the
      `users_list_data` key that the users view reads is never written. */
  lemma UsersCacheWritesStats(store: Store, file: LogFile, now: int, t: int)
    requires now <= t < now + TaskTtl
    ensures var (s, count) := UpdateUsersCache(store, file, now);
      var es := UsersTaskEntries(store, file, now);
      var table := ClientsOf(es, now - DayWindow, now - MonthWindow);
      && Get(s.clientTables, UsersStatsKey, t) == Some(table)
      && count == |FirstKeys(Filter(es, HasAddress()), Address)|
      && Get(s.clientTables, UsersListKey, t) == Get(store.clientTables, UsersListKey, t)
      && forall i :: 0 <= i < |table| ==>
           Expected(es, table[i].address, now - DayWindow, now - MonthWindow) == Some(table[i])
  {
    KeysDistinct();
    var es := UsersTaskEntries(store, file, now);
    UsersCacheRows(es, now - DayWindow, now - MonthWindow);
  }

  /** In the table the task caches, no client has more day than month
      requests or traffic. */
  lemma UsersCacheDayWithinMonth(store: Store, file: LogFile, now: int, i: nat)
    requires var es := UsersTaskEntries(store, file, now);
      i < |ClientsOf(es, now - DayWindow, now - MonthWindow)|
    ensures var row := ClientsOf(UsersTaskEntries(store, file, now), now - DayWindow, now - MonthWindow)[i];
      row.dayRequests <= row.monthRequests && row.dayTraffic <= row.monthTraffic
  {
    var es := UsersTaskEntries(store, file, now);
    var table := ClientsOf(es, now - DayWindow, now - MonthWindow);
    UsersCacheRows(es, now - DayWindow, now - MonthWindow);
    ExpectedDayWithinMonth(es, table[i].address, now - DayWindow, now - MonthWindow);
  }
}

=== FILE: text.dfy ===
/** Character classes and string helpers shared by the parser, the tail
    reader and the importer.  Strings are `seq<char>`; a line break is
    `'\n'` only. */
module Text {
  import opened Wrappers

  /** Python's `str.isspace`, which is also what `\s` matches in a `str`
      regular expression and what `strip()` and `split()` remove. */
  predicate IsSpace(c: char) {
    || c == ' ' || c == '\t' || c == '\n' || c == '\r'
    || c == '\U{000B}' || c == '\U{000C}'
    || '\U{001C}' <= c <= '\U{001F}'
    || c == '\U{0085}' || c == '\U{00A0}' || c == '\U{1680}'
    || '\U{2000}' <= c <= '\U{200A}'
    || c == '\U{2028}' || c == '\U{2029}' || c == '\U{202F}'
    || c == '\U{205F}' || c == '\U{3000}'
  }

  /** ASCII decimal digit (`\d` restricted to ASCII). */
  predicate IsDigit(c: char) {
    '0' <= c <= '9'
  }

  predicate AllDigits(s: string) {
    forall i :: 0 <= i < |s| ==> IsDigit(s[i])
  }

  predicate AllSpace(s: string) {
    forall i :: 0 <= i < |s| ==> IsSpace(s[i])
  }

  predicate NoSpace(s: string) {
    forall i :: 0 <= i < |s| ==> !IsSpace(s[i])
  }

  /** A non-empty run of digits, as `\d+` matches it. */
  predicate IsNumeral(s: string) {
    |s| > 0 && AllDigits(s)
  }

  /** The value of a digit string, read left to right. */
  function DigitsValue(s: string): nat
    requires AllDigits(s)
  {
    if s == [] then 0
    else DigitsValue(s[..|s| - 1]) * 10 + (s[|s| - 1] as int - '0' as int)
  }

  /** Length of the longest all-digit prefix. */
  function LeadingDigits(s: string): (k: nat)
    ensures k <= |s|
    ensures AllDigits(s[..k])
    ensures k < |s| ==> !IsDigit(s[k])
  {
    if s != [] && IsDigit(s[0]) then 1 + LeadingDigits(s[1..]) else 0
  }

  /** Length of the longest all-whitespace prefix. */
  function LeadingSpaces(s: string): (k: nat)
    ensures k <= |s|
    ensures AllSpace(s[..k])
    ensures k < |s| ==> !IsSpace(s[k])
  {
    if s != [] && IsSpace(s[0]) then 1 + LeadingSpaces(s[1..]) else 0
  }

  /** Length of the longest whitespace-free prefix. */
  function LeadingNonSpaces(s: string): (k: nat)
    ensures k <= |s|
    ensures NoSpace(s[..k])
    ensures k < |s| ==> IsSpace(s[k])
  {
    if s != [] && !IsSpace(s[0]) then 1 + LeadingNonSpaces(s[1..]) else 0
  }

  /** Python's `s.rstrip()`. */
  function StripRight(s: string): (r: string)
    ensures |r| <= |s| && r == s[..|r|]
    ensures AllSpace(s[|r|..])
    ensures r == [] || !IsSpace(r[|r| - 1])
  {
    if s != [] && IsSpace(s[|s| - 1]) then
      var r := StripRight(s[..|s| - 1]);
      assert s[..|s| - 1][..|r|] == s[..|r|];
      assert s[|r|..] == s[..|s| - 1][|r|..] + [s[|s| - 1]];
      r
    else s
  }

  /** Python's `s.strip()`: the text between the leading and the trailing
      whitespace. */
  function Strip(s: string): (r: string)
    ensures |r| <= |s|
    ensures r == [] || (!IsSpace(r[0]) && !IsSpace(r[|r| - 1]))
    ensures r == [] <==> AllSpace(s)
  {
    StripRight(s[LeadingSpaces(s)..])
  }

  /** The strip of a string is the slice of it that starts after its
      leading whitespace, and what lies after that slice is whitespace. */
  lemma StripMiddle(s: string)
    ensures var k, r := LeadingSpaces(s), Strip(s);
      && k + |r| <= |s| && r == s[k..k + |r|]
      && AllSpace(s[..k]) && AllSpace(s[k + |r|..])
  {
    StripSlice(s);
    StripTail(s);
  }

  lemma StripSlice(s: string)
    ensures var k, r := LeadingSpaces(s), Strip(s);
      k + |r| <= |s| && r == s[k..k + |r|]
  {
    var k := LeadingSpaces(s);
    var r := StripRight(s[k..]);
    SuffixSlices(s, k, |r|);
  }

  lemma StripTail(s: string)
    ensures var k, r := LeadingSpaces(s), Strip(s);
      k + |r| <= |s| && AllSpace(s[k + |r|..])
  {
    var k := LeadingSpaces(s);
    var r := StripRight(s[k..]);
    SuffixSlices(s, k, |r|);
  }

  lemma SuffixSlices(s: string, k: nat, n: nat)
    requires k + n <= |s|
    ensures s[k..][..n] == s[k..k + n] && s[k..][n..] == s[k + n..]
  {
  }

  /** A stripped string is its own strip. */
  lemma {:induction false} StripStripped(s: string)
    requires s == [] || (!IsSpace(s[0]) && !IsSpace(s[|s| - 1]))
    ensures Strip(s) == s
  {
  }

  /** A whitespace-free prefix followed by anything else. */
  lemma {:induction false} LeadingNonSpacesAppend(a: string, b: string)
    requires NoSpace(a)
    ensures LeadingNonSpaces(a + b) == |a| + LeadingNonSpaces(b)
    decreases |a|
  {
    if a != [] {
      assert (a + b)[1..] == a[1..] + b;
      LeadingNonSpacesAppend(a[1..], b);
    } else {
      assert a + b == b;
    }
  }

  /** The parts of a whitespace-free text are whitespace-free. */
  lemma {:induction false} NoSpaceParts(a: string, sep: string, b: string)
    requires NoSpace(a + sep + b)
    ensures NoSpace(a) && NoSpace(b)
  {
    forall i | 0 <= i < |a| ensures !IsSpace(a[i]) {
      assert a[i] == (a + sep + b)[i];
    }
    forall i | 0 <= i < |b| ensures !IsSpace(b[i]) {
      assert b[i] == (a + sep + b)[|a| + |sep| + i];
    }
  }

  /** Joining whitespace-free parts by a whitespace-free separator leaves
      no whitespace. */
  lemma {:induction false} NoSpaceJoin(a: string, sep: string, b: string)
    requires NoSpace(a) && NoSpace(sep) && NoSpace(b)
    ensures NoSpace(a + sep + b)
  {
    var s := a + sep + b;
    forall i | 0 <= i < |s| ensures !IsSpace(s[i]) {
      if i < |a| {
        assert s[i] == a[i];
      } else if i < |a| + |sep| {
        assert s[i] == sep[i - |a|];
      } else {
        assert s[i] == b[i - |a| - |sep|];
      }
    }
  }

  /** Python's `s.split()`: the maximal whitespace-free runs, in order. */
  function Words(s: string): (ws: seq<string>)
    ensures forall i :: 0 <= i < |ws| ==> |ws[i]| > 0 && NoSpace(ws[i])
    decreases |s|
  {
    var k := LeadingSpaces(s);
    var t := s[k..];
    if t == [] then []
    else
      var m := LeadingNonSpaces(t);
      [t[..m]] + Words(t[m..])
  }

  /** A text has no words exactly when it is all whitespace. */
  lemma WordsNone(s: string)
    ensures Words(s) == [] <==> AllSpace(s)
  {
    var k := LeadingSpaces(s);
    if k == |s| {
      assert s[..k] == s;
    } else {
      assert !IsSpace(s[k]);
    }
  }

  /** Index of the first occurrence of `c`. */
  function IndexOf(s: string, c: char): (r: Option<nat>)
    ensures r.None? <==> c !in s
    ensures r.Some? ==> r.value < |s| && s[r.value] == c && c !in s[..r.value]
  {
    if s == [] then None
    else if s[0] == c then Some(0)
    else match IndexOf(s[1..], c)
      case None => None
      case Some(i) => Some(i + 1)
  }

  /** Index of the last occurrence of `c`. */
  function LastIndexOf(s: string, c: char): (r: Option<nat>)
    ensures r.None? <==> c !in s
    ensures r.Some? ==> r.value < |s| && s[r.value] == c && c !in s[r.value + 1..]
  {
    if s == [] then None
    else if s[|s| - 1] == c then Some(|s| - 1)
    else LastIndexOf(s[..|s| - 1], c)
  }

  /** The text before the first `c`, or all of `s`: Python's
      `s.split(c)[0]`. */
  function Before(s: string, c: char): (r: string)
    ensures |r| <= |s| && r == s[..|r|]
    ensures c !in r
    ensures |r| < |s| ==> s[|r|] == c
  {
    match IndexOf(s, c)
    case None => s
    case Some(i) => s[..i]
  }

  /** Python's `s.splitlines()` with `'\n'` as the only separator: a final
      line break does not open an empty last line. */
  function SplitLines(s: string): seq<string>
    decreases |s|
  {
    if s == [] then []
    else match IndexOf(s, '\n')
      case None => [s]
      case Some(i) => [s[..i]] + SplitLines(s[i + 1..])
  }

  /** `''.join(ls)`. */
  function Concat(ls: seq<string>): string {
    if ls == [] then [] else ls[0] + Concat(ls[1..])
  }

  /** `s` with every `'\n'` removed. */
  function RemoveNewlines(s: string): string {
    if s == [] then []
    else (if s[0] == '\n' then [] else [s[0]]) + RemoveNewlines(s[1..])
  }

  lemma {:induction false} ConcatAppend(a: seq<string>, b: seq<string>)
    ensures Concat(a + b) == Concat(a) + Concat(b)
    decreases |a|
  {
    if a == [] {
      assert a + b == b;
    } else {
      assert (a + b)[1..] == a[1..] + b;
      ConcatAppend(a[1..], b);
    }
  }

  lemma {:induction false} RemoveNewlinesAppend(a: string, b: string)
    ensures RemoveNewlines(a + b) == RemoveNewlines(a) + RemoveNewlines(b)
    decreases |a|
  {
    if a == [] {
      assert a + b == b;
    } else {
      assert (a + b)[1..] == a[1..] + b;
      RemoveNewlinesAppend(a[1..], b);
    }
  }

  lemma {:induction false} RemoveNewlinesNone(s: string)
    requires '\n' !in s
    ensures RemoveNewlines(s) == s
    decreases |s|
  {
    if s != [] {
      RemoveNewlinesNone(s[1..]);
    }
  }

  /** Splitting into lines and joining them again loses exactly the line
      breaks. */
  lemma {:induction false} ConcatSplitLines(s: string)
    ensures Concat(SplitLines(s)) == RemoveNewlines(s)
    decreases |s|
  {
    if s != [] {
      match IndexOf(s, '\n')
      case None =>
        RemoveNewlinesNone(s);
      case Some(i) =>
        ConcatSplitLines(s[i + 1..]);
        ConcatCons(s[..i], SplitLines(s[i + 1..]));
        RemoveNewlinesAt(s, i);
    }
  }

  lemma {:induction false} ConcatCons(head: string, tail: seq<string>)
    ensures Concat([head] + tail) == head + Concat(tail)
  {
    assert ([head] + tail)[1..] == tail;
  }

  /** Removing the line breaks around the first one. */
  lemma {:induction false} RemoveNewlinesAt(s: string, i: nat)
    requires i < |s| && s[i] == '\n' && '\n' !in s[..i]
    ensures RemoveNewlines(s) == s[..i] + RemoveNewlines(s[i + 1..])
  {
    var head, rest := s[..i], s[i + 1..];
    assert s == head + ("\n" + rest);
    RemoveNewlinesAppend(head, "\n" + rest);
    RemoveNewlinesNone(head);
    RemoveNewlinesBreak(rest);
  }

  lemma {:induction false} RemoveNewlinesBreak(rest: string)
    ensures RemoveNewlines("\n" + rest) == RemoveNewlines(rest)
  {
    assert ("\n" + rest)[1..] == rest;
  }

  /** No line contains a line break, and a non-empty text has a line. */
  lemma {:induction false} SplitLinesShape(s: string)
    ensures forall i :: 0 <= i < |SplitLines(s)| ==> '\n' !in SplitLines(s)[i]
    ensures s != [] <==> SplitLines(s) != []
    decreases |s|
  {
    if s != [] {
      match IndexOf(s, '\n')
      case None =>
      case Some(i) =>
        SplitLinesShape(s[i + 1..]);
    }
  }

  /** A text without a line break is one line. */
  lemma {:induction false} SplitLinesOneLine(s: string)
    requires s != [] && '\n' !in s
    ensures SplitLines(s) == [s]
  {
  }

  /** A text with one final line break is one line. */
  lemma {:induction false} SplitLinesTerminated(y: string)
    requires '\n' !in y
    ensures SplitLines(y + "\n") == [y]
  {
    var s := y + "\n";
    assert s[|y|] == '\n';
    assert s[..|y|] == y;
    assert IndexOf(s, '\n') == Some(|y|);
    assert s[|y| + 1..] == [];
  }

  /** `' '.join(ws)`. */
  function JoinWords(ws: seq<string>): string {
    if ws == [] then []
    else if |ws| == 1 then ws[0]
    else ws[0] + " " + JoinWords(ws[1..])
  }

  predicate IsWord(w: string) {
    |w| > 0 && NoSpace(w)
  }

  /** Joining words with single spaces gives a text that neither starts
      nor ends with whitespace. */
  lemma {:induction false} JoinWordsEnds(ws: seq<string>)
    requires ws != [] && forall i :: 0 <= i < |ws| ==> IsWord(ws[i])
    ensures var s := JoinWords(ws);
      s != [] && !IsSpace(s[0]) && !IsSpace(s[|s| - 1])
    decreases |ws|
  {
    assert IsWord(ws[0]);
    if |ws| > 1 {
      JoinWordsEnds(ws[1..]);
      var rest := JoinWords(ws[1..]);
      assert JoinWords(ws) == ws[0] + (" " + rest);
      assert JoinWords(ws)[|JoinWords(ws)| - 1] == rest[|rest| - 1];
    }
  }

  /** `s.split()` undoes `' '.join(ws)` for words without whitespace. */
  lemma {:induction false} WordsJoin(ws: seq<string>)
    requires forall i :: 0 <= i < |ws| ==> IsWord(ws[i])
    ensures Words(JoinWords(ws)) == ws
    decreases |ws|
  {
    if |ws| == 1 {
      var w := ws[0];
      assert IsWord(w);
      assert LeadingSpaces(w) == 0;
      LeadingNonSpacesAppend(w, []);
      assert w + [] == w;
    } else if |ws| > 1 {
      var rest := JoinWords(ws[1..]);
      JoinWordsEnds(ws[1..]);
      WordsJoin(ws[1..]);
      WordsCons(ws[0], rest);
    }
  }

  /** A word, one space, and a text starting with a word. */
  lemma {:induction false} WordsCons(w: string, rest: string)
    requires IsWord(w) && rest != [] && !IsSpace(rest[0])
    ensures Words(w + " " + rest) == [w] + Words(rest)
  {
    var s := w + (" " + rest);
    assert w + " " + rest == s;
    assert LeadingSpaces(s) == 0;
    LeadingNonSpacesAppend(w, " " + rest);
    assert s[..|w|] == w;
    assert s[|w|..] == " " + rest;
    WordsAfterSpace(rest);
  }

  /** One space before a word changes nothing. */
  lemma {:induction false} WordsAfterSpace(s: string)
    requires s != [] && !IsSpace(s[0])
    ensures Words(" " + s) == Words(s)
  {
    assert (" " + s)[1..] == s;
    assert LeadingSpaces(" " + s) == 1;
  }

  /** A non-empty run of whitespace between two columns. */
  predicate Gap(g: string) {
    |g| > 0 && AllSpace(g)
  }

  /** A whitespace prefix followed by text that starts otherwise. */
  lemma {:induction false} LeadingSpacesAppend(g: string, rest: string)
    requires AllSpace(g) && |rest| > 0 && !IsSpace(rest[0])
    ensures LeadingSpaces(g + rest) == |g|
    decreases |g|
  {
    if g != [] {
      assert (g + rest)[0] == g[0] && IsSpace(g[0]);
      assert (g + rest)[1..] == g[1..] + rest;
      LeadingSpacesAppend(g[1..], rest);
      assert LeadingSpaces(g + rest) == 1 + LeadingSpaces(g[1..] + rest);
    } else {
      assert g + rest == rest;
    }
  }

/** Words separated by runs of whitespace, with any whitespace before
      the first and after the last: `gaps[i]` precedes `ws[i]`, and the
      last gap ends the text. */
  function Spaced(ws: seq<string>, gaps: seq<string>): string
    requires |gaps| == |ws| + 1
  {
    if ws == [] then gaps[0] else gaps[0] + ws[0] + Spaced(ws[1..], gaps[1..])
  }

  /** The words are words, every gap is whitespace, and the inner gaps
      are not empty. */
  predicate SpacedShape(ws: seq<string>, gaps: seq<string>) {
    && |gaps| == |ws| + 1
    && (forall i :: 0 <= i < |ws| ==> IsWord(ws[i]))
    && (forall i :: 0 <= i < |gaps| ==> AllSpace(gaps[i]))
    && (forall i :: 0 < i < |ws| ==> |gaps[i]| > 0)
  }

  lemma SpacedShapeTail(ws: seq<string>, gaps: seq<string>)
    requires SpacedShape(ws, gaps) && ws != []
    ensures SpacedShape(ws[1..], gaps[1..])
    ensures IsWord(ws[0]) && AllSpace(gaps[0]) && (|ws| > 1 ==> |gaps[1]| > 0)
  {
    var ws', gaps' := ws[1..], gaps[1..];
    forall i | 0 <= i < |ws'| ensures IsWord(ws'[i]) {
      assert ws'[i] == ws[i + 1];
    }
    forall i | 0 <= i < |gaps'| ensures AllSpace(gaps'[i]) {
      assert gaps'[i] == gaps[i + 1];
    }
    forall i | 0 < i < |ws'| ensures |gaps'[i]| > 0 {
      assert gaps'[i] == gaps[i + 1];
    }
  }

  /** `s.split()` finds the words of a text however wide its gaps: the
      inner gaps need only be non-empty runs of whitespace, and the outer
      ones any whitespace at all. */
  lemma {:induction false} WordsSpaced(ws: seq<string>, gaps: seq<string>)
    requires |gaps| == |ws| + 1
    requires forall i :: 0 <= i < |ws| ==> IsWord(ws[i])
    requires forall i :: 0 <= i < |gaps| ==> AllSpace(gaps[i])
    requires forall i :: 0 < i < |ws| ==> |gaps[i]| > 0
    ensures Words(Spaced(ws, gaps)) == ws
  {
    WordsShaped(ws, gaps);
  }

  lemma {:induction false} WordsShaped(ws: seq<string>, gaps: seq<string>)
    requires SpacedShape(ws, gaps)
    ensures Words(Spaced(ws, gaps)) == ws
    decreases |ws|
  {
    if ws == [] {
      WordsAfterGap(gaps[0], []);
      assert gaps[0] + [] == gaps[0];
    } else {
      SpacedShapeTail(ws, gaps);
      WordsShaped(ws[1..], gaps[1..]);
      WordsSpacedCons(ws, gaps);
    }
  }

  /** The words of a spaced text are its first word and the words of the
      rest. */
  lemma WordsSpacedCons(ws: seq<string>, gaps: seq<string>)
    requires SpacedShape(ws, gaps) && ws != []
    requires Words(Spaced(ws[1..], gaps[1..])) == ws[1..]
    ensures Words(Spaced(ws, gaps)) == ws
  {
    var rest := Spaced(ws[1..], gaps[1..]);
    SpacedHead(ws, gaps);
    WordsStep(ws[0], gaps[0], rest);
    assert ws == [ws[0]] + ws[1..];
  }

  /** A spaced text is its first gap, its first word, and the rest, which
      is empty or starts with whitespace. */
  lemma SpacedHead(ws: seq<string>, gaps: seq<string>)
    requires SpacedShape(ws, gaps) && ws != []
    ensures var rest := Spaced(ws[1..], gaps[1..]);
      && IsWord(ws[0]) && AllSpace(gaps[0])
      && (rest == [] || IsSpace(rest[0]))
      && Spaced(ws, gaps) == gaps[0] + (ws[0] + rest)
  {
    SpacedShapeTail(ws, gaps);
    SpacedStart(ws[1..], gaps[1..]);
  }


  /** A gap, a word, then a text that is empty or starts with whitespace. */
  lemma WordsStep(w: string, g: string, rest: string)
    requires IsWord(w) && AllSpace(g) && (rest == [] || IsSpace(rest[0]))
    ensures Words(g + (w + rest)) == [w] + Words(rest)
  {
    WordsAfterGap(g, w + rest);
    WordsWord(w, rest);
  }

  /** A spaced text starts with its first gap. */
  lemma SpacedStart(ws: seq<string>, gaps: seq<string>)
    requires |gaps| == |ws| + 1 && AllSpace(gaps[0])
    requires ws != [] ==> |gaps[0]| > 0
    ensures var s := Spaced(ws, gaps); s == [] || IsSpace(s[0])
  {
    if ws != [] {
      assert Spaced(ws, gaps)[0] == gaps[0][0];
    }
  }

  /** Whitespace in front of a text changes none of its words. */
  lemma {:induction false} WordsAfterGap(g: string, t: string)
    requires AllSpace(g)
    ensures Words(g + t) == Words(t)
    decreases |g|
  {
    if g == [] {
      assert g + t == t;
    } else {
      assert (g + t)[1..] == g[1..] + t;
      WordsDropSpace(g + t);
      WordsAfterGap(g[1..], t);
    }
  }

  /** A leading whitespace character is not part of any word. */
  lemma WordsDropSpace(s: string)
    requires s != [] && IsSpace(s[0])
    ensures Words(s) == Words(s[1..])
  {
    var k := LeadingSpaces(s);
    assert k == 1 + LeadingSpaces(s[1..]);
    assert s[k..] == s[1..][k - 1..];
  }

  /** A word followed by nothing or by whitespace is the first word. */
  lemma WordsWord(w: string, rest: string)
    requires IsWord(w) && (rest == [] || IsSpace(rest[0]))
    ensures Words(w + rest) == [w] + Words(rest)
  {
    var s := w + rest;
    assert LeadingSpaces(s) == 0 by {
      assert s[0] == w[0];
    }
    assert s[0..] == s;
    LeadingNonSpacesAppend(w, rest);
    assert LeadingNonSpaces(rest) == 0;
    assert s[..|w|] == w;
    assert s[|w|..] == rest;
  }

  /** Python's `s.split(c)`: the texts between the occurrences of `c`;
      never empty. */
  function SplitOn(s: string, c: char): (ps: seq<string>)
    ensures |ps| >= 1
    ensures forall i :: 0 <= i < |ps| ==> c !in ps[i]
    decreases |s|
  {
    match IndexOf(s, c)
    case None => [s]
    case Some(i) => [s[..i]] + SplitOn(s[i + 1..], c)
  }

  /** `c.join(ps)`. */
  function JoinWith(ps: seq<string>, c: char): string
    requires |ps| >= 1
  {
    if |ps| == 1 then ps[0] else ps[0] + [c] + JoinWith(ps[1..], c)
  }

  /** Splitting on `c` and joining with `c` gives the text back. */
  lemma {:induction false} JoinSplit(s: string, c: char)
    ensures JoinWith(SplitOn(s, c), c) == s
    decreases |s|
  {
    match IndexOf(s, c)
    case None =>
    case Some(i) =>
      JoinSplit(s[i + 1..], c);
      var ps := SplitOn(s, c);
      assert ps[1..] == SplitOn(s[i + 1..], c);
      assert s == s[..i] + [c] + s[i + 1..];
  }

  /** Joining parts without `c` and splitting on `c` gives the parts back. */
  lemma {:induction false} SplitJoin(ps: seq<string>, c: char)
    requires |ps| >= 1 && forall i :: 0 <= i < |ps| ==> c !in ps[i]
    ensures SplitOn(JoinWith(ps, c), c) == ps
    decreases |ps|
  {
    if |ps| > 1 {
      var head, rest := ps[0], JoinWith(ps[1..], c);
      assert JoinWith(ps, c) == head + [c] + rest;
      SplitOnFirst(head, c, rest);
      SplitJoin(ps[1..], c);
      assert [head] + ps[1..] == ps;
    }
  }

  /** Splitting at a first occurrence: the part before it, then the parts
      of the rest. */
  lemma SplitOnFirst(head: string, c: char, rest: string)
    requires c !in head
    ensures SplitOn(head + [c] + rest, c) == [head] + SplitOn(rest, c)
  {
    var s := head + [c] + rest;
    assert s[|head|] == c && s[..|head|] == head;
    IndexOfFirst(s, c, |head|);
    assert s[|head| + 1..] == rest;
  }

  /** The first occurrence is the one with none before it. */
  lemma {:induction false} IndexOfFirst(s: string, c: char, i: nat)
    requires i < |s| && s[i] == c && c !in s[..i]
    ensures IndexOf(s, c) == Some(i)
    decreases i
  {
    if i > 0 {
      assert s[1..][..i - 1] == s[..i][1..];
      IndexOfFirst(s[1..], c, i - 1);
    }
  }
}

=== FILE: urls.dfy ===
/** The authority part of a URL as `urllib.parse.urlparse(url).netloc`
    computes it, and the four ways the program turns an entry into a
    domain name. */
module Urls {
  import opened Wrappers
  import opened Text
  import opened Entries

  /** The label used when no domain can be named. */
  const Unknown: string := "Неизвестно"

  /** A C0 control character or the space: what `urlsplit` strips from
      the left of a URL. */
  predicate IsControlOrSpace(c: char) {
    c <= ' '
  }

  /** The characters `urlsplit` deletes anywhere in a URL. */
  predicate IsUnsafe(c: char) {
    c == '\t' || c == '\r' || c == '\n'
  }

  predicate IsAsciiLetter(c: char) {
    'a' <= c <= 'z' || 'A' <= c <= 'Z'
  }

  /** Letters, digits, `+`, `-` and `.`. */
  predicate IsSchemeChar(c: char) {
    IsAsciiLetter(c) || IsDigit(c) || c == '+' || c == '-' || c == '.'
  }

  /** The characters that end an authority. */
  predicate EndsAuthority(c: char) {
    c == '/' || c == '?' || c == '#'
  }

  /** `url.lstrip(...)` of the C0 controls and the space. */
  function StripControls(s: string): (r: string)
    ensures |r| <= |s| && r == s[|s| - |r|..]
    ensures r == [] || !IsControlOrSpace(r[0])
  {
    if s != [] && IsControlOrSpace(s[0]) then StripControls(s[1..]) else s
  }

  /** `url.replace('\t', '').replace('\r', '').replace('\n', '')`. */
  function RemoveUnsafe(s: string): (r: string)
    ensures forall i :: 0 <= i < |r| ==> !IsUnsafe(r[i])
    ensures forall c :: c in r ==> c in s
    ensures (forall i :: 0 <= i < |s| ==> !IsUnsafe(s[i])) ==> r == s
  {
    if s == [] then []
    else (if IsUnsafe(s[0]) then [] else [s[0]]) + RemoveUnsafe(s[1..])
  }

  /** A scheme: an ASCII letter, then scheme characters. */
  predicate IsScheme(s: string) {
    |s| > 0 && IsAsciiLetter(s[0]) && forall i :: 0 <= i < |s| ==> IsSchemeChar(s[i])
  }

  /** What follows the scheme and its colon, or the whole URL when the text
      before the first colon is not a scheme. */
  function AfterScheme(u: string): (r: string)
    ensures |r| <= |u| && r == u[|u| - |r|..]
  {
    match IndexOf(u, ':')
    case Some(i) =>
      if i > 0 && IsScheme(u[..i]) then u[i + 1..] else u
    case None => u
  }

  /** The length of the prefix free of `/`, `?` and `#`. */
  function AuthorityLength(s: string): (k: nat)
    ensures k <= |s|
    ensures forall i :: 0 <= i < k ==> !EndsAuthority(s[i])
    ensures k < |s| ==> EndsAuthority(s[k])
  {
    if s == [] || EndsAuthority(s[0]) then 0 else 1 + AuthorityLength(s[1..])
  }

  /** `urlparse(url).netloc`, or `None` where it raises `ValueError`
      because the authority holds one square bracket without the other. */
  function Netloc(url: string): (r: Option<string>)
    ensures r.Some? ==> forall i :: 0 <= i < |r.value| ==> !EndsAuthority(r.value[i])
    ensures r.Some? ==> ('[' in r.value <==> ']' in r.value)
    ensures r.Some? ==> forall c :: c in r.value ==> c in url
    ensures '[' !in url && ']' !in url ==> r.Some?
  {
    var cleaned := RemoveUnsafe(StripControls(url));
    var rest := AfterScheme(cleaned);
    var r := AuthorityOf(rest);
    CharsOfSuffix(url, StripControls(url));
    CharsOfSuffix(cleaned, rest);
    r
  }

  /** The characters of a suffix are characters of the whole. */
  lemma CharsOfSuffix(s: string, t: string)
    requires |t| <= |s| && t == s[|s| - |t|..]
    ensures forall c :: c in t ==> c in s
  {
    forall c | c in t ensures c in s {
      var i :| 0 <= i < |t| && t[i] == c;
      assert s[|s| - |t| + i] == c;
    }
  }

  /** The netloc of what follows the scheme: the text after a leading
      `//` up to the first `/`, `?` or `#`, and empty without `//`. */
  function AuthorityOf(rest: string): (r: Option<string>)
    ensures r.Some? ==> forall i :: 0 <= i < |r.value| ==> !EndsAuthority(r.value[i])
    ensures r.Some? ==> ('[' in r.value <==> ']' in r.value)
    ensures r.Some? ==> forall c :: c in r.value ==> c in rest
    ensures '[' !in rest && ']' !in rest ==> r.Some?
  {
    if |rest| >= 2 && rest[0] == '/' && rest[1] == '/' then
      var tail := rest[2..];
      var n := tail[..AuthorityLength(tail)];
      assert forall c :: c in n ==> c in rest by {
        forall c | c in n ensures c in rest {
          var i :| 0 <= i < |n| && n[i] == c;
          assert rest[i + 2] == c;
        }
      }
      if ('[' in n) != (']' in n) then None else Some(n)
    else Some([])
  }

  /** A URL that starts with a visible character and holds no tab or
      line break is left as it is before splitting. */
  lemma {:induction false} CleanUrl(url: string)
    requires url == [] || !IsControlOrSpace(url[0])
    requires forall i :: 0 <= i < |url| ==> !IsUnsafe(url[i])
    ensures RemoveUnsafe(StripControls(url)) == url
  {
  }

  /** A scheme and its colon are split off. */
  lemma {:induction false} AfterSchemeOf(scheme: string, rest: string)
    requires IsScheme(scheme)
    ensures AfterScheme(scheme + ":" + rest) == rest
  {
    var u := scheme + ":" + rest;
    assert ':' !in scheme by {
      forall i | 0 <= i < |scheme| ensures scheme[i] != ':' {
        assert IsSchemeChar(scheme[i]);
      }
    }
    assert u[|scheme|] == ':' && u[..|scheme|] == scheme;
    assert IndexOf(u, ':') == Some(|scheme|);
    assert u[|scheme| + 1..] == rest;
  }

  /** A URL written as scheme, `://`, authority and path finds its
      authority again. */
  lemma {:induction false} NetlocOfAuthority(scheme: string, host: string, path: string)
    requires IsScheme(scheme)
    requires forall i :: 0 <= i < |host| ==> !EndsAuthority(host[i]) && !IsUnsafe(host[i])
    requires forall i :: 0 <= i < |path| ==> !IsUnsafe(path[i])
    requires path == [] || EndsAuthority(path[0])
    requires '[' in host <==> ']' in host
    ensures Netloc(scheme + "://" + host + path) == Some(host)
  {
    var rest := "//" + host + path;
    var url := scheme + ":" + rest;
    assert url == scheme + "://" + host + path;
    UrlClean(scheme, host, path);
    CleanUrl(url);
    AfterSchemeOf(scheme, rest);
    AuthorityOfSlashes(host, path);
  }

  lemma {:induction false} UrlClean(scheme: string, host: string, path: string)
    requires IsScheme(scheme)
    requires forall i :: 0 <= i < |host| ==> !IsUnsafe(host[i])
    requires forall i :: 0 <= i < |path| ==> !IsUnsafe(path[i])
    ensures var url := scheme + ":" + ("//" + host + path);
      !IsControlOrSpace(url[0]) && forall i :: 0 <= i < |url| ==> !IsUnsafe(url[i])
  {
    var url := scheme + ":" + ("//" + host + path);
    assert url[0] == scheme[0];
    forall i | 0 <= i < |url| ensures !IsUnsafe(url[i]) {
      if i < |scheme| {
        assert url[i] == scheme[i];
      } else if i >= |scheme| + 3 + |host| {
        assert url[i] == path[i - |scheme| - 3 - |host|];
      } else if i >= |scheme| + 3 {
        assert url[i] == host[i - |scheme| - 3];
      }
    }
  }

  /** A URL like the above whose authority holds one square bracket but
      not the other makes `urlsplit` raise `ValueError`. */
  lemma {:induction false} NetlocUnbalanced(scheme: string, host: string, path: string)
    requires IsScheme(scheme)
    requires forall i :: 0 <= i < |host| ==> !EndsAuthority(host[i]) && !IsUnsafe(host[i])
    requires forall i :: 0 <= i < |path| ==> !IsUnsafe(path[i])
    requires path == [] || EndsAuthority(path[0])
    requires ('[' in host) != (']' in host)
    ensures Netloc(scheme + "://" + host + path) == None
  {
    var rest := "//" + host + path;
    var url := scheme + ":" + rest;
    assert url == scheme + "://" + host + path;
    UrlClean(scheme, host, path);
    CleanUrl(url);
    AfterSchemeOf(scheme, rest);
    AuthorityOfSlashes(host, path);
  }

  /** The authority after `//` is the host, and it is refused exactly when
      its brackets do not pair up. */
  lemma {:induction false} AuthorityOfSlashes(host: string, path: string)
    requires forall i :: 0 <= i < |host| ==> !EndsAuthority(host[i])
    requires path == [] || EndsAuthority(path[0])
    ensures AuthorityOf("//" + host + path) == if ('[' in host) != (']' in host) then None else Some(host)
  {
    var rest := "//" + host + path;
    assert rest[2..] == host + path;
    AuthorityLengthOf(host, path);
    assert (host + path)[..|host|] == host;
  }

  lemma {:induction false} AuthorityLengthOf(host: string, path: string)
    requires forall i :: 0 <= i < |host| ==> !EndsAuthority(host[i])
    requires path == [] || EndsAuthority(path[0])
    ensures AuthorityLength(host + path) == |host|
    decreases |host|
  {
    if host == [] {
      assert host + path == path;
    } else {
      assert (host + path)[1..] == host[1..] + path;
      AuthorityLengthOf(host[1..], path);
    }
  }

  /** Without a `/` there is no authority: a bare `CONNECT` target such
      as `example.com:443` has an empty netloc. */
  lemma {:induction false} NetlocWithoutSlashes(url: string)
    requires url == [] || !IsControlOrSpace(url[0])
    requires forall i :: 0 <= i < |url| ==> !IsUnsafe(url[i]) && url[i] != '/'
    ensures Netloc(url) == Some([])
  {
    CleanUrl(url);
    var rest := AfterScheme(url);
    if |rest| >= 2 {
      assert rest[0] == url[|url| - |rest|];
    }
  }

  /** `url.split(':')[0]`, the domain the program takes for `CONNECT`. */
  function HostOfTarget(url: string): (r: string)
    ensures |r| <= |url| && r == url[..|r|] && ':' !in r
    ensures |r| < |url| ==> url[|r|] == ':'
  {
    Before(url, ':')
  }

  /** The domain in `generate_domain_charts`: the target up to its first
      colon for `CONNECT`, the netloc otherwise, and the unknown label for
      an empty result or a raised error. */
  function ChartDomain(e: Entry): (r: string)
    ensures r != []
    ensures e.requestMethod != "CONNECT" && Netloc(e.url).Some? && Netloc(e.url).value != []
      ==> r == Netloc(e.url).value
    ensures e.requestMethod != "CONNECT" && (Netloc(e.url).None? || Netloc(e.url).value == [])
      ==> r == Unknown
    ensures e.requestMethod == "CONNECT" && HostOfTarget(e.url) != [] ==> r == HostOfTarget(e.url)
    ensures e.requestMethod == "CONNECT" && HostOfTarget(e.url) == [] ==> r == Unknown
  {
    var d := if e.requestMethod == "CONNECT" then Some(HostOfTarget(e.url)) else Netloc(e.url);
    match d
    case Some(name) => if name == [] then Unknown else name
    case None => Unknown
  }

  /** `get_domain` in the dashboard: only a raised error becomes the
      unknown label; an empty netloc stays empty. */
  function DashboardDomain(url: string, requestMethod: string): (r: string)
    ensures requestMethod == "CONNECT" ==> r == HostOfTarget(url)
    ensures requestMethod != "CONNECT" && Netloc(url).Some? ==> r == Netloc(url).value
    ensures requestMethod != "CONNECT" && Netloc(url).None? ==> r == Unknown
  {
    if requestMethod == "CONNECT" then HostOfTarget(url)
    else Netloc(url).GetOr(Unknown)
  }

  /** The domain counted by `get_traffic_stats`: `None` when it is empty or
      when `urlparse` raises, and then the entry is not counted. */
  function StatsDomain(e: Entry): (r: Option<string>)
    ensures r.Some? ==> r.value != []
    ensures e.requestMethod == "CONNECT" ==> (r.Some? <==> HostOfTarget(e.url) != [])
    ensures e.requestMethod != "CONNECT" ==> (r.Some? <==> Netloc(e.url).Some? && Netloc(e.url).value != [])
    ensures r.Some? && e.requestMethod != "CONNECT" ==> Netloc(e.url) == r
  {
    var d := if e.requestMethod == "CONNECT" then Some(HostOfTarget(e.url)) else Netloc(e.url);
    match d
    case Some(name) => if name == [] then None else Some(name)
    case None => None
  }

  /** The domain of a connection in `UserDetailView`: the netloc whatever
      the method, the unknown label on a raised error. */
  function DetailDomain(url: string): (r: string)
    ensures Netloc(url).Some? ==> r == Netloc(url).value
    ensures Netloc(url).None? ==> r == Unknown
  {
    Netloc(url).GetOr(Unknown)
  }

  /** A `CONNECT` entry's URL carries the `https://` the parser put in
      front of its target, so every `split(':')[0]` variant names its
      domain "https", whatever host it went to. */
  lemma {:induction false} ConnectDomainIsHttps(e: Entry, target: string)
    requires e.requestMethod == "CONNECT" && e.url == "https://" + target
    ensures HostOfTarget(e.url) == "https"
    ensures ChartDomain(e) == "https"
    ensures DashboardDomain(e.url, e.requestMethod) == "https"
    ensures StatsDomain(e) == Some("https")
  {
    assert e.url[5] == ':';
    assert ':' !in e.url[..5];
    assert IndexOf(e.url, ':') == Some(5);
  }
}

=== FILE: views.dfy ===
/** The three pages built from the log: the dashboard, the users list and
    the detail page of one client.  Only the data each page is handed is
    modelled: the figures, the size formatting, the host-name lookups and
    the pagination are not.  A refresh the page enqueues is a flag. */
module Views {
  import opened Wrappers
  import opened Seqs
  import opened Entries
  import opened Sorting
  import opened Tally
  import opened Urls
  import opened Clients
  import opened TailReader
  import opened Cache
  import opened Queries
  import opened Tasks

  /** How many log lines a page reads when the cache cannot serve it. */
  const QuickLines: nat := 10000
  /** How many log lines the detail page reads. */
  const DetailLines: nat := 50000
  /** How many domains the detail page lists. */
  const DetailTopDomains: nat := 10

  /** The window `_get_cached_entries` cuts a freshly read log to. */
  function PeriodWindow(period: string): int {
    if period == "day" then DayWindow
    else if period == "month" then MonthWindow
    else YearWindow
  }

  /** The window of a page, in hours: a day for "day", thirty days for
      anything else. */
  function PeriodHours(period: string): int {
    if period == "day" then 24 else 720
  }

  /** `_get_cached_entries`: the list cached under the period's key when
      there is one (an empty list counts), otherwise the last lines of the
      log cut to the period's window, with a refresh enqueued. */
  function CachedEntries(store: Store, file: LogFile, now: int, period: string): (seq<Entry>, bool) {
    match Get(store.entryLists, EntriesKey(period), now)
    case Some(entries) => (entries, false)
    case None => (Since(GetLastLines(file, QuickLines), now - PeriodWindow(period)), true)
  }

  /** On a hit the cached list is returned as it is, even when empty, and
      nothing is enqueued; on a miss a refresh is enqueued and at most ten
      thousand entries come back, all within the period's window (a day,
      thirty days, or a year for any other period). */
  lemma CachedEntriesCases(store: Store, file: LogFile, now: int, period: string)
    ensures var (es, refresh) := CachedEntries(store, file, now, period);
      Get(store.entryLists, EntriesKey(period), now).Some? ==>
        !refresh && es == Get(store.entryLists, EntriesKey(period), now).value
    ensures var (es, refresh) := CachedEntries(store, file, now, period);
      Get(store.entryLists, EntriesKey(period), now).None? ==>
        && refresh && |es| <= QuickLines
        && multiset(es) <= multiset(GetLastLines(file, QuickLines))
        && forall i :: 0 <= i < |es| ==>
             es[i].timestamp >= now - (if period == "day" then DayWindow
                                      else if period == "month" then MonthWindow else YearWindow)
  {
    FilterMultiset(GetLastLines(file, QuickLines), AtOrAfter(now - PeriodWindow(period)));
  }

  /** A period other than the three the task writes is never cached, so
      it is read from the log on every request. */
  lemma UntouchedPeriod(store: Store, file: LogFile, now: int, period: string, t: int)
    requires period != "all" && period != "day" && period != "month"
    ensures var s := UpdateLogCache(store, file, now).0;
      Get(s.entryLists, EntriesKey(period), t) == Get(store.entryLists, EntriesKey(period), t)
  {
    assert EntriesKey(period)[|EntriesPrefix|..] == period;
    assert EntriesKey("all")[|EntriesPrefix|..] == "all";
    assert EntriesKey("day")[|EntriesPrefix|..] == "day";
    assert EntriesKey("month")[|EntriesPrefix|..] == "month";
  }

  /** The client addresses of a list, as a set. */
  function ClientSet(es: seq<Entry>): set<string> {
    set i | 0 <= i < |es| :: es[i].clientAddress
  }

  /** The dashboard's domain of an entry. */
  function DashboardDomainOf(e: Entry): string {
    DashboardDomain(e.url, e.requestMethod)
  }

  /** The rows the traffic figure is drawn from: hours for "day", days for
      "month", none for any other period or without rows. */
  function TrafficChart(period: string, hourly: seq<Row<int>>, daily: seq<Row<int>>): Option<seq<Row<int>>> {
    if period == "day" && hourly != [] then Some(SortBy(hourly, RowKey))
    else if period == "month" && daily != [] then Some(SortBy(daily, RowKey))
    else None
  }

  /** The rows the domain figure is drawn from: the ten busiest domains. */
  function DomainsChart(domains: seq<Row<string>>): Option<seq<Row<string>>> {
    if domains != [] then Some(TopRows(domains)) else None
  }

  /** What the dashboard is handed.  The traffic total is the number the
      page formats. */
  datatype Dashboard = Dashboard(
    totalTraffic: nat,
    totalRequests: nat,
    activeUsers: nat,
    hourly: seq<Row<int>>,
    daily: seq<Row<int>>,
    domains: seq<Row<string>>,
    trafficChart: Option<seq<Row<int>>>,
    domainsChart: Option<seq<Row<string>>>,
    period: string,
    refreshQueued: bool)

  /** The entries the dashboard counts: those of the cached or read list
      within the page's window.  The page reads the clock twice: `now`
      sets its own window before the list is fetched, and `later` is the
      reading `_get_cached_entries` takes after it read the log, which also
      stands for the instant of its cache lookup. */
  function DashboardEntries(store: Store, file: LogFile, now: int, later: int, period: string): seq<Entry> {
    Since(CachedEntries(store, file, later, period).0, now - PeriodHours(period) * HourSeconds)
  }

  /** `DashboardView.get_context_data`.  The loop fills each table
      independently, so each is a grouping of the same entries. */
  function DashboardContext(store: Store, file: LogFile, now: int, later: int, period: string): Dashboard {
    DashboardOf(DashboardEntries(store, file, now, later, period), period, CachedEntries(store, file, later, period).1)
  }

  /** The dashboard built from the entries it counts. */
  function DashboardOf(w: seq<Entry>, period: string, refreshQueued: bool): Dashboard {
    var hourly := if period == "day" then Group(w, Hour, EntryBytes) else [];
    var daily := if period == "day" then [] else Group(w, Day, EntryBytes);
    var domains := Group(w, DashboardDomainOf, EntryBytes);
    Dashboard(SumBytes(w), |w|, |ClientSet(w)|, hourly, daily, domains,
              TrafficChart(period, hourly, daily), DomainsChart(domains),
              period, refreshQueued)
  }

  /** The number of active users is the number of distinct addresses,
      the empty one included. */
  lemma ClientSetSize(es: seq<Entry>)
    ensures |ClientSet(es)| == |FirstKeys(es, Address)|
  {
    var ks := FirstKeys(es, Address);
    var a, b := ClientSet(es), set j | 0 <= j < |ks| :: ks[j];
    forall x | x in a ensures x in b {
      var i :| 0 <= i < |es| && es[i].clientAddress == x;
      assert Address(es[i]) in ks;
      var j :| 0 <= j < |ks| && ks[j] == x;
    }
    forall x | x in b ensures x in a {
      var j :| 0 <= j < |ks| && ks[j] == x;
      var i :| 0 <= i < |es| && Address(es[i]) == ks[j];
      assert es[i].clientAddress == x;
    }
    assert a == b;
    DistinctCard(ks);
  }

  /** Every counted entry lies in the window; the totals are the number and
      the bytes of the counted entries; the domain table and whichever time
      table the period fills (hours for "day", days otherwise) account for
      every counted entry; the active users are the distinct addresses. */
  lemma DashboardTotals(store: Store, file: LogFile, now: int, later: int, period: string)
    ensures var d, w := DashboardContext(store, file, now, later, period), DashboardEntries(store, file, now, later, period);
      && (forall i :: 0 <= i < |w| ==> w[i].timestamp >= now - PeriodHours(period) * HourSeconds)
      && d.totalRequests == |w| && d.totalTraffic == SumBytes(w)
      && SumOf(d.domains, RowRequests) == d.totalRequests
      && SumOf(d.domains, RowTraffic) == d.totalTraffic
      && d.activeUsers == |FirstKeys(w, Address)|
    ensures var d := DashboardContext(store, file, now, later, period);
      period == "day" ==>
        d.daily == [] && SumOf(d.hourly, RowRequests) == d.totalRequests
        && SumOf(d.hourly, RowTraffic) == d.totalTraffic
    ensures var d := DashboardContext(store, file, now, later, period);
      period != "day" ==>
        d.hourly == [] && SumOf(d.daily, RowRequests) == d.totalRequests
        && SumOf(d.daily, RowTraffic) == d.totalTraffic
  {
    var w := DashboardEntries(store, file, now, later, period);
    TotalsOf(w, period, CachedEntries(store, file, later, period).1);
  }

  /** The totals and tables of a dashboard over the entries `w`. */
  lemma TotalsOf(w: seq<Entry>, period: string, q: bool)
    ensures var d := DashboardOf(w, period, q);
      && d.totalRequests == |w| && d.totalTraffic == SumBytes(w)
      && SumOf(d.domains, RowRequests) == d.totalRequests
      && SumOf(d.domains, RowTraffic) == d.totalTraffic
      && d.activeUsers == |FirstKeys(w, Address)|
    ensures var d := DashboardOf(w, period, q);
      period == "day" ==>
        d.daily == [] && SumOf(d.hourly, RowRequests) == d.totalRequests
        && SumOf(d.hourly, RowTraffic) == d.totalTraffic
    ensures var d := DashboardOf(w, period, q);
      period != "day" ==>
        d.hourly == [] && SumOf(d.daily, RowRequests) == d.totalRequests
        && SumOf(d.daily, RowTraffic) == d.totalTraffic
  {
    GroupTotals(w, DashboardDomainOf, EntryBytes);
    GroupTotals(w, Hour, EntryBytes);
    GroupTotals(w, Day, EntryBytes);
    ClientSetSize(w);
  }

  /** The traffic figure is drawn exactly when the period is "day" or
      "month" and some entry is counted, from rows in time order that add
      up to the traffic total; the domain figure is drawn exactly when some
      entry is counted, from at most ten rows in ascending request order,
      none of the domains left out busier than one drawn. */
  lemma DashboardCharts(store: Store, file: LogFile, now: int, later: int, period: string)
    ensures var d := DashboardContext(store, file, now, later, period);
      d.trafficChart.Some? <==> (period == "day" || period == "month") && d.totalRequests > 0
    ensures var d := DashboardContext(store, file, now, later, period);
      d.trafficChart.Some? ==>
        SortedBy(d.trafficChart.value, RowKey) && SumOf(d.trafficChart.value, RowTraffic) == d.totalTraffic
    ensures var d := DashboardContext(store, file, now, later, period);
      d.domainsChart.Some? <==> d.totalRequests > 0
    ensures var d := DashboardContext(store, file, now, later, period);
      d.domainsChart.Some? ==>
        var top, rest := d.domainsChart.value, Rest(d.domains, RequestKey, TopDomains);
        && |top| == (if |d.domains| < TopDomains then |d.domains| else TopDomains)
        && SortedBy(top, RequestKey)
        && multiset(top) + multiset(rest) == multiset(d.domains)
        && forall i, j :: 0 <= i < |rest| && 0 <= j < |top| ==> rest[i].requests <= top[j].requests
  {
    ChartsOf(DashboardEntries(store, file, now, later, period), period, CachedEntries(store, file, later, period).1);
  }

  /** The charts of a dashboard over the entries `w`. */
  lemma ChartsOf(w: seq<Entry>, period: string, q: bool)
    ensures var d := DashboardOf(w, period, q);
      d.trafficChart.Some? <==> (period == "day" || period == "month") && d.totalRequests > 0
    ensures var d := DashboardOf(w, period, q);
      d.trafficChart.Some? ==>
        SortedBy(d.trafficChart.value, RowKey) && SumOf(d.trafficChart.value, RowTraffic) == d.totalTraffic
    ensures var d := DashboardOf(w, period, q);
      d.domainsChart.Some? <==> d.totalRequests > 0
    ensures var d := DashboardOf(w, period, q);
      d.domainsChart.Some? ==>
        var top, rest := d.domainsChart.value, Rest(d.domains, RequestKey, TopDomains);
        && |top| == (if |d.domains| < TopDomains then |d.domains| else TopDomains)
        && SortedBy(top, RequestKey)
        && multiset(top) + multiset(rest) == multiset(d.domains)
        && forall i, j :: 0 <= i < |rest| && 0 <= j < |top| ==> rest[i].requests <= top[j].requests
  {
    var d := DashboardOf(w, period, q);
    GroupEmpty(w, Hour, EntryBytes);
    GroupEmpty(w, Day, EntryBytes);
    GroupEmpty(w, DashboardDomainOf, EntryBytes);
    TotalsOf(w, period, q);
    if d.trafficChart.Some? {
      var rows := if period == "day" then d.hourly else d.daily;
      SortBySorted(rows, RowKey);
      SortBySum(rows, RowKey, RowTraffic);
    }
    TopRowsSelect(d.domains);
  }

  /** The window a page counts, in seconds: a day for "day", thirty days
      for any other period. */
  function PageWindow(period: string): int {
    if period == "day" then DayWindow else MonthWindow
  }

  /** Without a cached list the dashboard enqueues a refresh and counts the
      last lines of the log at or after the later of two limits: its own
      window taken at `now`, and the period's read window taken at `later`.
      With a single clock reading that is the page window, since the
      year-long read window of other periods is wider. */
  lemma DashboardMiss(store: Store, file: LogFile, now: int, later: int, period: string)
    requires Get(store.entryLists, EntriesKey(period), later).None?
    ensures DashboardContext(store, file, now, later, period).refreshQueued
    ensures var page, read := now - PageWindow(period), later - PeriodWindow(period);
      DashboardEntries(store, file, now, later, period)
        == Since(GetLastLines(file, QuickLines), if page < read then read else page)
    ensures now == later ==>
      DashboardEntries(store, file, now, later, period)
        == Since(GetLastLines(file, QuickLines), now - PageWindow(period))
  {
    MissWindow(GetLastLines(file, QuickLines), now, later, period);
  }

  /** On a miss for "day" the later clock reading drops the entries at the
      start of the page's window: an entry read from the log that is newer
      than a day before `now` but not newer than a day before `later` is
      not counted, though it lies in the page's window. */
  lemma DayMissDropsEdge(store: Store, file: LogFile, now: int, later: int, e: Entry)
    requires Get(store.entryLists, EntriesKey("day"), later).None?
    requires e in GetLastLines(file, QuickLines)
    requires now - DayWindow <= e.timestamp < later - DayWindow
    ensures e.timestamp >= now - PeriodHours("day") * HourSeconds
    ensures e !in DashboardEntries(store, file, now, later, "day")
  {
    DashboardMiss(store, file, now, later, "day");
  }

  /** The page window cut out of the read window is the window at the
      later limit; with one clock reading the page window is the later. */
  lemma MissWindow(es: seq<Entry>, now: int, later: int, period: string)
    ensures var page, read := now - PageWindow(period), later - PeriodWindow(period);
      Since(Since(es, read), now - PeriodHours(period) * HourSeconds)
        == Since(es, if page < read then read else page)
    ensures now == later ==>
      Since(Since(es, later - PeriodWindow(period)), now - PeriodHours(period) * HourSeconds)
        == Since(es, now - PageWindow(period))
  {
    var page, read := now - PageWindow(period), later - PeriodWindow(period);
    assert page == now - PeriodHours(period) * HourSeconds;
    SinceTwice(es, read, page);
    if now == later {
      assert read <= page;
    }
  }

  /** Within five minutes of the log task, the dashboard for "all", "day"
      or "month" enqueues nothing and counts the window of the whole log
      the task read. */
  lemma DashboardAfterTask(store: Store, file: LogFile, taskTime: int, now: int, later: int, period: string)
    requires period == "all" || period == "day" || period == "month"
    requires taskTime <= now && taskTime <= later < taskTime + TaskTtl
    ensures var s := UpdateLogCache(store, file, taskTime).0;
      && !DashboardContext(s, file, now, later, period).refreshQueued
      && DashboardEntries(s, file, now, later, period)
         == Since(GetLastLines(file, 0), now - PeriodHours(period) * HourSeconds)
  {
    UpdateLogCacheStores(store, file, taskTime, later);
    var es := GetLastLines(file, 0);
    var s := UpdateLogCache(store, file, taskTime).0;
    assert CachedEntries(s, file, later, period).0 == TaskList(es, taskTime, period);
    TaskWindow(es, taskTime, now, period);
  }

  /** The list the log task caches for a period. */
  function TaskList(es: seq<Entry>, taskTime: int, period: string): seq<Entry> {
    if period == "day" then Since(es, taskTime - DayWindow)
    else if period == "month" then Since(es, taskTime - MonthWindow)
    else es
  }

  /** A page window taken later than the task is inside the window the
      task cached. */
  lemma TaskWindow(es: seq<Entry>, taskTime: int, now: int, period: string)
    requires taskTime <= now
    ensures Since(TaskList(es, taskTime, period), now - PeriodHours(period) * HourSeconds)
         == Since(es, now - PeriodHours(period) * HourSeconds)
  {
    var limit := now - PeriodHours(period) * HourSeconds;
    if period == "day" {
      SinceNarrow(es, limit, taskTime - DayWindow);
    } else if period == "month" {
      SinceNarrow(es, limit, taskTime - MonthWindow);
    }
  }

  /** A bare target with no `/` (and nothing the URL parser strips) has an
      empty netloc: the dashboard counts it under the empty domain, while
      the domain task names it unknown and the statistics skip it. */
  lemma EmptyDomainKept(e: Entry)
    requires e.requestMethod != "CONNECT"
    requires e.url == [] || !IsControlOrSpace(e.url[0])
    requires forall i :: 0 <= i < |e.url| ==> !IsUnsafe(e.url[i]) && e.url[i] != '/'
    ensures DashboardDomainOf(e) == []
    ensures ChartDomain(e) == Unknown
    ensures StatsDomain(e).None?
  {
    NetlocWithoutSlashes(e.url);
    EmptyNetlocNamed(e);
  }

  /** How each page names an entry whose netloc is empty. */
  lemma EmptyNetlocNamed(e: Entry)
    requires e.requestMethod != "CONNECT" && Netloc(e.url) == Some([])
    ensures DashboardDomainOf(e) == [] && ChartDomain(e) == Unknown && StatsDomain(e).None?
  {
  }

  /** `x['month_requests']` as a sort key. */
  function MonthRequestsKey(s: ClientStat): int {
    s.monthRequests
  }

  /** `stats['month_requests'] > 0`. */
  function ActiveInMonth(): ClientStat -> bool {
    (s: ClientStat) => s.monthRequests > 0
  }

  /** The users list built from entries: the per-client table of the
      day and month windows, clients without a request in the month
      dropped, busiest first. */
  function UsersListRows(es: seq<Entry>, now: int): seq<ClientStat> {
    SortDescending(Filter(ClientsOf(es, now - DayWindow, now - MonthWindow), ActiveInMonth()), MonthRequestsKey)
  }

  /** `UsersListView.get_context_data`: the list cached under
      `users_list_data` when there is one, otherwise the list built from the
      last lines of the log, cached for a minute, with a refresh enqueued.
      Returns the store, the list and whether a refresh was enqueued. */
  function UsersList(store: Store, file: LogFile, now: int): (Store, seq<ClientStat>, bool) {
    match Get(store.clientTables, UsersListKey, now)
    case Some(rows) => (store, rows, false)
    case None =>
      var rows := UsersListRows(GetLastLines(file, QuickLines), now);
      (store.(clientTables := Put(store.clientTables, UsersListKey, rows, now, ViewTtl)), rows, true)
  }

  /** Every listed client made a request in the month, has an address,
      and its row holds its reference numbers. */
  lemma UsersListRowSound(es: seq<Entry>, now: int, i: nat)
    requires i < |UsersListRows(es, now)|
    ensures var row := UsersListRows(es, now)[i];
      && row.monthRequests > 0 && row.address != []
      && Expected(es, row.address, now - DayWindow, now - MonthWindow) == Some(row)
  {
    var table := ClientsOf(es, now - DayWindow, now - MonthWindow);
    var active := Filter(table, ActiveInMonth());
    var rows := UsersListRows(es, now);
    SortDescendingOrdered(active, MonthRequestsKey);
    assert rows[i] in multiset(active);
    assert rows[i] in table;
    var k :| 0 <= k < |table| && table[k] == rows[i];
    UsersCacheRows(es, now - DayWindow, now - MonthWindow);
  }

  /** The list is busiest first; it holds the active rows of the table and
      nothing else; clients with equal month requests keep the order of
      their first entries in the log. */
  lemma UsersListRowsOrdered(es: seq<Entry>, now: int, c: int)
    ensures var rows := UsersListRows(es, now);
      forall i, j :: 0 <= i < j < |rows| ==> rows[i].monthRequests >= rows[j].monthRequests
    ensures var table := ClientsOf(es, now - DayWindow, now - MonthWindow);
      multiset(UsersListRows(es, now)) == multiset(Filter(table, ActiveInMonth()))
    ensures var table := ClientsOf(es, now - DayWindow, now - MonthWindow);
      var tie := HasKey(Negated(MonthRequestsKey), c);
      Filter(UsersListRows(es, now), tie) == Filter(Filter(table, ActiveInMonth()), tie)
  {
    var active := Filter(ClientsOf(es, now - DayWindow, now - MonthWindow), ActiveInMonth());
    SortDescendingOrdered(active, MonthRequestsKey);
    SortByStable(active, Negated(MonthRequestsKey), c);
    var rows := UsersListRows(es, now);
    forall i, j | 0 <= i < j < |rows| ensures rows[i].monthRequests >= rows[j].monthRequests {
      assert MonthRequestsKey(rows[i]) >= MonthRequestsKey(rows[j]);
    }
  }

  /** Every client with an address and an entry in the month window is
      listed. */
  lemma UsersListComplete(es: seq<Entry>, now: int, j: nat)
    requires j < |es| && es[j].clientAddress != [] && es[j].timestamp >= now - MonthWindow
    ensures exists i :: 0 <= i < |UsersListRows(es, now)| && UsersListRows(es, now)[i].address == es[j].clientAddress
  {
    var dl, ml := now - DayWindow, now - MonthWindow;
    var table := ClientsOf(es, dl, ml);
    var active := Filter(table, ActiveInMonth());
    TableRowOf(es, dl, ml, j);
    var k :| 0 <= k < |table| && table[k].address == es[j].clientAddress && table[k].monthRequests > 0;
    assert ActiveInMonth()(table[k]);
    assert table[k] in active;
    SortDescendingOrdered(active, MonthRequestsKey);
    assert table[k] in multiset(UsersListRows(es, now));
  }

  /** A client with an address and an entry in the month window has a row
      in the table, with at least one month request. */
  lemma TableRowOf(es: seq<Entry>, dayLimit: int, monthLimit: int, j: nat)
    requires j < |es| && es[j].clientAddress != [] && es[j].timestamp >= monthLimit
    ensures var table := ClientsOf(es, dayLimit, monthLimit);
      exists k :: 0 <= k < |table| && table[k].address == es[j].clientAddress && table[k].monthRequests > 0
  {
    var ip := es[j].clientAddress;
    var table := ClientsOf(es, dayLimit, monthLimit);
    InTable(es, dayLimit, monthLimit, j);
    var k :| 0 <= k < |table| && Addresses(table)[k] == ip;
    UsersCacheRows(es, dayLimit, monthLimit);
    MonthCounted(es, ip, dayLimit, monthLimit, j);
  }

  /** Every non-empty address of the log has a row. */
  lemma InTable(es: seq<Entry>, dayLimit: int, monthLimit: int, j: nat)
    requires j < |es| && es[j].clientAddress != []
    ensures es[j].clientAddress in Addresses(ClientsOf(es, dayLimit, monthLimit))
  {
    var has := Filter(es, HasAddress());
    assert es[j] in has;
    var m :| 0 <= m < |has| && has[m] == es[j];
    assert Address(has[m]) in FirstKeys(has, Address);
    ClientsOfAddresses(es, dayLimit, monthLimit);
  }

  /** A client with an entry in the month window has a reference row with
      at least one month request. */
  lemma MonthCounted(es: seq<Entry>, ip: string, dayLimit: int, monthLimit: int, j: nat)
    requires j < |es| && es[j].clientAddress == ip && es[j].timestamp >= monthLimit
    ensures Expected(es, ip, dayLimit, monthLimit).Some?
    ensures Expected(es, ip, dayLimit, monthLimit).value.monthRequests > 0
  {
    var mine := Filter(es, FromClient(ip));
    assert es[j] in mine;
    assert es[j] in Since(mine, monthLimit);
  }

  /** On a miss the list built from the log is served and cached for a
      minute, and the table the users task writes is left alone; on a hit
      the cached list is served as it is and nothing changes. */
  lemma UsersListCaches(store: Store, file: LogFile, now: int, t: int)
    requires now <= t
    ensures var (s, rows, refresh) := UsersList(store, file, now);
      Get(store.clientTables, UsersListKey, now).Some? ==>
        s == store && !refresh && rows == Get(store.clientTables, UsersListKey, now).value
    ensures var (s, rows, refresh) := UsersList(store, file, now);
      Get(store.clientTables, UsersListKey, now).None? ==>
        && refresh && rows == UsersListRows(GetLastLines(file, QuickLines), now)
        && (t < now + ViewTtl ==> Get(s.clientTables, UsersListKey, t) == Some(rows))
        && (t >= now + ViewTtl ==> Get(s.clientTables, UsersListKey, t).None?)
        && Get(s.clientTables, UsersStatsKey, t) == Get(store.clientTables, UsersStatsKey, t)
        && s.entryLists == store.entryLists
  {
    if Get(store.clientTables, UsersListKey, now).None? {
      ListCached(store, UsersListRows(GetLastLines(file, QuickLines), now), now, t);
    }
  }

  /** Caching the list for a minute leaves the users task's table alone. */
  lemma ListCached(store: Store, rows: seq<ClientStat>, now: int, t: int)
    requires now <= t
    ensures var s := store.(clientTables := Put(store.clientTables, UsersListKey, rows, now, ViewTtl));
      && (t < now + ViewTtl ==> Get(s.clientTables, UsersListKey, t) == Some(rows))
      && (t >= now + ViewTtl ==> Get(s.clientTables, UsersListKey, t).None?)
      && Get(s.clientTables, UsersStatsKey, t) == Get(store.clientTables, UsersStatsKey, t)
  {
    KeysDistinct();
  }

  /** The users task never serves the page: what the page finds after the
      task ran is what it would have found without it. */
  lemma UsersTaskDoesNotFeedList(store: Store, file: LogFile, taskTime: int, now: int)
    ensures var s := UpdateUsersCache(store, file, taskTime).0;
      UsersList(s, file, now).1 == UsersList(store, file, now).1
      && UsersList(s, file, now).2 == UsersList(store, file, now).2
  {
    var s := UpdateUsersCache(store, file, taskTime).0;
    assert Get(s.clientTables, UsersListKey, now) == Get(store.clientTables, UsersListKey, now) by {
      KeysDistinct();
      var cached := Get(store.entryLists, EntriesKey("all"), taskTime);
      var entries := if cached.Some? && cached.value != [] then cached.value else GetLastLines(file, 0);
      var table := ClientsOf(entries, taskTime - DayWindow, taskTime - MonthWindow);
      assert s.clientTables == Put(store.clientTables, UsersStatsKey, table, taskTime, TaskTtl);
      PutOther(store.clientTables, UsersStatsKey, table, taskTime, TaskTtl, UsersListKey, now);
    }
    SameListKey(s, store, file, now);
  }

  /** The users page depends on the store only through `users_list_data`. */
  lemma SameListKey(a: Store, b: Store, file: LogFile, now: int)
    requires Get(a.clientTables, UsersListKey, now) == Get(b.clientTables, UsersListKey, now)
    ensures UsersList(a, file, now).1 == UsersList(b, file, now).1
    ensures UsersList(a, file, now).2 == UsersList(b, file, now).2
  {
  }

  /** The detail page's domain of an entry: the netloc whatever the
      method. */
  function DetailDomainOf(e: Entry): string {
    DetailDomain(e.url)
  }

  /** What the detail page is handed.  `connections` holds every entry of
      the client, newest first; the other fields cover the window only. */
  datatype UserDetail = UserDetail(
    connections: seq<Entry>,
    totalTraffic: nat,
    totalRequests: nat,
    hourly: seq<Row<int>>,
    daily: seq<Row<int>>,
    domains: seq<Row<string>>,
    domainStats: seq<Row<string>>,
    trafficChart: Option<seq<Row<int>>>,
    domainsChart: Option<seq<Row<string>>>,
    period: string)

  /** The client's entries among the last lines of the log. */
  function UserEntries(file: LogFile, ip: string): seq<Entry> {
    Filter(GetLastLines(file, DetailLines), FromClient(ip))
  }

  /** The client's entries within the page's window. */
  function UserWindow(file: LogFile, ip: string, now: int, period: string): seq<Entry> {
    Since(UserEntries(file, ip), now - PeriodHours(period) * HourSeconds)
  }

  /** The client's entries, newest first. */
  function Connections(file: LogFile, ip: string): seq<Entry> {
    SortDescending(UserEntries(file, ip), Timestamp)
  }

  /** The page built from the client's connections and its window. */
  function DetailOf(connections: seq<Entry>, w: seq<Entry>, period: string): UserDetail {
    var hourly := Group(w, Hour, EntryBytes);
    var daily := Group(w, Day, EntryBytes);
    var domains := Group(w, DetailDomainOf, EntryBytes);
    UserDetail(connections, SumBytes(w), |w|,
               hourly, daily, domains,
               Take(SortDescending(domains, RequestKey), DetailTopDomains),
               TrafficChart(period, hourly, daily), DomainsChart(domains), period)
  }

  /** `UserDetailView.get_context_data`.  Both time tables are filled
      whatever the period. */
  function UserDetailOf(file: LogFile, ip: string, now: int, period: string): UserDetail {
    DetailOf(Connections(file, ip), UserWindow(file, ip, now, period), period)
  }

  /** The connections are the client's entries and nothing else, newest
      first. */
  lemma UserConnectionsListed(file: LogFile, ip: string)
    ensures var c := Connections(file, ip);
      && multiset(c) == multiset(UserEntries(file, ip))
      && (forall i :: 0 <= i < |c| ==> c[i].clientAddress == ip)
      && (forall i, j :: 0 <= i < j < |c| ==> c[i].timestamp >= c[j].timestamp)
  {
    var mine := UserEntries(file, ip);
    OwnEntries(GetLastLines(file, DetailLines), ip);
    ClientConnections(mine, ip);
  }

  /** The entries a filter by client keeps are that client's. */
  lemma OwnEntries(es: seq<Entry>, ip: string)
    ensures var mine := Filter(es, FromClient(ip));
      forall i :: 0 <= i < |mine| ==> mine[i].clientAddress == ip
  {
  }

  /** One client's entries sorted newest first stay that client's
      entries, each once. */
  lemma ClientConnections(mine: seq<Entry>, ip: string)
    requires forall i :: 0 <= i < |mine| ==> mine[i].clientAddress == ip
    ensures var c := SortDescending(mine, Timestamp);
      && multiset(c) == multiset(mine)
      && (forall i :: 0 <= i < |c| ==> c[i].clientAddress == ip)
      && (forall i, j :: 0 <= i < j < |c| ==> c[i].timestamp >= c[j].timestamp)
  {
    var c := SortDescending(mine, Timestamp);
    assert multiset(c) == multiset(mine) by {
      SortDescendingOrdered(mine, Timestamp);
    }
    NewestFirst(mine);
    SameClient(mine, c, ip);
  }

  /** Connections of the same second keep their log order. */
  lemma UserConnectionsStable(file: LogFile, ip: string, t: int)
    ensures var same := HasKey(Negated(Timestamp), t);
      Filter(Connections(file, ip), same) == Filter(UserEntries(file, ip), same)
  {
    SortByStable(UserEntries(file, ip), Negated(Timestamp), t);
  }

  /** Sorting by time, newest first. */
  lemma NewestFirst(es: seq<Entry>)
    ensures var c := SortDescending(es, Timestamp);
      forall i, j :: 0 <= i < j < |c| ==> c[i].timestamp >= c[j].timestamp
  {
    var c := SortDescending(es, Timestamp);
    SortDescendingOrdered(es, Timestamp);
    forall i, j | 0 <= i < j < |c| ensures c[i].timestamp >= c[j].timestamp {
      assert Timestamp(c[i]) >= Timestamp(c[j]);
    }
  }

  /** A permutation of one client's entries holds only that client's
      entries. */
  lemma SameClient(es: seq<Entry>, c: seq<Entry>, ip: string)
    requires multiset(c) == multiset(es)
    requires forall i :: 0 <= i < |es| ==> es[i].clientAddress == ip
    ensures forall i :: 0 <= i < |c| ==> c[i].clientAddress == ip
  {
    forall i | 0 <= i < |c| ensures c[i].clientAddress == ip {
      assert c[i] in multiset(es);
    }
  }

  /** The totals cover the client's entries in the window, which are some
      of its connections; the hourly, daily and domain tables each account
      for every one of them. */
  lemma UserDetailTotals(file: LogFile, ip: string, now: int, period: string)
    ensures var d, w := UserDetailOf(file, ip, now, period), UserWindow(file, ip, now, period);
      && d.totalRequests == |w| <= |d.connections|
      && d.totalTraffic == SumBytes(w)
      && (forall i :: 0 <= i < |w| ==> w[i].clientAddress == ip && w[i].timestamp >= now - PeriodHours(period) * HourSeconds)
    ensures var d := UserDetailOf(file, ip, now, period);
      && SumOf(d.hourly, RowRequests) == d.totalRequests && SumOf(d.hourly, RowTraffic) == d.totalTraffic
      && SumOf(d.daily, RowRequests) == d.totalRequests && SumOf(d.daily, RowTraffic) == d.totalTraffic
      && SumOf(d.domains, RowRequests) == d.totalRequests && SumOf(d.domains, RowTraffic) == d.totalTraffic
  {
    var mine := UserEntries(file, ip);
    OwnEntries(GetLastLines(file, DetailLines), ip);
    WindowOfClient(mine, ip, now - PeriodHours(period) * HourSeconds);
    ClientConnections(mine, ip);
    DetailTotals(Connections(file, ip), UserWindow(file, ip, now, period), period);
  }

  /** A window of one client's entries holds only that client's entries,
      none older than the limit. */
  lemma WindowOfClient(mine: seq<Entry>, ip: string, limit: int)
    requires forall i :: 0 <= i < |mine| ==> mine[i].clientAddress == ip
    ensures var w := Since(mine, limit);
      && |w| <= |mine|
      && (forall i :: 0 <= i < |w| ==> w[i].clientAddress == ip && w[i].timestamp >= limit)
  {
    var w := Since(mine, limit);
    forall i | 0 <= i < |w| ensures w[i].clientAddress == ip {
      assert w[i] in mine;
    }
  }

  /** Each of the page's three tables accounts for every entry of the
      window and every byte. */
  lemma DetailTotals(connections: seq<Entry>, w: seq<Entry>, period: string)
    ensures var d := DetailOf(connections, w, period);
      && d.totalRequests == |w| && d.totalTraffic == SumBytes(w)
      && SumOf(d.hourly, RowRequests) == d.totalRequests && SumOf(d.hourly, RowTraffic) == d.totalTraffic
      && SumOf(d.daily, RowRequests) == d.totalRequests && SumOf(d.daily, RowTraffic) == d.totalTraffic
      && SumOf(d.domains, RowRequests) == d.totalRequests && SumOf(d.domains, RowTraffic) == d.totalTraffic
  {
    GroupTotals(w, Hour, EntryBytes);
    GroupTotals(w, Day, EntryBytes);
    GroupTotals(w, DetailDomainOf, EntryBytes);
  }

  /** The domain list holds the ten busiest domains of the window (all of
      them when there are fewer), busiest first, no domain left out busier
      than one listed. */
  lemma UserDomainStats(file: LogFile, ip: string, now: int, period: string)
    ensures var d := UserDetailOf(file, ip, now, period);
      var sorted := SortDescending(d.domains, RequestKey);
      && |d.domainStats| == (if |d.domains| < DetailTopDomains then |d.domains| else DetailTopDomains)
      && d.domainStats == sorted[..|d.domainStats|]
      && multiset(sorted) == multiset(d.domains)
      && (forall i, j :: 0 <= i < j < |d.domainStats| ==> d.domainStats[i].requests >= d.domainStats[j].requests)
      && (forall i, j :: 0 <= i < |d.domainStats| <= j < |sorted| ==> sorted[j].requests <= d.domainStats[i].requests)
  {
    var d := UserDetailOf(file, ip, now, period);
    DescendingRows(d.domains, DetailTopDomains);
  }

  /** A descending sort cut after `k` rows: at most `k` rows, busiest
      first, none of the rows cut off busier than one kept. */
  lemma DescendingRows<K>(rows: seq<Row<K>>, k: nat)
    ensures var sorted := SortDescending(rows, RequestKey);
      var kept := Take(sorted, k);
      && multiset(sorted) == multiset(rows)
      && (forall i, j :: 0 <= i < j < |kept| ==> kept[i].requests >= kept[j].requests)
      && (forall i, j :: 0 <= i < |kept| <= j < |sorted| ==> sorted[j].requests <= kept[i].requests)
  {
    var sorted := SortDescending(rows, RequestKey);
    var kept := Take(sorted, k);
    SortDescendingOrdered(rows, RequestKey);
    forall i, j | 0 <= i < j < |kept| ensures kept[i].requests >= kept[j].requests {
      assert RequestKey(sorted[i]) >= RequestKey(sorted[j]);
    }
    forall i, j | 0 <= i < |kept| <= j < |sorted| ensures sorted[j].requests <= kept[i].requests {
      assert RequestKey(sorted[i]) >= RequestKey(sorted[j]);
    }
  }

  /** Domains with equal counts are listed in order of first visit. */
  lemma UserDomainTies(file: LogFile, ip: string, now: int, period: string, c: int)
    ensures var d := UserDetailOf(file, ip, now, period);
      var tie := HasKey(Negated(RequestKey), c);
      Filter(SortDescending(d.domains, RequestKey), tie) == Filter(d.domains, tie)
  {
    var d := UserDetailOf(file, ip, now, period);
    SortByStable(d.domains, Negated(RequestKey), c);
  }

  /** Each listed domain is a domain of the window, and its numbers are
      the count and bytes of the window's entries with that domain. */
  lemma UserDomainRow(file: LogFile, ip: string, now: int, period: string, i: nat)
    requires i < |UserDetailOf(file, ip, now, period).domainStats|
    ensures var d, w := UserDetailOf(file, ip, now, period), UserWindow(file, ip, now, period);
      var row := d.domainStats[i];
      && row.requests == CountOf(w, DetailDomainOf, row.key) > 0
      && row.traffic == SizeOf(w, DetailDomainOf, EntryBytes, row.key)
  {
    var d, w := UserDetailOf(file, ip, now, period), UserWindow(file, ip, now, period);
    var sorted := SortDescending(d.domains, RequestKey);
    SortDescendingOrdered(d.domains, RequestKey);
    assert d.domainStats[i] == sorted[i];
    assert sorted[i] in multiset(d.domains);
    var k :| 0 <= k < |d.domains| && d.domains[k] == sorted[i];
    GroupRows(w, DetailDomainOf, EntryBytes, k);
  }
}

=== FILE: wrappers.dfy ===
/** The Option datatype used for Python's `None` results and for
    conversions that raise, with the members `:-` needs. */
module Wrappers {

  datatype Option<+T> = None | Some(value: T) {

    predicate IsFailure() {
      None?
    }

    function PropagateFailure<U>(): Option<U>
      requires None?
    {
      None
    }

    function Extract(): T
      requires Some?
    {
      value
    }

    /** `value` when present, `default` otherwise. */
    function GetOr(default: T): T {
      match this
      case Some(v) => v
      case None => default
    }
  }
}
